=== FILE: README.md ===
# E-commerce platform domain logic in Dafny

This project models the server-side domain logic of an e-commerce platform. It also models two pure helpers of its web front end. Every request handler becomes a pure state transition over in-memory stores. Products, carts, orders, inventory records, coupons and wishlists are maps keyed by id. Reviews and analytics snapshots are sequences. A handler returns either `Err(Failure(status, message))`, with the HTTP status and message the handler sends, or `Ok` of the new state.

The modules follow the program's components:

- `Common` (`common.dfy`): `Option`, `Failure`, `Result`, the address record, JavaScript `slice`, and sums and means of money amounts.
- `Responses` (`responses.dfy`): the response envelope helpers and the pagination arithmetic.
- `Validators` (`validators.dfy`): credit card (Luhn), phone, CVV, e-mail, slug, string length and enum. Each pattern is stated as the language its regular expression accepts.
- `RequestValidation` (`request_validation.dfy`): the schema-driven `validateRequest`.
- `Catalog` (`catalog.dfy`): the product record, its bounds and defaults, and the product handlers. These cover sort options, listing filters, soft delete, embedded reviews and featured products.
- `Carts` (`carts.dfy`): cart totals and the cart handlers.
- `Orders` (`orders.dfy`): order placement, status updates, the payment bookkeeping and the admin order list.
- `Inventory` (`inventory.dfy`): the inventory ledger, its pre-save hook, reservations, low stock and history.
- `Coupons` (`coupons.dfy`): the stored form of coupon codes, creation with defaults, validation and application.
- `Reviews` (`reviews.dfy`): the review handlers and the product rating they keep up to date.
- `Wishlists` (`wishlists.dfy`): the duplicate-free wishlist.
- `Grouping` (`grouping.dfy`): a generic group-by with counts and sums, a stable descending insertion sort and top-N. The analytics reports use them.
- `Analytics` (`analytics.dfy`): dashboard totals, sales per day, top products, top customers and page-view counters.
- `OrderTimeline` (`order_timeline.dfy`): the status steps of the order-details page.
- `Checkout` (`checkout.dfy`): the address validation, the "same as shipping" switch and the billing address sent by the checkout page.

Money is Dafny `real`, which is exact. Quantities are `int`, because the source never checks their sign. Clock readings, generated ids and the payment gateway's answer are parameters of the handlers.

## Model

| member | source | states |
|---|---|---|
| Common.ClampIndex | server/controllers/inventoryController.js:128 | how `slice` turns a possibly negative index into a position: a negative index counts from the end and is clamped to 0, and an index past the end is clamped to the length |
| Common.Slice | server/controllers/inventoryController.js:128 | `slice(start, end)` holds the elements from the clamped start up to the clamped end, in order, and is empty when the end does not come after the start |
| Common.SumBounds | server/controllers/reviewController.js:64-71 | a sum of `n` values that all lie in `[lo, hi]` lies in `[n*lo, n*hi]` |
| Common.MeanBounds | server/controllers/reviewController.js:64-71 | the mean of a non-empty list of values in `[lo, hi]` lies in `[lo, hi]` |
| Responses.Success | server/utils/responseFormatter.js:6-13 | `success` answers `success: true` with the given status and message |
| Responses.DefaultSuccess | server/utils/responseFormatter.js:6 | `success` defaults to status 200 and message "Success" |
| Responses.Error | server/utils/responseFormatter.js:15-22 | `error` answers `success: false` with the given status and message |
| Responses.DefaultError | server/utils/responseFormatter.js:15 | `error` defaults to status 500 and message "Error" |
| Responses.Created | server/utils/responseFormatter.js:43-50 | `created` answers 201 with `success: true` and the message it is given, "Resource created successfully" by default |
| Responses.Updated | server/utils/responseFormatter.js:52-59 | `updated` answers 200 with `success: true` and the message it is given, "Resource updated successfully" by default |
| Responses.Deleted | server/utils/responseFormatter.js:61-67 | `deleted` answers 200 with `success: true` and the message it is given, "Resource deleted successfully" by default |
| Responses.BadRequest | server/utils/responseFormatter.js:69-71 | `badRequest` answers 400 with `success: false` and the message it is given, "Bad Request" by default |
| Responses.Unauthorized | server/utils/responseFormatter.js:73-75 | `unauthorized` answers 401 with `success: false` and the message it is given, "Unauthorized" by default |
| Responses.Forbidden | server/utils/responseFormatter.js:77-79 | `forbidden` answers 403 with `success: false` and the message it is given, "Forbidden" by default |
| Responses.NotFound | server/utils/responseFormatter.js:81-83 | `notFound` answers 404 with `success: false` and the message it is given, "Resource not found" by default |
| Responses.Conflict | server/utils/responseFormatter.js:85-87 | `conflict` answers 409 with `success: false` and the message it is given, "Conflict" by default |
| Responses.ServerError | server/utils/responseFormatter.js:89-91 | `serverError` answers 500 with `success: false` and the message it is given, "Internal Server Error" by default |
| Responses.HelperDefaults | server/utils/responseFormatter.js:43-91 | called without a message, each named helper answers with its own default message and status |
| Responses.ErrorHelpersClassify | server/utils/responseFormatter.js:69-91 | the five client-error helpers all answer with a 4xx status and `serverError` with a 5xx status, all with `success: false` |
| Responses.PageCount | server/utils/responseFormatter.js:25 | `ceil(total / limit)` is the least page count whose pages hold every record: `pages*limit >= total` and `(pages-1)*limit < total`, and it is 0 exactly when there are no records |
| Responses.Paginated | server/utils/responseFormatter.js:24-41 | the pagination block: status 200, the page count above, `hasNextPage` iff `page < pages`, and `hasPrevPage` iff `page > 1` |
| Responses.PageOf | server/controllers/orderController.js:160-166 | a page below 1 gives a negative skip, which the database refuses; any other page holds the records from position `(page-1)*limit` onwards, in query order: `limit` of them, all that remain when fewer do, and none past the end |
| Responses.EveryRecordHasAPage | server/utils/responseFormatter.js:25 | every record `i` of `total` lies on page `i/limit + 1`, which is between 1 and the page count |
| Validators.DigitsOf | server/utils/validators.js:41 | stripping non-digits leaves a string of digits, no longer than the input, holding exactly the digit characters the input holds |
| Validators.DigitsOfAppend | server/utils/validators.js:41 | stripping distributes over concatenation, so the digits keep their order |
| Validators.DigitsOfOne | server/utils/validators.js:41 | a single character is kept iff it is a digit |
| Validators.DigitsOfDigits | server/utils/validators.js:41 | stripping non-digits from a string of digits returns it unchanged |
| Validators.CreditCard | server/utils/validators.js:40-62 | the right-to-left loop accepts exactly when there are 13 to 19 digits and the Luhn sum is a multiple of 10, where every second digit from the right is doubled and loses 9 when above 9 |
| Validators.CheckPhone | server/utils/validators.js:24-27 | the scan accepts exactly the non-empty strings made of digits, whitespace, `-`, `+`, `(` and `)` that hold at least 10 digits |
| Validators.CvvIsDigitString | server/utils/validators.js:65-68 | an accepted CVV is a string of 3 or 4 digits |
| Validators.EmailIffShape | server/utils/validators.js:7-10 | the e-mail pattern accepts exactly the strings that have no whitespace and exactly one `@`, which is not first, followed by a `.` with text before and after it |
| Validators.JoinedSegmentsAreSlug | server/utils/validators.js:129-131 | any non-empty list of `[a-z0-9]+` segments joined by single hyphens is a slug |
| Validators.SlugIffSegments | server/utils/validators.js:129-131 | the character-level slug test (lower-case letters, digits and hyphens, no hyphen at either end, no two hyphens in a row) accepts exactly the hyphen-joins of `[a-z0-9]+` segments |
| Validators.StringLengthBounds | server/utils/validators.js:98-100 | with the defaults, `stringLength` accepts strings whose UTF-16 length is 1 to 255; the empty string is refused even when `min` is 0; a character beyond U+FFFF counts as two |
| Validators.Utf16Length | server/utils/validators.js:99 | `length` counts UTF-16 code units: at least the number of characters and at most twice it, and 0 only for the empty string |
| Validators.Utf16LengthAppend | server/utils/validators.js:99 | the UTF-16 length of a concatenation is the sum of the lengths |
| Validators.Utf16LengthOfBasicPlane | server/utils/validators.js:99 | without characters beyond U+FFFF, the UTF-16 length is the number of characters |
| Validators.EnumLists | server/utils/validators.js:119-121 | an empty list allows nothing, a list of one allows exactly its element, and a joined list allows what either part allows |
| RequestValidation.Decimal | server/utils/validators.js:66-67 | `String(k)` of a whole number is a non-empty string of decimal digits |
| RequestValidation.DecimalRoundTrip | server/utils/validators.js:66-67 | reading the written digits of `k` back gives `k` |
| RequestValidation.DecimalLength | server/utils/validators.js:66-67 | a number written with `L` digits is below `10^L`, and at least `10^(L-1)` when `L > 1` |
| RequestValidation.MagnitudeText | server/utils/validators.js:66-67 | a whole number below 10^21 is written in plain digits; any other number spelt out is below 10^-6 and written as one digit `d`, `e-` and an exponent `e` with `a * 10^e = d` |
| RequestValidation.NumberTextReadsBack | server/utils/validators.js:66-67 | every number the model spells out reads back, sign, digits and exponent, as the number itself |
| RequestValidation.MagnitudeTextReadsBack | server/utils/validators.js:66-67 | the text of a magnitude reads back as that magnitude |
| RequestValidation.SmallExponent | server/utils/validators.js:66-67 | the digit and exponent found satisfy `m * 10^(e-k) = d`, with `d` from 1 to 9 |
| RequestValidation.ExponentFormValue | server/utils/validators.js:66-67 | the exponent form's digit and exponent denote the number: `a * 10^e = d` |
| RequestValidation.EFormReadsBack | server/utils/validators.js:66-67 | an exponent form reads back as the number it denotes |
| RequestValidation.UnscaledScaled | server/utils/validators.js:66-67 | dividing by ten `e` times undoes multiplying by ten `e` times |
| RequestValidation.Text | server/utils/validators.js:66-67 | a regular expression tests a string as it is |
| RequestValidation.WholeNumberText | server/utils/validators.js:66-67 | a non-zero whole number below 10^21 in magnitude is written as its digits, after `-` when negative |
| RequestValidation.RunValidator | server/utils/validators.js:24-131 | on a string every validator but `enum` passes iff it accepts the string, and does not throw; a validator throws iff it is `enum`, or the value is not a string and the validator is `creditCard`, or `phone` with the value's text matching the phone pattern; `stringLength` rejects every value that is not a string; on a value that is not a string, `email`, `cvv` and `slug` pass iff they accept its `String()` text; `phone` rejects every value whose text fails the phone pattern, and never passes a value that is not a string |
| RequestValidation.DecimalCvv | server/utils/validators.js:65-68 | the written digits of `k` are a CVV iff `100 <= k <= 9999` |
| RequestValidation.CvvOfNumber | server/utils/validators.js:65-68 | a number passes `cvv` iff it is a whole number from 100 to 9999 |
| RequestValidation.SlugOfNumber | server/utils/validators.js:129-131 | a non-zero whole number below 10^21 in magnitude passes `slug` iff it is positive |
| RequestValidation.SlugOfOtherValues | server/utils/validators.js:129-131 | `true` passes `slug`, and so does `0.0000001`, which is written `1e-7` |
| RequestValidation.PhoneOfNumberThrows | server/utils/validators.js:24-27 | a non-zero whole number below 10^21 in magnitude matches the phone pattern, so `phone` throws on it |
| RequestValidation.FieldError | server/utils/validators.js:140-191 | a field's one error is the first check, in the order required, type, validator, minLength, maxLength, min, max, enum, that rejects its value; no earlier check rejects it; and there is none when no check rejects it; lengths are UTF-16 lengths, and a validator that throws rejects nothing |
| RequestValidation.ValidateRequest | server/utils/validators.js:137-195 | the call throws iff the checks of some field reach a validator that throws; otherwise the result is `null` iff no field breaks a rule, and else it maps exactly the failing fields, each to its first failing check |
| RequestValidation.AbsentOptionalFieldIgnored | server/utils/validators.js:149 | an absent or falsy field that is not required never gets an error |
| RequestValidation.MissingRequiredFieldReported | server/utils/validators.js:144-147 | a required field that is absent, falsy or all whitespace is reported as `required`, whatever its other rules, unless the call throws on another field |
| RequestValidation.NonStringCardNumberThrows | server/utils/validators.js:40-41 | a truthy card number that is not a string, with no type rule, makes the whole call throw |
| RequestValidation.EnumValidatorThrows | server/utils/validators.js:119-121 | a schema naming `enum` as a field's validator makes the call throw whenever that field is truthy and passes the required and type checks |
| Catalog.CreateProduct | server/models/Product.js:3-82 | a product is created iff its name and category are non-empty, its price and any discount price are non-negative and any supplied rating is within 0..5; it stores the supplied name, category, prices, stock, rating, review count, featured and active flags, with the schema defaults for absent ones (stock 0, rating 0, count 0, not featured, active); a refused record answers 500 |
| Catalog.CreatedFeaturedIsServed | server/controllers/productController.js:68-80 | a product created with the featured flag set is served first by the featured list when it comes first in the collection |
| Catalog.EffectivePrice | server/controllers/cartController.js:56 | a cart line is priced at the discount price when it is set and non-zero, and at the list price otherwise |
| Catalog.EffectivePriceNonNegative | server/models/Product.js:13-21 | a product within its schema bounds never gives a negative cart price |
| Catalog.SortOption | server/controllers/productController.js:17-27 | `price_asc` sorts by price ascending, `price_desc` by price descending, `rating` by rating descending, and anything else or nothing by creation date descending |
| Catalog.OnlyPriceAscAscends | server/controllers/productController.js:17-27 | only `price_asc` sorts ascending, and only the two price options sort by price |
| Catalog.ListingIds | server/controllers/productController.js:6-10 | a product is listed iff it is active and, when a category is given, in that category |
| Catalog.ListingPagination | server/controllers/productController.js:16-48 | a page below 1 answers 500 with the database's refusal of the negative skip; otherwise the page and limit are echoed, the total counts the listed products and the page count is the least that holds them all |
| Catalog.DeleteProduct | server/controllers/productController.js:104-114 | deleting keeps every record and changes only the target's `isActive`, to false; an unknown id answers 404 "Product not found" |
| Catalog.DeletedProductLeavesListings | server/controllers/productController.js:6 | after a delete, the listings are the old ones minus the deleted product, whose record is still stored |
| Catalog.RoundTenths | server/controllers/productController.js:142 | the result is a whole number of tenths within 0.05 of the value, a tie going away from zero: the nearest tenth |
| Catalog.AddReview | server/controllers/productController.js:125-144 | the review is appended; `numReviews` becomes the new number of embedded reviews; the rating is their mean rounded to one decimal and lies within 0..5; nothing else changes; 404 for an unknown product, 500 when the save is refused, and the save is refused exactly when the updated product breaks a schema bound |
| Catalog.AddReviewWithinScaleSucceeds | server/models/Product.js:36-41 | when every embedded rating, the new one included, lies in 1..5, adding a review is never refused by the rating bounds |
| Catalog.FeaturedCandidates | server/controllers/productController.js:158 | the candidates are exactly the products that are featured and active |
| Catalog.FeaturedCandidatesAppend | server/controllers/productController.js:158 | selecting candidates distributes over concatenation, so they keep collection order |
| Catalog.Featured | server/controllers/productController.js:158 | the first `min(8, candidates)` featured active products, in collection order |
| Carts.CalculateTotals | server/controllers/cartController.js:4-10 | the subtotal is the sum of price×quantity, the tax is a tenth of it, and the total is the subtotal plus the tax |
| Carts.SubtotalAppend | server/controllers/cartController.js:5 | the subtotal of two lists of lines is the sum of their subtotals |
| Carts.SubtotalNonNegative | server/controllers/cartController.js:5 | lines with non-negative prices and quantities have a non-negative subtotal |
| Carts.FirstLine | server/controllers/cartController.js:48 | `find` stops at the first line for the product |
| Carts.WithoutProduct | server/controllers/cartController.js:125 | filtering keeps exactly the lines of other products and changes nothing when the product has no line |
| Carts.WithoutProductAppend | server/controllers/cartController.js:125 | filtering distributes over concatenation, so the remaining lines keep their order |
| Carts.WithoutProductOne | server/controllers/cartController.js:125 | a single line is dropped iff it is for the product |
| Carts.SubtotalAfterIncrement | server/controllers/cartController.js:51 | raising one line's quantity by `d` raises the subtotal by that line's frozen price times `d` |
| Carts.GetCart | server/controllers/cartController.js:12-18 | the user's cart is returned; when there is none, an empty cart is stored and returned |
| Carts.AddToCart | server/controllers/cartController.js:29-65 | 404 for an unknown product and 400 when its stock is below the requested quantity; otherwise the first line for the product grows, or a line at the effective price is appended; the stored totals match the new lines |
| Carts.AddedLines | server/controllers/cartController.js:48-58 | adding to an existing line changes only that line's quantity; adding a new product appends one line; the subtotal grows by price×quantity either way |
| Carts.AddKeepsLinesDistinct | server/controllers/cartController.js:48-58 | adding never creates a second line for a product |
| Carts.AddCanExceedStock | server/controllers/cartController.js:38-51 | the stock check looks only at the requested quantity, so a line can hold more than the stock (2 in the cart plus 2 added against a stock of 3) |
| Carts.UpdateCartItem | server/controllers/cartController.js:78-103 | 404 "Cart not found" or "Item not in cart"; a quantity of 0 or less removes the product's lines; any other quantity replaces the first line's quantity; the totals match the new lines |
| Carts.RemoveFromCart | server/controllers/cartController.js:116-132 | 404 without a cart; otherwise the lines are the old lines without the product's, in their old order; removing an absent product changes no line; the totals match |
| Carts.ClearCart | server/controllers/cartController.js:145-157 | 404 without a cart; otherwise no lines and all three totals 0 |
| Carts.HandlersKeepCartsPriced | server/controllers/cartController.js:60-63 | every cart handler keeps each stored cart's totals equal to the totals computed from its lines |
| Orders.StockProblem | server/controllers/orderController.js:16-21 | no problem iff every line's product exists with at least the line's quantity in stock; otherwise the first bad line decides: 400 "Insufficient stock for" and the product name, or 500 when its product is gone |
| Orders.OrderLines | server/controllers/orderController.js:25-30 | each order line copies the product, quantity and frozen price of its cart line, with subtotal price×quantity |
| Orders.DecrementStock | server/controllers/orderController.js:40-44 | every product's stock drops by the total quantity ordered of it, and no product is added or removed |
| Orders.CreateOrder | server/controllers/orderController.js:6-57 | a missing or empty cart answers 400 "Cart is empty"; otherwise a stock problem answers exactly the first bad line's error; both before anything changes; otherwise the order, under its id, copies the cart's lines and totals, stores the shipping and billing addresses, payment method and creation time, has status "pending" and no transaction; stock is decremented and the cart is emptied with zero totals |
| Orders.QuantityForDistinct | server/controllers/orderController.js:40-44 | with distinct lines, the quantity ordered of a product is that of its one line, or 0 |
| Orders.CreateOrderNeverOversells | server/controllers/orderController.js:16-44 | with distinct cart lines, no product's stock becomes negative after a successful order |
| Orders.DuplicateLinesCanOversell | server/controllers/orderController.js:16-44 | with two lines for one product, each within stock, an order can take the stock below zero (two lines of 2 against a stock of 3) |
| Orders.UpdateOrderStatus | server/controllers/orderController.js:96-118 | any status is stored and `updatedAt` is set to the update time, with no transition check and nothing else changed; an unknown order answers 404 "Order not found" |
| Orders.StatusCanMoveBackwards | server/controllers/orderController.js:100-108 | a delivered order can be set back to pending |
| Orders.AnyStatusCanFollowAny | server/controllers/orderController.js:100-108 | from any status of an existing order every status can be set, and setting the same status again changes only `updatedAt` |
| Orders.ChargeAmount | server/controllers/orderController.js:131 | the charged amount is within half a cent of the total, in cents |
| Orders.ProcessPayment | server/controllers/orderController.js:120-149 | an unknown order answers 404; a declined charge answers 500 with its message; a successful charge sets the payment status to "completed" and stores the charge id, and nothing else changes |
| Orders.WithStatus | server/controllers/orderController.js:155-157 | filtering by status keeps exactly the orders with that status, and all orders when no status is given |
| Orders.WithStatusAppend | server/controllers/orderController.js:155-157 | the status filter distributes over concatenation, so kept orders keep query order |
| Orders.WithStatusOne | server/controllers/orderController.js:155-157 | a single order is kept iff no status is given or it has that status |
| Orders.GetAllOrders | server/controllers/orderController.js:151-183 | a page below 1 answers 500 with the database's refusal of the negative skip; otherwise the total counts the orders the status filter admits, the page holds those from position `(page-1)*limit`, `limit` of them or all that remain, and the page count is `ceil(total/limit)` |
| Inventory.Save | server/models/Inventory.js:61-65 | after every save, `available == quantity - reserved` |
| Inventory.NewRecord | server/models/Inventory.js:10-30 | a new record has reserved 0, reorder level 10, reorder quantity 50 and no history |
| Inventory.DefaultRecord | server/models/Inventory.js:10-30 | a record created with no quantity has quantity, reserved and available all 0 |
| Inventory.Applied | server/controllers/inventoryController.js:64-77 | purchase and return add the amount; sale, adjustment and damage subtract it |
| Inventory.UpdateInventory | server/controllers/inventoryController.js:49-100 | a sale larger than the quantity answers 400 "Insufficient stock"; otherwise the quantity changes by the typed amount, exactly one history entry is appended (reference defaulting to ""), a purchase sets `lastRestocked` to the update time and other types keep it; the record is saved and the product's stock is set to the new quantity |
| Inventory.FirstPurchaseCountsTwice | server/controllers/inventoryController.js:54-67 | for a product with no record, a first purchase of `q` leaves quantity `2q` |
| Inventory.RefusedFirstSaleCreatesRecord | server/controllers/inventoryController.js:54-77 | a refused first sale still leaves a new, empty record behind |
| Inventory.ReserveStock | server/controllers/inventoryController.js:139-165 | 404 "Inventory not found" without a record; 400 "Insufficient available stock" when `available < q`; otherwise reserved grows by exactly `q` and the record is saved |
| Inventory.ReleaseReservedStock | server/controllers/inventoryController.js:167-193 | 404 "Inventory not found" without a record; 400 "Cannot release more than reserved" when `reserved < q`; otherwise reserved drops by exactly `q`, stays non-negative, and the record is saved |
| Inventory.ReserveKeepsReservedWithinQuantity | server/models/Inventory.js:61-65 | from a saved record with `reserved <= quantity`, a successful reserve keeps `reserved <= quantity` |
| Inventory.HandlersKeepStoreWellFormed | server/models/Inventory.js:4-9 | every inventory handler keeps one saved record per product, stored under that product |
| Inventory.LowStockProducts | server/controllers/inventoryController.js:104-106 | a product is low on stock iff its record's available quantity is at most its reorder level |
| Inventory.LowStockOfSaved | server/controllers/inventoryController.js:104-106 | for a saved record, low stock means `quantity - reserved <= reorderLevel` |
| Inventory.Reverse | server/controllers/inventoryController.js:128 | reversing keeps the length and reads the elements back to front |
| Inventory.History | server/controllers/inventoryController.js:128 | the history read is the last `limit` entries, newest first; a limit of 0 gives every entry, as `slice(-0)` is `slice(0)` |
| Coupons.UpperChar | server/controllers/couponController.js:7 | upper-casing changes exactly the ASCII lower-case letters |
| Coupons.ToUpper | server/controllers/couponController.js:7 | upper-casing a string upper-cases each character in place |
| Coupons.ToUpperIdempotent | server/models/Coupon.js:8 | upper-casing twice is upper-casing once |
| Coupons.TrimStart | server/models/Coupon.js:9 | dropping leading whitespace leaves a suffix that starts with a non-space |
| Coupons.TrimEnd | server/models/Coupon.js:9 | dropping trailing whitespace leaves a prefix that ends with a non-space |
| Coupons.Trim | server/models/Coupon.js:9 | a trimmed string is no longer than the input and has no whitespace at either end |
| Coupons.TrimRemovesOnlyWhitespace | server/models/Coupon.js:9 | trimming removes only whitespace: the result is a contiguous stretch of the input, and everything outside it is whitespace |
| Coupons.ToUpperTrimStart | server/models/Coupon.js:8-9 | upper-casing commutes with dropping leading whitespace |
| Coupons.ToUpperTrimEnd | server/models/Coupon.js:8-9 | upper-casing commutes with dropping trailing whitespace |
| Coupons.NormalizeEitherOrder | server/models/Coupon.js:8-9 | the `uppercase` and `trim` setters give the same stored code in either order |
| Coupons.NormalizeIdempotent | server/models/Coupon.js:4-10 | a stored code is its own stored form |
| Coupons.TrimIdempotentOnTrimmed | server/models/Coupon.js:9 | a string with no whitespace at either end is its own trim |
| Coupons.CreateCoupon | server/controllers/couponController.js:128-140 | a coupon is created iff its stored code is non-empty and unused and its value is non-negative; it is stored under its stored code with the supplied value, dates and other fields, and the schema defaults for absent ones (percentage, minimum 0, no cap, no limit, usage count 0, no uses, per-user limit 1, active); a refusal answers 500 |
| Coupons.CreateKeepsStoreWellKeyed | server/models/Coupon.js:4-10 | creating keeps every coupon stored under its own code, in stored form |
| Coupons.UserUsage | server/controllers/couponController.js:37-38 | the caller's entry is the first one that names them, and none iff no entry names them |
| Coupons.StatusOf | server/controllers/couponController.js:7-40 | a refusal answers 404 iff the coupon is not found, and 400 otherwise |
| Coupons.Discount | server/controllers/couponController.js:43-51 | a fixed discount is its value whatever the amount; a percentage discount is amount×value/100, capped at the maximum only when the maximum is set and non-zero |
| Coupons.ValidateCoupon | server/controllers/couponController.js:3-65 | the code is looked up upper-cased; the verdict is the first refusal, in the order not found, inactive, outside the inclusive date range, global limit, below the minimum, per-user limit; with no refusal, the discount |
| Coupons.BelowMinimumNeverAccepted | server/controllers/couponController.js:30-34 | a found coupon is never accepted for an amount below its minimum, whatever its discount type |
| Coupons.LimitsThatCannotApply | server/controllers/couponController.js:25-40 | a user with no entry never reaches the per-user limit, and a missing or zero usage limit never blocks |
| Coupons.PercentageDiscountWithinAmount | server/controllers/couponController.js:43-48 | a percentage of at most 100 with a non-negative cap never discounts more than the amount |
| Coupons.DiscountExamples | server/controllers/couponController.js:43-51 | 20% of 200 capped at 15 gives 15, 20% of 100 with no cap gives 20, and a fixed 50 on an order of 30 gives 50 |
| Coupons.ApplyCoupon | server/controllers/couponController.js:67-101 | an unknown code answers 404 "Coupon not found"; otherwise the usage count grows by 1 and the caller's entry grows by 1 with `lastUsedAt` set to the time of use, or an entry with count 1 and that time is appended, with no limit, date or active check |
| Coupons.SameUsersSameIndex | server/controllers/couponController.js:78-79 | entry lists that name the same users in the same positions find the same entry for a caller |
| Coupons.UserUsageAppend | server/controllers/couponController.js:86-88 | appending an entry changes the lookup only for a caller with no earlier entry |
| Coupons.ApplyCountsOneUse | server/controllers/couponController.js:78-90 | applying raises the caller's own count by exactly one and leaves every other user's count as it was |
| Coupons.ApplyCanExceedLimit | server/controllers/couponController.js:71-90 | applying a coupon already at its global limit still succeeds and takes the count past the limit |
| Coupons.SecondUseRefusedByDefault | server/models/Coupon.js:41-44 | with the default per-user limit of 1, a coupon a user has applied is then refused to that user |
| Reviews.RatingsFor | server/controllers/reviewController.js:64-66 | the ratings of one product's reviews hold at most one rating per review |
| Reviews.RatingsForOne | server/controllers/reviewController.js:64-66 | a single review contributes its rating to its own product's list and nothing to any other |
| Reviews.IndexOf | server/controllers/reviewController.js:88 | the position of the review with the id, or none iff no review has it |
| Reviews.RatingsForAppend | server/controllers/reviewController.js:64-66 | collecting a product's ratings distributes over concatenation |
| Reviews.RatingsForWithout | server/controllers/reviewController.js:137-145 | removing a review of another product leaves a product's ratings unchanged |
| Reviews.RatingsForReplace | server/controllers/reviewController.js:98-107 | replacing a review by one for the same product keeps every product's number of ratings, and changes no product's list when the product differs or the rating is kept |
| Reviews.RatingsForWithin | server/controllers/reviewController.js:64-71 | when every review rating lies in a range, so does every collected rating |
| Reviews.CreateReview | server/controllers/reviewController.js:31-81 | 404 "Product not found" and 400 "You have already reviewed this product"; otherwise the review is appended with its title and comment, marked verified, and the product's rating becomes the mean of its ratings and its review count their number |
| Reviews.UpdateReview | server/controllers/reviewController.js:83-121 | 404 "Review not found" and 403 "Not authorized to update this review"; otherwise the rating, title and comment change and `updatedAt` is set to the update time, and the product's rating becomes the new mean, with the review count untouched |
| Reviews.DeleteReview | server/controllers/reviewController.js:123-163 | only the author or an admin may delete (403 otherwise, 404 for an unknown review); afterwards the product's rating and count are the mean and number of the remaining reviews, or both 0 when none remain |
| Reviews.MarkHelpful | server/controllers/reviewController.js:165-187 | the review's helpful count grows by exactly 1 and nothing else changes; 404 for an unknown review |
| Reviews.MarkUnhelpful | server/controllers/reviewController.js:189-211 | the review's unhelpful count grows by exactly 1 and nothing else changes; 404 for an unknown review |
| Reviews.CreateKeepsConsistent | server/controllers/reviewController.js:63-71 | if every product's rating and count agree with its reviews, they still do after a create |
| Reviews.UpdateKeepsConsistent | server/controllers/reviewController.js:98-111 | if every product's rating and count agree with its reviews, they still do after an update, although the update does not touch the count |
| Reviews.DeleteKeepsConsistent | server/controllers/reviewController.js:137-154 | a delete keeps every product's rating and count agreeing with its reviews |
| Reviews.MarksKeepConsistent | server/controllers/reviewController.js:169-201 | the helpful and unhelpful marks leave every product's rating and count consistent |
| Reviews.ConsistentRatingsInScale | server/controllers/reviewController.js:64-71 | when every review rating lies in 1..5, a consistent product's rating lies in 1..5 if it has reviews and is 0 if it has none |
| Reviews.DeletingLastReviewResets | server/controllers/reviewController.js:148-151 | deleting a product's only review sets its rating and count to 0 |
| Wishlists.GetWishlist | server/controllers/wishlistController.js:4-19 | the user's wishlist is returned; an empty one is stored first when they have none |
| Wishlists.AddToWishlist | server/controllers/wishlistController.js:21-54 | 404 "Product not found" for an unknown product; a product already present changes nothing; otherwise it is appended, and no other user's list changes |
| Wishlists.Without | server/controllers/wishlistController.js:60-65 | removal keeps exactly the other products |
| Wishlists.WithoutAppend | server/controllers/wishlistController.js:60-65 | removal distributes over concatenation, so the remaining entries keep their order |
| Wishlists.WithoutKeepsNoDuplicates | server/controllers/wishlistController.js:60-65 | removal keeps a list free of duplicates |
| Wishlists.RemoveFromWishlist | server/controllers/wishlistController.js:56-78 | 404 "Wishlist not found" without a list; otherwise the product's entries are removed |
| Wishlists.ClearWishlist | server/controllers/wishlistController.js:80-98 | 404 "Wishlist not found" without a list; otherwise the list is empty |
| Wishlists.IsInWishlist | server/controllers/wishlistController.js:100-122 | true iff the user has a list and some entry of it is the product; false without a list |
| Wishlists.HandlersKeepNoDuplicates | server/controllers/wishlistController.js:36-44 | every wishlist handler keeps every list free of duplicates |
| Wishlists.AddThenRemove | server/controllers/wishlistController.js:36-65 | a product is in the list right after being added and not in it right after being removed |
| Wishlists.AddIdempotent | server/controllers/wishlistController.js:36-44 | adding the same product twice is adding it once |
| Grouping.FindKey | server/controllers/analyticsController.js:100 | the tally for a key is found iff one is listed, and it carries that key |
| Grouping.AbsentKeySumsToZero | server/controllers/analyticsController.js:100-105 | a key with no events has count and sums 0 |
| Grouping.AddEventSummarises | server/controllers/analyticsController.js:97-110 | folding in one more event keeps exactly one accurate tally per key |
| Grouping.GroupBy | server/controllers/analyticsController.js:97-110 | grouping yields exactly one tally per key that occurs, holding the number of its events and the sums of their units and amounts |
| Grouping.Insert | server/controllers/analyticsController.js:112-113 | inserting into a sorted list keeps it sorted and adds exactly the one element |
| Grouping.SortDesc | server/controllers/analyticsController.js:112-113 | the sort returns a permutation of its input, sorted non-increasing by score |
| Grouping.SortKeepsSummary | server/controllers/analyticsController.js:112-113 | sorting the tallies keeps them a summary of the same events |
| Grouping.Top | server/controllers/analyticsController.js:112-114 | the top `n` hold `min(n, tallies)` accurate tallies, sorted by score, all of them when `n` covers every key, and no tally left out scores higher than one kept |
| Grouping.PrefixOfSortedScoresHigher | server/controllers/analyticsController.js:112-114 | in a sorted reordering, nothing outside a prefix scores higher than anything in it |
| Analytics.DashboardStats | server/controllers/analyticsController.js:6-52 | the newest 30 snapshots are shown; revenue and orders are their sums; customers and conversion come from the newest; all five figures are 0 with no snapshot; the average is revenue per order, or 0 without orders |
| Analytics.SumsAppend | server/controllers/analyticsController.js:33-34 | the revenue and order sums distribute over concatenation |
| Analytics.DashboardIgnoresOlder | server/controllers/analyticsController.js:6-52 | snapshots older than the newest 30 never change the dashboard |
| Analytics.DashboardAddsNewest | server/controllers/analyticsController.js:6-52 | with at most 30 snapshots shown, the totals are the newest snapshot's revenue and orders plus those of the rest |
| Analytics.DayOf | server/controllers/analyticsController.js:67 | an order's date is the UTC day that contains its timestamp |
| Analytics.SalesByDate | server/controllers/analyticsController.js:54-88 | one row per day with orders, holding their count, the sum of their item quantities and the sum of their totals, in strictly ascending date order |
| Analytics.EarliestFirstIsAscending | server/controllers/analyticsController.js:83 | rows sorted newest-last with one row per day are strictly ascending by day |
| Analytics.ProductAnalytics | server/controllers/analyticsController.js:90-123 | per product, the units sold and the sum of price×quantity over every order line; at most `limit` products, by revenue non-increasing; no product left out took in more than a listed one |
| Analytics.CustomerAnalytics | server/controllers/analyticsController.js:125-166 | per customer, the number of orders and the total spent; at most 10 customers, by total spent non-increasing; no customer left out spent more than a listed one |
| Analytics.TopByRevenueKeepsBest | server/controllers/analyticsController.js:112-114 | a key with events that the top rows leave out took in no more than any listed row |
| Analytics.NewSnapshot | server/models/Analytics.js:62-81 | a new snapshot has 0 page views and every declared traffic source and device counter at 0 |
| Analytics.Bump | server/controllers/analyticsController.js:185 | one more for a declared counter and no change to the others or to the set of counters |
| Analytics.Given | server/controllers/analyticsController.js:184-187 | a source or device counts iff it is present and non-empty |
| Analytics.RecordPageView | server/controllers/analyticsController.js:168-200 | today's snapshot, or a new one, gains exactly one page view and one on the named source and device counters; every other counter and field is unchanged |
| Analytics.UnknownSourceOnlyCountsView | server/models/Analytics.js:70-76 | a source the schema does not declare changes only the page count |
| OrderTimeline.IndexOf | src/pages/OrderDetails.jsx:36 | `indexOf` gives the first position holding the value, or -1 iff there is none |
| OrderTimeline.GetStatusSteps | src/pages/OrderDetails.jsx:32-38 | four steps, pending, processing, shipped and delivered, in that order; a step is completed iff its position is at most the order status's position |
| OrderTimeline.CompletedUpToStatus | src/pages/OrderDetails.jsx:36 | for a status on the timeline, exactly the steps up to and including it are completed |
| OrderTimeline.PendingAndDelivered | src/pages/OrderDetails.jsx:36 | "pending" completes only the first step and "delivered" completes all four |
| OrderTimeline.OffTimelineCompletesNothing | src/pages/OrderDetails.jsx:36 | a status off the timeline completes no step |
| Checkout.HandleSameAsShipping | src/pages/Checkout.jsx:63-70 | checking the box copies the shipping address into billing; unchecking keeps the billing address; nothing else changes |
| Checkout.ValidateAddresses | src/pages/Checkout.jsx:72-88 | the form passes iff all five shipping fields are filled and, unless billing is the same as shipping, all five billing fields are too; shipping is reported first |
| Checkout.PlaceOrder | src/pages/Checkout.jsx:90-104 | no order request is sent when validation fails; the billing address sent is the shipping address when the box is checked and the billing form otherwise |
| Checkout.SameAsShippingIgnoresBilling | src/pages/Checkout.jsx:79-100 | with the box checked, the billing form affects neither validation nor the request |

## Left out

- Order.js, Cart.js, Review.js, Wishlist.js and User.js are not part of this model. Their defaults are taken to be those the controllers rely on: zero totals, "pending" statuses and an empty `usedBy`.
- Database mechanics are left out: `populate`, `$text` search, query casting, and the unique indexes beyond the coupon code. Stores are maps keyed by id, and handlers receive only the records a query would match, in query order.
- Saves that fail on schema validation are modelled only where a handler's outcome depends on them: product bounds, coupon creation and embedded-review ratings. An unknown inventory history type is a closed datatype here, not a failing save.
- Concurrency is left out. Each handler is one atomic step, and the source has no locking.
- Floating point is left out. Money is exact `real`, so the 10% tax, the review means, `toFixed(1)` and the charged cents are exact. `Catalog.RoundTenths` and `Orders.ChargeAmount` state rounding to the nearest tenth or cent, not IEEE behaviour.
- Time stamps that a schema fills in by default are not modelled: `createdAt` and `updatedAt` on creation and on `save()`, a history entry's `createdAt`, and a `usedBy` entry's `lastUsedAt` default. The stamps the handlers write themselves are modelled: `updatedAt` by `updateOrderStatus` and `updateReview`, `lastRestocked` by a purchase, and `lastUsedAt` by `applyCoupon`.
- Clocks, dates and generated ids are parameters. This covers `now`, order, review and inventory ids, and the start of the day for page views. The period window of the sales report and the date range of the dashboard are applied by the caller, which passes the matching snapshots newest first.
- Stripe is left out. The payment gateway is a function from the amount in cents to a charge or a decline. The e-mail service is left out.
- Coupons.UpperChar: only ASCII letters are upper-cased; other letters keep their case.
- Coupons.ToUpper: mappings that change the length, such as `ß` to `SS`, are left out, so the result always has the input's length.
- Mongoose's query-casting setters are not modelled, so a coupon lookup upper-cases the code but does not trim it.
- The text of the minimum-order message is not modelled. A refusal is a `Rejection` value with its status.
- `validateRequest` reports which check failed, not the message text. `min` and `max` compare numbers and booleans only, and a string value is taken to pass them. NaN is not a value.
- RequestValidation.FieldError: the values are those of a flat JSON body: absent, `null`, booleans, numbers and strings. Arrays and objects (truthy, `typeof` "object", an array's `.length` feeding the length checks, and their `String()` text feeding the patterns) are left out.
- RequestValidation.ValidateRequest: a body field holding an array or an object cannot be expressed, for the same reason.
- RequestValidation.RunValidator: a named validator is called with the value alone, as `validateRequest` calls it; the seven names modelled are `email`, `phone`, `creditCard`, `cvv`, `slug`, `stringLength` and `enum`.
- `validators.url`, `date`, `expiryDate`, `password`, `strongPassword`, `alphanumeric`, `array`, `object`, `positiveNumber` and `nonNegativeNumber` are left out. They are either not among the modelled rules or delegate to the `URL` and `Date` constructors.
- The read-only handlers are left out, because they only fetch records: `getProductById`, `getOrders`, `getOrderById`, `getInventory`, `getAllCoupons`, `getProductReviews`. So are `updateProduct`, `updateCoupon` and `deleteCoupon`, which copy the request body through the database.
- The customer counts of `getCustomerAnalytics` are left out, because they count User records.
- Authentication, route tables, logging, environment checks and all React rendering are left out. Callers appear as a user id and a role.
- Orders.GetAllOrders: requires a positive page size; the source would divide by a zero limit. A missing limit defaults to 10.
- Catalog.ListingPagination: requires a positive page size, for the same reason.
- Responses.PageOf: requires a positive page size, for the same reason.
- The text of the database's refusal of a negative skip is a parameter (`refusal`) of `Orders.GetAllOrders` and `Catalog.ListingPagination`.
- Responses.Paginated: requires a positive page size, for the same reason.
- RequestValidation.NumberText: numbers are exact reals, not doubles. Only whole numbers below 10^21 in magnitude and one-digit numbers below 10^-6 are spelt out; every other number is written with a decimal point or `e+`, and its text is left unspelt (`None`), where no validator pattern accepts it. The search for the exponent stops at 324.
- Coupons.CreateCoupon: each supplied `usedBy` entry is stored as given; the defaults inside an entry (count 1, `lastUsedAt`) are not modelled.
- Catalog.CreateProduct: the name, prices, category, stock, rating, review count and the featured and active flags are modelled. The required description and image, `images`, `sku`, `tags`, reviews supplied in the body, and the trimming of the name are not; a created product always starts with no embedded reviews.
- Analytics.ProductAnalytics: states the length bound only for a non-negative limit. A negative `slice` end drops products from the end instead.
- Analytics.DashboardStats: `totalCustomers || 0` and `conversionRate || 0` are the stored numbers, because a stored number is never missing here.

=== FILE: analytics.dfy ===
/** The analytics reports: the dashboard totals over daily snapshots, sales
    per day, the best-selling products, the best customers, and the
    page-view counters of today's snapshot. */
module Analytics {
  import opened Common
  import opened Grouping
  import Orders

  /** A daily snapshot, reduced to the fields the reports read and write. */
  datatype Snapshot = Snapshot(
    date: int,
    totalRevenue: real,
    totalOrders: int,
    totalCustomers: int,
    conversionRate: real,
    pageViews: int,
    trafficSources: map<string, int>,
    deviceBreakdown: map<string, int>)

  // ---------------------------------------------------------------- dashboard

  datatype Stats = Stats(
    totalRevenue: real,
    totalOrders: int,
    totalCustomers: int,
    averageOrderValue: real,
    conversionRate: real)

  /** The snapshots shown and the totals computed from them. */
  datatype Dashboard = Dashboard(stats: Stats, analytics: seq<Snapshot>)

  function RevenueSum(ss: seq<Snapshot>): real {
    if |ss| == 0 then 0.0 else RevenueSum(ss[..|ss| - 1]) + ss[|ss| - 1].totalRevenue
  }

  function OrderSum(ss: seq<Snapshot>): int {
    if |ss| == 0 then 0 else OrderSum(ss[..|ss| - 1]) + ss[|ss| - 1].totalOrders
  }

  /** `getDashboardStats`, given the snapshots in the date range newest
      first: the latest 30 of them are summed; customers and conversion come
      from the newest; with no snapshot every figure is 0. */
  function DashboardStats(snapshots: seq<Snapshot>): (r: Dashboard)
    ensures |r.analytics| == if |snapshots| < 30 then |snapshots| else 30
    ensures forall i :: 0 <= i < |r.analytics| ==> r.analytics[i] == snapshots[i]
    ensures |snapshots| == 0 ==> r.stats == Stats(0.0, 0, 0, 0.0, 0.0)
    ensures |snapshots| > 0 ==>
      && r.stats.totalRevenue == RevenueSum(r.analytics)
      && r.stats.totalOrders == OrderSum(r.analytics)
      && r.stats.totalCustomers == snapshots[0].totalCustomers
      && r.stats.conversionRate == snapshots[0].conversionRate
    ensures r.stats.totalOrders > 0 ==> r.stats.averageOrderValue * (r.stats.totalOrders as real) == r.stats.totalRevenue
    ensures r.stats.totalOrders <= 0 ==> r.stats.averageOrderValue == 0.0
  {
    var shown := Slice(snapshots, 0, 30);
    TakeIsPrefix(snapshots, 30);
    if |shown| == 0 then Dashboard(Stats(0.0, 0, 0, 0.0, 0.0), [])
    else
      var revenue := RevenueSum(shown);
      var orders := OrderSum(shown);
      var average := if orders > 0 then revenue / (orders as real) else 0.0;
      Dashboard(Stats(revenue, orders, shown[0].totalCustomers, average, shown[0].conversionRate), shown)
  }

  /** The revenue and order sums distribute over concatenation. */
  lemma {:induction false} SumsAppend(a: seq<Snapshot>, b: seq<Snapshot>)
    ensures RevenueSum(a + b) == RevenueSum(a) + RevenueSum(b)
    ensures OrderSum(a + b) == OrderSum(a) + OrderSum(b)
  {
    if |b| == 0 {
      assert a + b == a;
    } else {
      assert (a + b)[..|a + b| - 1] == a + b[..|b| - 1];
      SumsAppend(a, b[..|b| - 1]);
    }
  }

  /** Snapshots beyond the 30 newest never change the dashboard. */
  lemma DashboardIgnoresOlder(newest: seq<Snapshot>, older: seq<Snapshot>)
    requires |newest| >= 30
    ensures DashboardStats(newest + older) == DashboardStats(newest)
  {
    assert Slice(newest + older, 0, 30) == Slice(newest, 0, 30);
  }

  /** Each shown snapshot adds its own revenue and orders to the totals. */
  lemma DashboardAddsNewest(s: Snapshot, rest: seq<Snapshot>)
    requires |rest| < 29
    ensures DashboardStats([s] + rest).stats.totalRevenue == s.totalRevenue + RevenueSum(rest)
    ensures DashboardStats([s] + rest).stats.totalOrders == s.totalOrders + OrderSum(rest)
  {
    var r := DashboardStats([s] + rest);
    assert r.analytics == [s] + rest;
    SumsAppend([s], rest);
    assert [s][..0] == [];
  }

  // ---------------------------------------------------------------- sales per day

  /** Milliseconds in a day: an order's date is its UTC calendar day. */
  const DayMillis: int := 86400000

  /** The day number of a timestamp: `toISOString().split('T')[0]` as days
      since the epoch (flooring, also before 1970). */
  function DayOf(t: int): (d: int)
    ensures d * DayMillis <= t < (d + 1) * DayMillis
  {
    t / DayMillis
  }

  /** The number of items in an order: the sum of its line quantities. */
  function ItemUnits(items: seq<Orders.OrderItem>): int {
    if |items| == 0 then 0 else ItemUnits(items[..|items| - 1]) + items[|items| - 1].quantity
  }

  /** One event per order: its day, its item count and its total. */
  function SalesEvents(orders: seq<Orders.Order>): (es: seq<Event<int>>)
    ensures |es| == |orders|
    ensures forall i :: 0 <= i < |orders| ==>
      es[i] == Event(DayOf(orders[i].createdAt), ItemUnits(orders[i].items), orders[i].total)
  {
    seq(|orders|, i requires 0 <= i < |orders| =>
      Event(DayOf(orders[i].createdAt), ItemUnits(orders[i].items), orders[i].total))
  }

  /** Ascending by day is descending by the negated day. */
  function Earliest(t: Tally<int>): real {
    -(t.key as real)
  }

  /** `getSalesAnalytics` over the orders in the period: one row per day that
      has an order (count = orders, units = sales, amount = revenue), in
      ascending date order. */
  function SalesByDate(orders: seq<Orders.Order>): (rows: seq<Tally<int>>)
    ensures Summarises(rows, SalesEvents(orders))
    ensures forall i, j :: 0 <= i < j < |rows| ==> rows[i].key < rows[j].key
  {
    var es := SalesEvents(orders);
    var grouped := GroupBy(es);
    SortKeepsSummary(grouped, es, Earliest);
    var rows := SortDesc(grouped, Earliest);
    EarliestFirstIsAscending(rows);
    rows
  }

  /** Sorted by `Earliest` with one row per day is strictly ascending by day. */
  lemma EarliestFirstIsAscending(rows: seq<Tally<int>>)
    requires SortedDesc(rows, Earliest) && DistinctKeys(rows)
    ensures forall i, j :: 0 <= i < j < |rows| ==> rows[i].key < rows[j].key
  {
    forall i, j | 0 <= i < j < |rows| ensures rows[i].key < rows[j].key {
      assert Earliest(rows[i]) >= Earliest(rows[j]);
      assert rows[i].key != rows[j].key;
    }
  }

  // ---------------------------------------------------------------- products

  /** One event per order line: its product, its quantity and price times quantity. */
  function LineEvents(items: seq<Orders.OrderItem>): (es: seq<Event<ProductId>>)
    ensures |es| == |items|
    ensures forall i :: 0 <= i < |items| ==>
      es[i] == Event(items[i].product, items[i].quantity, items[i].price * (items[i].quantity as real))
  {
    seq(|items|, i requires 0 <= i < |items| =>
      Event(items[i].product, items[i].quantity, items[i].price * (items[i].quantity as real)))
  }

  /** The line events of every order, order by order. */
  function ProductEvents(orders: seq<Orders.Order>): seq<Event<ProductId>> {
    if |orders| == 0 then []
    else ProductEvents(orders[..|orders| - 1]) + LineEvents(orders[|orders| - 1].items)
  }

  function Revenue<K>(t: Tally<K>): real {
    t.amount
  }

  /** `getProductAnalytics`: per product, units sold and revenue over every
      order line; the `limit` best by revenue, highest first. */
  function ProductAnalytics(orders: seq<Orders.Order>, limit: int): (rows: seq<Tally<ProductId>>)
    ensures Accurate(rows, ProductEvents(orders))
    ensures SortedDesc(rows, Revenue)
    ensures limit >= 0 ==> |rows| <= limit
    ensures limit >= 0 ==> |rows| == limit || Summarises(rows, ProductEvents(orders))
    ensures forall k, i :: Occurs(ProductEvents(orders), k) && !Listed(rows, k) && 0 <= i < |rows| ==>
      AmountFor(ProductEvents(orders), k) <= rows[i].amount
  {
    var es := ProductEvents(orders);
    var rows := Top(GroupBy(es), es, limit, Revenue);
    TopByRevenueKeepsBest(es, limit, rows);
    rows
  }

  /** Keeping the best by revenue: every product or customer left out of
      the report took in no more than any that is listed. */
  lemma TopByRevenueKeepsBest<K>(es: seq<Event<K>>, n: int, rows: seq<Tally<K>>)
    requires rows == Top(GroupBy(es), es, n, Revenue)
    ensures forall k, i :: Occurs(es, k) && !Listed(rows, k) && 0 <= i < |rows| ==> AmountFor(es, k) <= rows[i].amount
  {
    var ts := GroupBy(es);
    forall k, i | Occurs(es, k) && !Listed(rows, k) && 0 <= i < |rows| ensures AmountFor(es, k) <= rows[i].amount {
      var j :| 0 <= j < |es| && es[j].key == k;
      assert Listed(ts, es[j].key);
      var m :| 0 <= m < |ts| && ts[m].key == k;
      assert ts[m] in ts;
      assert ts[m] !in rows;
      assert Revenue(ts[m]) <= Revenue(rows[i]);
    }
  }

  // ---------------------------------------------------------------- customers

  function CustomerEvents(orders: seq<Orders.Order>): (es: seq<Event<UserId>>)
    ensures |es| == |orders|
    ensures forall i :: 0 <= i < |orders| ==> es[i] == Event(orders[i].user, 0, orders[i].total)
  {
    seq(|orders|, i requires 0 <= i < |orders| => Event(orders[i].user, 0, orders[i].total))
  }

  /** How many customers the report lists. */
  const TopCustomerCount: int := 10

  /** `getCustomerAnalytics`: per customer, the number of orders and the
      total spent; the ten biggest spenders, highest first. */
  function CustomerAnalytics(orders: seq<Orders.Order>): (rows: seq<Tally<UserId>>)
    ensures Accurate(rows, CustomerEvents(orders))
    ensures SortedDesc(rows, Revenue)
    ensures |rows| <= TopCustomerCount
    ensures |rows| == TopCustomerCount || Summarises(rows, CustomerEvents(orders))
    ensures forall k, i :: Occurs(CustomerEvents(orders), k) && !Listed(rows, k) && 0 <= i < |rows| ==>
      AmountFor(CustomerEvents(orders), k) <= rows[i].amount
  {
    var es := CustomerEvents(orders);
    var rows := Top(GroupBy(es), es, TopCustomerCount, Revenue);
    TopByRevenueKeepsBest(es, TopCustomerCount, rows);
    rows
  }

  // ---------------------------------------------------------------- page views

  /** The traffic sources and devices the snapshot schema declares. */
  const Sources: set<string> := {"direct", "organic", "referral", "social", "paid"}
  const Devices: set<string> := {"desktop", "mobile", "tablet"}

  /** A map holding every declared key, each at 0. */
  function Zeros(keys: set<string>): (m: map<string, int>)
    ensures m.Keys == keys && forall k :: k in m ==> m[k] == 0
  {
    map k | k in keys :: 0
  }

  /** The counters of a snapshot have exactly the declared keys. */
  predicate CountersWellFormed(s: Snapshot) {
    s.trafficSources.Keys == Sources && s.deviceBreakdown.Keys == Devices
  }

  /** `new Analytics({ date })`: every figure at its default of 0. */
  function NewSnapshot(day: int): (s: Snapshot)
    ensures CountersWellFormed(s) && s.pageViews == 0 && s.date == day
  {
    Snapshot(day, 0.0, 0, 0, 0.0, 0, Zeros(Sources), Zeros(Devices))
  }

  /** One more for a declared counter; a key the schema does not declare is
      not stored. */
  function Bump(m: map<string, int>, key: Option<string>): (r: map<string, int>)
    ensures r.Keys == m.Keys
    ensures key.Some? && key.value in m ==> r[key.value] == m[key.value] + 1
    ensures forall k :: k in m && (key.None? || k != key.value) ==> r[k] == m[k]
  {
    if key.Some? && key.value in m then m[key.value := m[key.value] + 1] else m
  }

  /** A request field that counts: present and non-empty. */
  function Given(field: Option<string>): (r: Option<string>)
    ensures r.Some? <==> field.Some? && |field.value| > 0
    ensures r.Some? ==> r == field
  {
    if field.Some? && |field.value| > 0 then field else None
  }

  /** `recordPageView`: today's snapshot (or a new one) gains one page view
      and one for the named source and device. */
  function RecordPageView(today: Option<Snapshot>, day: int, source: Option<string>, device: Option<string>)
    : (r: Snapshot)
    requires today.Some? ==> CountersWellFormed(today.value)
    ensures CountersWellFormed(r)
    ensures var s := if today.Some? then today.value else NewSnapshot(day);
      && r.pageViews == s.pageViews + 1
      && r == s.(pageViews := r.pageViews, trafficSources := r.trafficSources, deviceBreakdown := r.deviceBreakdown)
      && (forall k :: k in Sources ==>
            r.trafficSources[k] == s.trafficSources[k] + (if Given(source) == Some(k) then 1 else 0))
      && (forall k :: k in Devices ==>
            r.deviceBreakdown[k] == s.deviceBreakdown[k] + (if Given(device) == Some(k) then 1 else 0))
  {
    var s := if today.Some? then today.value else NewSnapshot(day);
    s.(pageViews := s.pageViews + 1,
       trafficSources := Bump(s.trafficSources, Given(source)),
       deviceBreakdown := Bump(s.deviceBreakdown, Given(device)))
  }

  /** A source or device the schema does not declare changes only the page count. */
  lemma UnknownSourceOnlyCountsView(today: Snapshot, day: int, source: string)
    requires CountersWellFormed(today) && source !in Sources
    ensures var r := RecordPageView(Some(today), day, Some(source), None);
      r == today.(pageViews := today.pageViews + 1)
  {
    var r := RecordPageView(Some(today), day, Some(source), None);
    assert r.trafficSources == today.trafficSources;
    assert r.deviceBreakdown == today.deviceBreakdown;
  }
}

=== FILE: carts.dfy ===
/** The cart handlers: totals computation, add, update, remove, clear, and
    the lazy creation of a user's cart. Each user has at most one cart (the
    store is keyed by user). */
module Carts {
  import opened Common
  import opened Catalog

  /** A cart line: the unit price is frozen when the line is created. */
  datatype CartItem = CartItem(product: ProductId, quantity: int, price: real)

  datatype Cart = Cart(user: UserId, items: seq<CartItem>, subtotal: real, tax: real, total: real)

  type CartStore = map<UserId, Cart>

  /** The fixed tax rate, 10%. */
  const TaxRate: real := 0.1

  function LineAmount(item: CartItem): real {
    item.price * (item.quantity as real)
  }

  /** `items.reduce((sum, item) => sum + item.price * item.quantity, 0)`. */
  function Subtotal(items: seq<CartItem>): real {
    if |items| == 0 then 0.0 else Subtotal(items[..|items| - 1]) + LineAmount(items[|items| - 1])
  }

  datatype Totals = Totals(subtotal: real, tax: real, total: real)

  /** `calculateCartTotals`: the tax is 10% of the subtotal and the total is
      the subtotal plus the tax, i.e. 110% of the subtotal. */
  function CalculateTotals(items: seq<CartItem>): (t: Totals)
    ensures t.subtotal == Subtotal(items)
    ensures t.total == t.subtotal + t.tax
    ensures t.tax * 10.0 == t.subtotal
    ensures t.total * 10.0 == t.subtotal * 11.0
  {
    var subtotal := Subtotal(items);
    var tax := subtotal * TaxRate;
    Totals(subtotal, tax, subtotal + tax)
  }

  /** The stored totals are the ones computed from the stored lines. */
  predicate Priced(c: Cart) {
    Totals(c.subtotal, c.tax, c.total) == CalculateTotals(c.items)
  }

  /** Replaces a cart's lines and stores the totals computed from them. */
  function Reprice(c: Cart, items: seq<CartItem>): (c': Cart)
    ensures Priced(c') && c'.items == items && c'.user == c.user
  {
    var t := CalculateTotals(items);
    c.(items := items, subtotal := t.subtotal, tax := t.tax, total := t.total)
  }

  lemma {:induction false} SubtotalAppend(a: seq<CartItem>, b: seq<CartItem>)
    ensures Subtotal(a + b) == Subtotal(a) + Subtotal(b)
    decreases |b|
  {
    if |b| == 0 {
      assert a + b == a;
    } else {
      assert (a + b)[..|a + b| - 1] == a + b[..|b| - 1];
      SubtotalAppend(a, b[..|b| - 1]);
    }
  }

  /** Lines with non-negative prices and quantities have a non-negative subtotal. */
  lemma {:induction false} SubtotalNonNegative(items: seq<CartItem>)
    requires forall i :: 0 <= i < |items| ==> items[i].price >= 0.0 && items[i].quantity >= 0
    ensures Subtotal(items) >= 0.0
  {
    if |items| > 0 {
      SubtotalNonNegative(items[..|items| - 1]);
    }
  }

  // ---------------------------------------------------------------- line lookup

  predicate HasLine(items: seq<CartItem>, p: ProductId) {
    exists i :: 0 <= i < |items| && items[i].product == p
  }

  /** The index `Array.prototype.find` stops at: the first line for `p`. */
  function FirstLine(items: seq<CartItem>, p: ProductId): (i: nat)
    requires HasLine(items, p)
    ensures i < |items| && items[i].product == p
    ensures forall j :: 0 <= j < i ==> items[j].product != p
  {
    if items[0].product == p then 0
    else
      assert HasLine(items[1..], p) by {
        var k :| 0 <= k < |items| && items[k].product == p;
        assert items[1..][k - 1] == items[k];
      }
      1 + FirstLine(items[1..], p)
  }

  /** `items.filter((item) => item.product !== p)`. */
  function WithoutProduct(items: seq<CartItem>, p: ProductId): (r: seq<CartItem>)
    ensures |r| <= |items|
    ensures forall x :: x in r <==> x in items && x.product != p
    ensures !HasLine(items, p) ==> r == items
  {
    if |items| == 0 then []
    else
      var rest := WithoutProduct(items[1..], p);
      assert !HasLine(items, p) ==> !HasLine(items[1..], p) by {
        if HasLine(items[1..], p) {
          var k :| 0 <= k < |items[1..]| && items[1..][k].product == p;
          assert items[k + 1].product == p;
        }
      }
      if items[0].product == p then rest
      else
        assert items == [items[0]] + items[1..];
        [items[0]] + rest
  }

  /** The filter distributes over concatenation: the kept lines stay in
      their order, each as often as it occurred. */
  lemma {:induction false} WithoutProductAppend(a: seq<CartItem>, b: seq<CartItem>, p: ProductId)
    ensures WithoutProduct(a + b, p) == WithoutProduct(a, p) + WithoutProduct(b, p)
  {
    if |a| == 0 {
      assert a + b == b;
    } else {
      assert (a + b)[1..] == a[1..] + b;
      WithoutProductAppend(a[1..], b, p);
    }
  }

  /** A single line is kept exactly when it is for another product. */
  lemma WithoutProductOne(x: CartItem, p: ProductId)
    ensures WithoutProduct([x], p) == if x.product == p then [] else [x]
  {
    assert [x][1..] == [];
  }

  /** No product has two lines. */
  predicate DistinctLines(items: seq<CartItem>) {
    forall i, j :: 0 <= i < j < |items| ==> items[i].product != items[j].product
  }

  /** Raising the quantity of line `k` by `d` raises the subtotal by that
      line's frozen price times `d`. */
  lemma {:induction false} SubtotalAfterIncrement(items: seq<CartItem>, k: nat, d: int)
    requires k < |items|
    ensures Subtotal(items[k := items[k].(quantity := items[k].quantity + d)])
            == Subtotal(items) + items[k].price * (d as real)
    decreases |items|
  {
    var items' := items[k := items[k].(quantity := items[k].quantity + d)];
    var n := |items|;
    if k == n - 1 {
      assert items'[..n - 1] == items[..n - 1];
    } else {
      assert items'[..n - 1] == items[..n - 1][k := items[k].(quantity := items[k].quantity + d)];
      SubtotalAfterIncrement(items[..n - 1], k, d);
    }
  }

  // ---------------------------------------------------------------- handlers

  function EmptyCart(user: UserId): (c: Cart)
    ensures c.items == [] && Priced(c)
  {
    Cart(user, [], 0.0, 0.0, 0.0)
  }

  /** The user's cart, or the fresh one `Cart.create` makes when none exists. */
  function CartOf(carts: CartStore, user: UserId): Cart {
    if user in carts then carts[user] else EmptyCart(user)
  }

  /** `getCart`: returns the user's cart, creating an empty one first when
      there is none. */
  function GetCart(carts: CartStore, user: UserId): (r: (CartStore, Cart))
    ensures user in r.0 && r.0[user] == r.1
    ensures user in carts ==> r.0 == carts
    ensures user !in carts ==> r.0 == carts[user := EmptyCart(user)]
  {
    var c := CartOf(carts, user);
    (carts[user := c], c)
  }

  /** `addToCart`: 404 for an unknown product and 400 when its stock is below
      the requested quantity; otherwise an existing line for the product has
      its quantity raised (the combined quantity is not checked against
      stock), or a new line is appended at the product's effective price. */
  function AddToCart(products: ProductStore, carts: CartStore, user: UserId, productId: ProductId, quantity: int)
    : (r: Result<CartStore>)
    ensures productId !in products ==> r == Err(Failure(404, "Product not found"))
    ensures productId in products && products[productId].stock < quantity
            ==> r == Err(Failure(400, "Insufficient stock"))
    ensures r.Ok? <==> productId in products && products[productId].stock >= quantity
    ensures r.Ok? ==> user in r.value && r.value == carts[user := r.value[user]]
    ensures r.Ok? ==> Priced(r.value[user])
    ensures r.Ok? ==> var before := CartOf(carts, user).items; var after := r.value[user].items;
      if HasLine(before, productId) then
        var k := FirstLine(before, productId);
        && after == before[k := before[k].(quantity := before[k].quantity + quantity)]
        && r.value[user].subtotal == Subtotal(before) + before[k].price * (quantity as real)
      else
        && after == before + [CartItem(productId, quantity, EffectivePrice(products[productId]))]
        && r.value[user].subtotal == Subtotal(before) + EffectivePrice(products[productId]) * (quantity as real)
  {
    if productId !in products then Err(Failure(404, "Product not found"))
    else if products[productId].stock < quantity then Err(Failure(400, "Insufficient stock"))
    else
      var cart := CartOf(carts, user);
      Ok(carts[user := Reprice(cart, AddedLines(cart.items, productId, quantity, EffectivePrice(products[productId])))])
  }

  /** The lines after adding `quantity` of a product: the first existing line
      for it grows, otherwise a line at `price` is appended. */
  function AddedLines(items: seq<CartItem>, productId: ProductId, quantity: int, price: real): (r: seq<CartItem>)
    ensures HasLine(items, productId) ==>
      var k := FirstLine(items, productId);
      && r == items[k := items[k].(quantity := items[k].quantity + quantity)]
      && Subtotal(r) == Subtotal(items) + items[k].price * (quantity as real)
    ensures !HasLine(items, productId) ==>
      && r == items + [CartItem(productId, quantity, price)]
      && Subtotal(r) == Subtotal(items) + price * (quantity as real)
  {
    if HasLine(items, productId) then
      var k := FirstLine(items, productId);
      SubtotalAfterIncrement(items, k, quantity);
      items[k := items[k].(quantity := items[k].quantity + quantity)]
    else
      var line := CartItem(productId, quantity, price);
      SubtotalAppend(items, [line]);
      assert [line][..0] == [];
      items + [line]
  }

  /** Adding never creates a second line for a product. */
  lemma AddKeepsLinesDistinct(products: ProductStore, carts: CartStore, user: UserId, productId: ProductId, quantity: int)
    requires DistinctLines(CartOf(carts, user).items)
    ensures var r := AddToCart(products, carts, user, productId, quantity);
      r.Ok? ==> DistinctLines(r.value[user].items)
  {
  }

  /** The stock check looks only at the requested quantity: a cart line can
      end up holding more than the product's stock. */
  lemma AddCanExceedStock()
    ensures
      var p := Product("p", "Lamp", 10.0, None, "Home", 3, 0.0, 0, [], false, true, 0);
      var carts := map["u" := Cart("u", [CartItem("p", 2, 10.0)], 20.0, 2.0, 22.0)];
      var r := AddToCart(map["p" := p], carts, "u", "p", 2);
      r.Ok? && r.value["u"].items == [CartItem("p", 4, 10.0)] && 4 > p.stock
  {
    var items := [CartItem("p", 2, 10.0)];
    assert items[0].product == "p";
    assert FirstLine(items, "p") == 0;
  }

  /** `updateCartItem`: 404 when the user has no cart or no line for the
      product; a quantity of 0 or less removes every line for the product,
      any other quantity overwrites the first line's quantity. */
  function UpdateCartItem(carts: CartStore, user: UserId, productId: ProductId, quantity: int)
    : (r: Result<CartStore>)
    ensures user !in carts ==> r == Err(Failure(404, "Cart not found"))
    ensures user in carts && !HasLine(carts[user].items, productId) ==> r == Err(Failure(404, "Item not in cart"))
    ensures r.Ok? <==> user in carts && HasLine(carts[user].items, productId)
    ensures r.Ok? ==> user in r.value && r.value == carts[user := r.value[user]] && Priced(r.value[user])
    ensures r.Ok? && quantity <= 0 ==> r.value[user].items == WithoutProduct(carts[user].items, productId)
    ensures r.Ok? && quantity > 0 ==>
      var before := carts[user].items; var k := FirstLine(before, productId);
      r.value[user].items == before[k := before[k].(quantity := quantity)]
  {
    if user !in carts then Err(Failure(404, "Cart not found"))
    else
      var cart := carts[user];
      if !HasLine(cart.items, productId) then Err(Failure(404, "Item not in cart"))
      else
        var items :=
          if quantity <= 0 then WithoutProduct(cart.items, productId)
          else
            var k := FirstLine(cart.items, productId);
            cart.items[k := cart.items[k].(quantity := quantity)];
        Ok(carts[user := Reprice(cart, items)])
  }

  /** `removeFromCart`: 404 without a cart; otherwise every line for the
      product goes, and removing an absent product leaves the lines as they were. */
  function RemoveFromCart(carts: CartStore, user: UserId, productId: ProductId): (r: Result<CartStore>)
    ensures user !in carts ==> r == Err(Failure(404, "Cart not found"))
    ensures r.Ok? <==> user in carts
    ensures r.Ok? ==> user in r.value && r.value == carts[user := r.value[user]] && Priced(r.value[user])
    ensures r.Ok? ==> !HasLine(r.value[user].items, productId)
    ensures r.Ok? ==> forall x :: x in r.value[user].items <==> x in carts[user].items && x.product != productId
    ensures r.Ok? && !HasLine(carts[user].items, productId) ==> r.value[user].items == carts[user].items
    ensures r.Ok? ==> r.value[user].items == WithoutProduct(carts[user].items, productId)
  {
    if user !in carts then Err(Failure(404, "Cart not found"))
    else
      var items := WithoutProduct(carts[user].items, productId);
      Ok(carts[user := Reprice(carts[user], items)])
  }

  /** `clearCart`: 404 without a cart; otherwise no lines and all totals 0. */
  function ClearCart(carts: CartStore, user: UserId): (r: Result<CartStore>)
    ensures user !in carts ==> r == Err(Failure(404, "Cart not found"))
    ensures r.Ok? <==> user in carts
    ensures r.Ok? ==> user in r.value && r.value == carts[user := r.value[user]]
    ensures r.Ok? ==> var c := r.value[user];
      c.items == [] && c.subtotal == 0.0 && c.tax == 0.0 && c.total == 0.0 && Priced(c)
  {
    if user !in carts then Err(Failure(404, "Cart not found"))
    else Ok(carts[user := carts[user].(items := [], subtotal := 0.0, tax := 0.0, total := 0.0)])
  }

  /** Every cart in the store carries the totals of its own lines. */
  predicate AllPriced(carts: CartStore) {
    forall u :: u in carts ==> Priced(carts[u])
  }

  /** Every cart handler keeps every stored cart's totals consistent with its lines. */
  lemma HandlersKeepCartsPriced(products: ProductStore, carts: CartStore, user: UserId, p: ProductId, q: int)
    requires AllPriced(carts)
    ensures var r := AddToCart(products, carts, user, p, q); r.Ok? ==> AllPriced(r.value)
    ensures var r := UpdateCartItem(carts, user, p, q); r.Ok? ==> AllPriced(r.value)
    ensures var r := RemoveFromCart(carts, user, p); r.Ok? ==> AllPriced(r.value)
    ensures var r := ClearCart(carts, user); r.Ok? ==> AllPriced(r.value)
    ensures AllPriced(GetCart(carts, user).0)
  {
  }
}

=== FILE: catalog.dfy ===
/** The product record (its bounds and defaults) and the product handlers:
    creation, listing filters and sort options, soft deletion, the embedded
    review path, and the featured selection. */
module Catalog {
  import opened Common
  import Responses

  /** A review stored inside the product record by the product handler's own
      review endpoint. */
  datatype EmbeddedReview = EmbeddedReview(user: UserId, rating: real, comment: string)

  datatype Product = Product(
    id: ProductId,
    name: string,
    price: real,
    discountPrice: Option<real>,
    category: string,
    stock: int,
    rating: real,
    numReviews: int,
    reviews: seq<EmbeddedReview>,
    isFeatured: bool,
    isActive: bool,
    createdAt: int)

  type ProductStore = map<ProductId, Product>

  /** The bounds the schema checks whenever a product is saved: a
      non-negative price and discount price, and a rating between 0 and 5.
      Stock has no lower bound. */
  predicate SchemaValid(p: Product) {
    && |p.name| > 0 && |p.category| > 0
    && p.price >= 0.0
    && (p.discountPrice.Some? ==> p.discountPrice.value >= 0.0)
    && 0.0 <= p.rating <= 5.0
  }

  /** `Product.create(req.body)` under a fresh id: the supplied fields, and
      the schema defaults for those the body leaves out (stock 0, rating 0,
      no reviews counted, not featured, active); a record that breaks a bound
      is refused with 500. */
  function CreateProduct(
    store: ProductStore, id: ProductId, name: string, price: real,
    discountPrice: Option<real>, category: string, stock: Option<int>,
    rating: Option<real>, numReviews: Option<int>, isFeatured: Option<bool>, isActive: Option<bool>,
    createdAt: int
  ): (r: Result<ProductStore>)
    requires id !in store
    ensures r.Ok? <==>
      && |name| > 0 && |category| > 0 && price >= 0.0
      && (discountPrice.Some? ==> discountPrice.value >= 0.0)
      && (rating.Some? ==> 0.0 <= rating.value <= 5.0)
    ensures r.Err? ==> r.failure.status == 500
    ensures r.Ok? ==> id in r.value
    ensures r.Ok? ==> var p := r.value[id];
      && r.value == store[id := p]
      && SchemaValid(p)
      && p.id == id && p.name == name && p.category == category && p.createdAt == createdAt
      && p.price == price && p.discountPrice == discountPrice
      && p.stock == (if stock.Some? then stock.value else 0)
      && p.rating == (if rating.Some? then rating.value else 0.0)
      && p.numReviews == (if numReviews.Some? then numReviews.value else 0)
      && p.reviews == []
      && p.isFeatured == (isFeatured.Some? && isFeatured.value)
      && p.isActive == (isActive.None? || isActive.value)
  {
    var p := Product(id, name, price, discountPrice, category,
                     if stock.Some? then stock.value else 0,
                     if rating.Some? then rating.value else 0.0,
                     if numReviews.Some? then numReviews.value else 0,
                     [],
                     isFeatured.Some? && isFeatured.value,
                     isActive.None? || isActive.value,
                     createdAt);
    if !SchemaValid(p) then Err(Failure(500, "Product validation failed"))
    else Ok(store[id := p])
  }

  /** A product created with the featured flag set (and active by default)
      is served by `getFeaturedProducts` when it comes first in the collection. */
  lemma CreatedFeaturedIsServed(
    store: ProductStore, id: ProductId, name: string, price: real, category: string, createdAt: int,
    rest: seq<Product>)
    requires id !in store && |name| > 0 && |category| > 0 && price >= 0.0
    ensures var r := CreateProduct(store, id, name, price, None, category, None, None, None, Some(true), None, createdAt);
      r.Ok? && |Featured([r.value[id]] + rest)| > 0 && Featured([r.value[id]] + rest)[0] == r.value[id]
  {
    var r := CreateProduct(store, id, name, price, None, category, None, None, None, Some(true), None, createdAt);
    var p := r.value[id];
    FeaturedCandidatesAppend([p], rest);
    assert [p][1..] == [];
    assert FeaturedCandidates([p]) == [p];
  }

  /** The unit price a product goes into a cart at: `discountPrice || price`,
      so a missing or zero discount price falls back to the list price. */
  function EffectivePrice(p: Product): (r: real)
    ensures p.discountPrice.Some? && p.discountPrice.value != 0.0 ==> r == p.discountPrice.value
    ensures p.discountPrice.None? || p.discountPrice == Some(0.0) ==> r == p.price
  {
    match p.discountPrice
    case Some(d) => if d != 0.0 then d else p.price
    case None => p.price
  }

  /** A valid product's effective price is never negative. */
  lemma EffectivePriceNonNegative(p: Product)
    requires SchemaValid(p)
    ensures EffectivePrice(p) >= 0.0
  {
  }

  // ---------------------------------------------------------------- listing

  datatype SortField = CreatedAt | Price | Rating
  datatype SortSpec = SortSpec(field: SortField, descending: bool)

  /** The `sort` query parameter's meaning; anything unrecognised (or absent)
      means newest first, exactly as `newest` does. */
  function SortOption(sort: Option<string>): (s: SortSpec)
    ensures sort == Some("price_asc") ==> s == SortSpec(Price, false)
    ensures sort == Some("price_desc") ==> s == SortSpec(Price, true)
    ensures sort == Some("rating") ==> s == SortSpec(Rating, true)
    ensures sort != Some("price_asc") && sort != Some("price_desc") && sort != Some("rating")
            ==> s == SortSpec(CreatedAt, true)
  {
    match sort
    case None => SortSpec(CreatedAt, true)
    case Some(k) =>
      if k == "price_asc" then SortSpec(Price, false)
      else if k == "price_desc" then SortSpec(Price, true)
      else if k == "rating" then SortSpec(Rating, true)
      else SortSpec(CreatedAt, true)
  }

  /** Only `price_asc` sorts ascending, and only the two price options sort by price. */
  lemma OnlyPriceAscAscends(sort: Option<string>)
    ensures !SortOption(sort).descending <==> sort == Some("price_asc")
    ensures SortOption(sort).field == Price <==> sort == Some("price_asc") || sort == Some("price_desc")
  {
  }

  /** Whether a product shows in a listing: it must be active, and when a
      (non-empty) category is given it must be in that category. */
  predicate Listed(p: Product, category: Option<string>) {
    p.isActive && (category.None? || |category.value| == 0 || p.category == category.value)
  }

  /** The ids every page of a listing draws from. */
  function ListingIds(store: ProductStore, category: Option<string>): (ids: set<ProductId>)
    ensures forall id :: id in ids <==> id in store && Listed(store[id], category)
  {
    set id | id in store && Listed(store[id], category)
  }

  /** What `getAllProducts` answers about its page: the listed products'
      total, the page and limit asked for, and the page count. */
  datatype ListingPage = ListingPage(total: nat, page: int, limit: int, pages: nat)

  /** The pagination block of a listing: `skip = (page - 1) * limit` and
      `pages = ceil(total / limit)` over the listed products. A page below 1
      gives a negative skip, which the database refuses with `refusal`; the
      catch answers 500. */
  function ListingPagination(store: ProductStore, category: Option<string>, page: int, limit: int, refusal: string)
    : (r: Result<ListingPage>)
    requires limit > 0
    ensures r.Err? <==> page < 1
    ensures r.Err? ==> r.failure == Failure(500, refusal)
    ensures r.Ok? ==> r.value.total == |ListingIds(store, category)|
    ensures r.Ok? ==> r.value.page == page && r.value.limit == limit
    ensures r.Ok? ==> r.value.pages * limit >= r.value.total
    ensures r.Ok? ==> r.value.pages > 0 ==> (r.value.pages - 1) * limit < r.value.total
  {
    if page < 1 then Err(Failure(500, refusal))
    else
      var total := |ListingIds(store, category)|;
      Ok(ListingPage(total, page, limit, Responses.PageCount(total, limit)))
  }

  // ---------------------------------------------------------------- soft delete

  /** `deleteProduct` only clears `isActive`. */
  function DeleteProduct(store: ProductStore, id: ProductId): (r: Result<ProductStore>)
    ensures r.Ok? <==> id in store
    ensures r.Err? ==> r.failure == Failure(404, "Product not found")
    ensures r.Ok? ==> r.value.Keys == store.Keys
    ensures r.Ok? ==> !r.value[id].isActive
    ensures r.Ok? ==> r.value[id] == store[id].(isActive := false)
    ensures r.Ok? ==> forall k :: k in store && k != id ==> r.value[k] == store[k]
  {
    if id !in store then Err(Failure(404, "Product not found"))
    else Ok(store[id := store[id].(isActive := false)])
  }

  /** After a delete the record is still stored but drops out of every
      listing, and no other product's listing status changes. */
  lemma DeletedProductLeavesListings(store: ProductStore, id: ProductId, category: Option<string>)
    requires id in store
    ensures var r := DeleteProduct(store, id);
      && r.Ok? && id in r.value
      && ListingIds(r.value, category) == ListingIds(store, category) - {id}
  {
  }

  // ---------------------------------------------------------------- embedded reviews

  function RatingsOf(rs: seq<EmbeddedReview>): (xs: seq<real>)
    ensures |xs| == |rs| && forall i :: 0 <= i < |rs| ==> xs[i] == rs[i].rating
  {
    seq(|rs|, i requires 0 <= i < |rs| => rs[i].rating)
  }

  /** `Number(x.toFixed(1))`: the nearest tenth, halves rounded away from zero. */
  function RoundTenths(x: real): (r: real)
    ensures ((r * 10.0).Floor as real) == r * 10.0
    ensures -0.05 <= r - x <= 0.05
    ensures x >= 0.0 ==> -0.05 < r - x
    ensures x < 0.0 ==> r - x < 0.05
  {
    if x >= 0.0 then
      var f := (x * 10.0 + 0.5).Floor;
      Tenth(f);
      (f as real) / 10.0
    else
      var g := -(((-x) * 10.0 + 0.5).Floor);
      Tenth(g);
      (g as real) / 10.0
  }

  /** A whole number of tenths, read back in tenths, is that number. */
  lemma Tenth(f: int)
    ensures (f as real / 10.0) * 10.0 == f as real
  {
  }

  /** Rounding to tenths keeps a value between 0 and 5 between 0 and 5. */
  lemma RoundTenthsKeepsRatingRange(x: real)
    requires 0.0 <= x <= 5.0
    ensures 0.0 <= RoundTenths(x) <= 5.0
  {
  }

  /** `addReview`: appends the review, sets `numReviews` to the new number of
      embedded reviews and `rating` to their mean rounded to one decimal, then
      saves (which refuses a rating outside 0..5 with 500). */
  function AddReview(store: ProductStore, id: ProductId, user: UserId, rating: real, comment: string)
    : (r: Result<ProductStore>)
    ensures id !in store ==> r == Err(Failure(404, "Product not found"))
    ensures r.Ok? ==> id in store && r.value.Keys == store.Keys
    ensures r.Ok? ==> var p := store[id]; var q := r.value[id];
      && q.reviews == p.reviews + [EmbeddedReview(user, rating, comment)]
      && q.numReviews == |q.reviews| == |p.reviews| + 1
      && q.rating == RoundTenths(Mean(RatingsOf(q.reviews)))
      && -0.05 <= q.rating - Mean(RatingsOf(q.reviews)) <= 0.05
      && 0.0 <= q.rating <= 5.0
      && q == p.(reviews := q.reviews, numReviews := q.numReviews, rating := q.rating)
    ensures r.Ok? ==> forall k :: k in store && k != id ==> r.value[k] == store[k]
    ensures r.Err? && id in store ==> r.failure.status == 500
    ensures id in store ==>
      var reviews := store[id].reviews + [EmbeddedReview(user, rating, comment)];
      (r.Ok? <==> SchemaValid(store[id].(reviews := reviews, numReviews := |reviews|,
                                         rating := RoundTenths(Mean(RatingsOf(reviews))))))
  {
    if id !in store then Err(Failure(404, "Product not found"))
    else
      var p := store[id];
      var reviews := p.reviews + [EmbeddedReview(user, rating, comment)];
      var q := p.(reviews := reviews, numReviews := |reviews|,
                  rating := RoundTenths(Mean(RatingsOf(reviews))));
      if !SchemaValid(q) then Err(Failure(500, "Product validation failed"))
      else Ok(store[id := q])
  }

  /** When every embedded rating (the new one included) lies in 1..5, adding
      a review to a valid product always succeeds. */
  lemma AddReviewWithinScaleSucceeds(store: ProductStore, id: ProductId, user: UserId, rating: real, comment: string)
    requires id in store && SchemaValid(store[id])
    requires forall i :: 0 <= i < |store[id].reviews| ==> 1.0 <= store[id].reviews[i].rating <= 5.0
    requires 1.0 <= rating <= 5.0
    ensures AddReview(store, id, user, rating, comment).Ok?
  {
    var reviews := store[id].reviews + [EmbeddedReview(user, rating, comment)];
    MeanBounds(RatingsOf(reviews), 1.0, 5.0);
    RoundTenthsKeepsRatingRange(Mean(RatingsOf(reviews)));
  }

  // ---------------------------------------------------------------- featured

  /** The active featured products, in collection order. */
  function FeaturedCandidates(ps: seq<Product>): (r: seq<Product>)
    ensures forall p :: p in r <==> p in ps && p.isFeatured && p.isActive
    ensures |r| <= |ps|
  {
    if |ps| == 0 then []
    else
      var head := if ps[0].isFeatured && ps[0].isActive then [ps[0]] else [];
      head + FeaturedCandidates(ps[1..])
  }

  /** Selecting candidates distributes over concatenation, so they keep
      their collection order. */
  lemma {:induction false} FeaturedCandidatesAppend(a: seq<Product>, b: seq<Product>)
    ensures FeaturedCandidates(a + b) == FeaturedCandidates(a) + FeaturedCandidates(b)
  {
    if |a| == 0 {
      assert a + b == b;
    } else {
      assert (a + b)[0] == a[0];
      assert (a + b)[1..] == a[1..] + b;
      FeaturedCandidatesAppend(a[1..], b);
    }
  }

  /** `getFeaturedProducts`: at most eight active featured products, taken
      in collection order; all of them when there are no more than eight. */
  function Featured(ps: seq<Product>): (r: seq<Product>)
    ensures |r| <= 8
    ensures forall p :: p in r ==> p in ps && p.isFeatured && p.isActive
    ensures |FeaturedCandidates(ps)| <= 8 ==> r == FeaturedCandidates(ps)
    ensures |r| == if |FeaturedCandidates(ps)| < 8 then |FeaturedCandidates(ps)| else 8
    ensures r == FeaturedCandidates(ps)[..|r|]
  {
    var c := FeaturedCandidates(ps);
    TakeIsPrefix(c, 8);
    Slice(c, 0, 8)
  }
}

=== FILE: checkout.dfy ===
/** The checkout page's address handling: the "same as shipping" switch,
    the address validation that gates placing an order, and the billing
    address the order request carries. */
module Checkout {
  import opened Common

  datatype CheckoutForm = CheckoutForm(
    shippingAddress: Address,
    billingAddress: Address,
    paymentMethod: string,
    sameAsShipping: bool)

  const EmptyAddress: Address := Address("", "", "", "", "")

  /** The form as the page first shows it. */
  const InitialForm: CheckoutForm := CheckoutForm(EmptyAddress, EmptyAddress, "credit_card", true)

  const ShippingIncomplete := "Please fill in all shipping address fields"
  const BillingIncomplete := "Please fill in all billing address fields"

  /** Every one of the five fields is filled in (a non-empty string is truthy). */
  predicate Complete(a: Address) {
    |a.street| > 0 && |a.city| > 0 && |a.state| > 0 && |a.zipCode| > 0 && |a.country| > 0
  }

  /** `handleSameAsShipping`: checking the box copies the shipping address
      into billing; unchecking it keeps whatever billing holds. */
  function HandleSameAsShipping(form: CheckoutForm, checked: bool): (r: CheckoutForm)
    ensures r.sameAsShipping == checked
    ensures checked ==> r.billingAddress == form.shippingAddress
    ensures !checked ==> r.billingAddress == form.billingAddress
    ensures r.shippingAddress == form.shippingAddress && r.paymentMethod == form.paymentMethod
  {
    form.(sameAsShipping := checked,
          billingAddress := if checked then form.shippingAddress else form.billingAddress)
  }

  /** `validateAddresses`: the message it shows, or None when the form may be
      submitted. Shipping is checked first; billing only when it is separate. */
  function ValidateAddresses(form: CheckoutForm): (r: Option<string>)
    ensures r.None? <==> Complete(form.shippingAddress) && (form.sameAsShipping || Complete(form.billingAddress))
    ensures !Complete(form.shippingAddress) ==> r == Some(ShippingIncomplete)
    ensures Complete(form.shippingAddress) && r.Some? ==> r == Some(BillingIncomplete)
  {
    var s := form.shippingAddress;
    if s.street == "" || s.city == "" || s.state == "" || s.zipCode == "" || s.country == "" then
      Some(ShippingIncomplete)
    else if !form.sameAsShipping then
      var b := form.billingAddress;
      if b.street == "" || b.city == "" || b.state == "" || b.zipCode == "" || b.country == "" then
        Some(BillingIncomplete)
      else None
    else None
  }

  /** The body of the order request. */
  datatype OrderRequest = OrderRequest(shippingAddress: Address, billingAddress: Address, paymentMethod: string)

  /** What pressing "place order" does: show a validation message, or send
      the order request. */
  datatype Placement = Invalid(message: string) | Submit(request: OrderRequest)

  /** `handlePlaceOrder` up to the request: nothing is sent when validation
      fails; the billing address sent is the shipping one when the box is
      checked, whatever the billing form holds. */
  function PlaceOrder(form: CheckoutForm): (r: Placement)
    ensures r.Submit? <==> ValidateAddresses(form).None?
    ensures r.Invalid? ==> Some(r.message) == ValidateAddresses(form)
    ensures r.Submit? ==>
      && r.request.shippingAddress == form.shippingAddress
      && r.request.paymentMethod == form.paymentMethod
      && r.request.billingAddress == (if form.sameAsShipping then form.shippingAddress else form.billingAddress)
  {
    match ValidateAddresses(form)
    case Some(message) => Invalid(message)
    case None =>
      Submit(OrderRequest(
        form.shippingAddress,
        if form.sameAsShipping then form.shippingAddress else form.billingAddress,
        form.paymentMethod))
  }

  /** Every request sent carries two fully filled-in addresses. */
  lemma SubmittedAddressesComplete(form: CheckoutForm)
    requires PlaceOrder(form).Submit?
    ensures Complete(PlaceOrder(form).request.shippingAddress)
    ensures Complete(PlaceOrder(form).request.billingAddress)
  {
  }

  /** With the box checked, validation depends on the shipping address alone. */
  lemma SameAsShippingIgnoresBilling(form: CheckoutForm, billing: Address)
    requires form.sameAsShipping
    ensures ValidateAddresses(form.(billingAddress := billing)) == ValidateAddresses(form)
    ensures PlaceOrder(form.(billingAddress := billing)) == PlaceOrder(form)
  {
  }

  /** The untouched form is refused with the shipping message. */
  lemma InitialFormRefused()
    ensures PlaceOrder(InitialForm) == Invalid(ShippingIncomplete)
  {
  }
}

=== FILE: common.dfy ===
/** Identifiers, the optional/failure datatypes every request handler returns,
    and the JavaScript `Array.prototype.slice` arithmetic the handlers use. */
module Common {

  type ProductId = string
  type UserId = string
  type OrderId = string
  type ReviewId = string

  /** A value that may be absent (`undefined`/`null` in the source). */
  datatype Option<+T> = None | Some(value: T)

  /** An error reply: the HTTP status and the `message` of its JSON body. */
  datatype Failure = Failure(status: int, message: string)

  /** What a request handler produces: the new value, or an error reply
      (in which case the store it worked on is left as it was). */
  datatype Result<+T> = Ok(value: T) | Err(failure: Failure) {
    predicate IsFailure() { Err? }

    function PropagateFailure<U>(): Result<U>
      requires Err?
    {
      Err(failure)
    }

    function Extract(): T
      requires Ok?
    {
      value
    }
  }

  /** True iff the result is an error reply with the given status. */
  predicate FailsWith<T>(r: Result<T>, status: int) {
    r.Err? && r.failure.status == status
  }

  /** A postal address as the checkout form and the order record hold it. */
  datatype Address = Address(street: string, city: string, state: string, zipCode: string, country: string)

  /** How `Array.prototype.slice` turns a (possibly negative) index into a
      position in an array of length `len`. */
  function ClampIndex(i: int, len: nat): (r: nat)
    ensures r <= len
    ensures 0 <= i ==> r == if i < len then i else len
    ensures i < 0 ==> r == if len + i < 0 then 0 else len + i
  {
    if i < 0 then (if len + i < 0 then 0 else len + i)
    else if i < len then i else len
  }

  /** `xs.slice(start, end)`. */
  function Slice<T>(xs: seq<T>, start: int, end: int): (r: seq<T>)
    ensures |r| <= |xs|
    ensures var a := ClampIndex(start, |xs|); var b := ClampIndex(end, |xs|);
      && |r| == (if a < b then b - a else 0)
      && forall i :: 0 <= i < |r| ==> r[i] == xs[a + i]
  {
    var a := ClampIndex(start, |xs|);
    var b := ClampIndex(end, |xs|);
    if a < b then xs[a..b] else []
  }

  /** `xs.slice(0, n)` keeps the first `n` elements (all of them when there are fewer). */
  lemma TakeIsPrefix<T>(xs: seq<T>, n: nat)
    ensures var r := Slice(xs, 0, n);
      && |r| == (if n < |xs| then n else |xs|)
      && forall i :: 0 <= i < |r| ==> r[i] == xs[i]
  {
  }

  /** `xs.slice(-n)` for positive `n` keeps the last `n` elements; for `n == 0`
      it is `xs.slice(0)`, which keeps every element. */
  lemma SliceFromEnd<T>(xs: seq<T>, n: int)
    ensures n > 0 ==> var r := Slice(xs, -n, |xs|);
      && |r| == (if n < |xs| then n else |xs|)
      && forall i :: 0 <= i < |r| ==> r[i] == xs[|xs| - |r| + i]
    ensures n == 0 ==> Slice(xs, -n, |xs|) == xs
  {
  }

  /** `xs.reduce((sum, x) => sum + x, 0)`. */
  function Sum(xs: seq<real>): real {
    if |xs| == 0 then 0.0 else Sum(xs[..|xs| - 1]) + xs[|xs| - 1]
  }

  /** The arithmetic mean of a non-empty list. */
  function Mean(xs: seq<real>): real
    requires |xs| > 0
  {
    Sum(xs) / (|xs| as real)
  }

  lemma {:induction false} SumAppend(xs: seq<real>, ys: seq<real>)
    ensures Sum(xs + ys) == Sum(xs) + Sum(ys)
    decreases |ys|
  {
    if |ys| > 0 {
      assert (xs + ys)[..|xs + ys| - 1] == xs + ys[..|ys| - 1];
      SumAppend(xs, ys[..|ys| - 1]);
    } else {
      assert xs + ys == xs;
    }
  }

  /** A sum of values between `lo` and `hi` lies between `|xs|` times each. */
  lemma {:induction false} SumBounds(xs: seq<real>, lo: real, hi: real)
    requires forall i :: 0 <= i < |xs| ==> lo <= xs[i] <= hi
    ensures lo * (|xs| as real) <= Sum(xs) <= hi * (|xs| as real)
  {
    if |xs| > 0 {
      SumBounds(xs[..|xs| - 1], lo, hi);
      assert lo * (|xs| as real) == lo * ((|xs| - 1) as real) + lo;
      assert hi * (|xs| as real) == hi * ((|xs| - 1) as real) + hi;
    }
  }

  /** The mean of values between `lo` and `hi` lies between them. */
  lemma MeanBounds(xs: seq<real>, lo: real, hi: real)
    requires |xs| > 0
    requires forall i :: 0 <= i < |xs| ==> lo <= xs[i] <= hi
    ensures lo <= Mean(xs) <= hi
  {
    SumBounds(xs, lo, hi);
    var n := |xs| as real;
    var m := Mean(xs);
    assert m * n == Sum(xs);
    assert (m - lo) * n >= 0.0;
    assert (hi - m) * n >= 0.0;
  }
}

=== FILE: coupons.dfy ===
/** Coupons: the record and its defaults, the code normalisation the schema
    applies, validation (ordered rejections, then the discount), and the
    usage bookkeeping of applying a coupon. */
module Coupons {
  import opened Common
  import V = Validators

  // ---------------------------------------------------------------- codes

  /** `toUpperCase` on one character (ASCII letters only). */
  function UpperChar(c: char): (u: char)
    ensures 'a' <= c <= 'z' ==> u as int == c as int - 32
    ensures !('a' <= c <= 'z') ==> u == c
  {
    if 'a' <= c <= 'z' then (c as int - 32) as char else c
  }

  function ToUpper(s: string): (r: string)
    ensures |r| == |s| && forall i :: 0 <= i < |s| ==> r[i] == UpperChar(s[i])
  {
    seq(|s|, i requires 0 <= i < |s| => UpperChar(s[i]))
  }

  /** Upper-casing twice is upper-casing once. */
  lemma ToUpperIdempotent(s: string)
    ensures ToUpper(ToUpper(s)) == ToUpper(s)
  {
  }

  function TrimStart(s: string): (r: string)
    ensures |r| <= |s| && r == s[|s| - |r|..]
    ensures forall i :: 0 <= i < |s| - |r| ==> V.IsSpace(s[i])
    ensures |r| > 0 ==> !V.IsSpace(r[0])
  {
    if |s| > 0 && V.IsSpace(s[0]) then TrimStart(s[1..]) else s
  }

  function TrimEnd(s: string): (r: string)
    ensures |r| <= |s| && r == s[..|r|]
    ensures forall i :: |r| <= i < |s| ==> V.IsSpace(s[i])
    ensures |r| > 0 ==> !V.IsSpace(r[|r| - 1])
  {
    if |s| > 0 && V.IsSpace(s[|s| - 1]) then TrimEnd(s[..|s| - 1]) else s
  }

  /** `String.prototype.trim`. */
  function Trim(s: string): (r: string)
    ensures |r| <= |s|
    ensures |r| > 0 ==> !V.IsSpace(r[0]) && !V.IsSpace(r[|r| - 1])
  {
    var t := TrimStart(s);
    assert |TrimEnd(t)| > 0 ==> TrimEnd(t)[0] == t[0];
    TrimEnd(t)
  }

  /** Trimming removes whitespace only: the result is the stretch of the
      input between its leading and its trailing whitespace. */
  lemma TrimRemovesOnlyWhitespace(s: string)
    ensures var r := Trim(s); var a := |s| - |TrimStart(s)|;
      && a + |r| <= |s| && r == s[a..a + |r|]
      && (forall i :: 0 <= i < a ==> V.IsSpace(s[i]))
      && (forall i :: a + |r| <= i < |s| ==> V.IsSpace(s[i]))
  {
    var t := TrimStart(s);
    var r := TrimEnd(t);
    var a := |s| - |t|;
    assert t == s[a..];
    forall i | a + |r| <= i < |s|
      ensures V.IsSpace(s[i])
    {
      assert s[i] == t[i - a];
    }
  }

  /** The stored form of a code: the schema's `uppercase` and `trim` setters. */
  function NormalizeCode(code: string): string {
    ToUpper(Trim(code))
  }

  /** Upper-casing maps whitespace to whitespace and nothing else to it. */
  lemma UpperCharKeepsSpace(c: char)
    ensures V.IsSpace(UpperChar(c)) <==> V.IsSpace(c)
  {
  }

  lemma {:induction false} ToUpperTrimStart(s: string)
    ensures ToUpper(TrimStart(s)) == TrimStart(ToUpper(s))
  {
    if |s| > 0 {
      var u := ToUpper(s);
      UpperCharKeepsSpace(s[0]);
      if V.IsSpace(s[0]) {
        assert u[1..] == ToUpper(s[1..]);
        ToUpperTrimStart(s[1..]);
      }
    }
  }

  lemma {:induction false} ToUpperTrimEnd(s: string)
    ensures ToUpper(TrimEnd(s)) == TrimEnd(ToUpper(s))
  {
    if |s| > 0 {
      var u := ToUpper(s);
      UpperCharKeepsSpace(s[|s| - 1]);
      if V.IsSpace(s[|s| - 1]) {
        assert u[..|s| - 1] == ToUpper(s[..|s| - 1]);
        ToUpperTrimEnd(s[..|s| - 1]);
      }
    }
  }

  /** The two setters commute: whitespace is not a letter, so upper-casing
      neither creates nor removes any. */
  lemma NormalizeEitherOrder(code: string)
    ensures NormalizeCode(code) == Trim(ToUpper(code))
  {
    ToUpperTrimStart(code);
    ToUpperTrimEnd(TrimStart(code));
  }

  // ---------------------------------------------------------------- record

  datatype DiscountType = Percentage | Fixed

  /** One `usedBy` entry: the user, their use count and the time of their last use. */
  datatype Usage = Usage(user: UserId, usageCount: int, lastUsedAt: int)

  datatype Coupon = Coupon(
    code: string,
    discountType: DiscountType,
    discountValue: real,
    minOrderAmount: real,
    maxDiscount: Option<real>,
    usageLimit: Option<int>,
    usageCount: int,
    userUsageLimit: int,
    usedBy: seq<Usage>,
    startDate: int,
    endDate: int,
    isActive: bool)

  /** Coupons keyed by their stored code (the unique index on `code`). */
  type CouponStore = map<string, Coupon>

  /** Every coupon sits under its own code, which is in stored form. */
  predicate WellKeyed(store: CouponStore) {
    forall k :: k in store ==> store[k].code == k && NormalizeCode(k) == k
  }

  /** `Coupon.create(body)`: the supplied fields plus the schema defaults,
      the usage bookkeeping included (an absent `usedBy` is the empty list).
      An empty code, a negative discount value, or a code already in use is
      refused with 500. */
  function CreateCoupon(
    store: CouponStore, code: string, discountType: Option<DiscountType>, discountValue: real,
    minOrderAmount: Option<real>, maxDiscount: Option<real>, usageLimit: Option<int>,
    userUsageLimit: Option<int>, startDate: int, endDate: int, isActive: Option<bool>,
    usageCount: Option<int>, usedBy: seq<Usage>
  ): (r: Result<CouponStore>)
    ensures r.Ok? <==> |NormalizeCode(code)| > 0 && discountValue >= 0.0 && NormalizeCode(code) !in store
    ensures r.Err? ==> r.failure.status == 500
    ensures r.Ok? ==> var k := NormalizeCode(code);
      && k in r.value && r.value == store[k := r.value[k]]
      && r.value[k].code == k
      && r.value[k].discountValue == discountValue
      && r.value[k].startDate == startDate && r.value[k].endDate == endDate
      && r.value[k].discountType == (if discountType.Some? then discountType.value else Percentage)
      && r.value[k].minOrderAmount == (if minOrderAmount.Some? then minOrderAmount.value else 0.0)
      && r.value[k].maxDiscount == maxDiscount && r.value[k].usageLimit == usageLimit
      && r.value[k].usageCount == (if usageCount.Some? then usageCount.value else 0)
      && r.value[k].usedBy == usedBy
      && r.value[k].userUsageLimit == (if userUsageLimit.Some? then userUsageLimit.value else 1)
      && r.value[k].isActive == (isActive.None? || isActive.value)
  {
    var k := NormalizeCode(code);
    if |k| == 0 || discountValue < 0.0 then Err(Failure(500, "Coupon validation failed"))
    else if k in store then Err(Failure(500, "Duplicate key"))
    else
      Ok(store[k := Coupon(
        k,
        if discountType.Some? then discountType.value else Percentage,
        discountValue,
        if minOrderAmount.Some? then minOrderAmount.value else 0.0,
        maxDiscount, usageLimit,
        if usageCount.Some? then usageCount.value else 0,
        if userUsageLimit.Some? then userUsageLimit.value else 1,
        usedBy, startDate, endDate,
        isActive.None? || isActive.value)])
  }

  /** Stored codes are normalised: normalising is idempotent. */
  lemma NormalizeIdempotent(code: string)
    ensures NormalizeCode(NormalizeCode(code)) == NormalizeCode(code)
  {
    var t := Trim(code);
    NormalizeEitherOrder(ToUpper(t));
    ToUpperIdempotent(t);
    TrimIdempotentOnTrimmed(ToUpper(t));
  }

  /** A string with no whitespace at either end is its own trim. */
  lemma TrimIdempotentOnTrimmed(s: string)
    requires |s| > 0 ==> !V.IsSpace(s[0]) && !V.IsSpace(s[|s| - 1])
    ensures Trim(s) == s
  {
  }

  /** Creating a coupon keeps the store well keyed. */
  lemma CreateKeepsStoreWellKeyed(
    store: CouponStore, code: string, discountType: Option<DiscountType>, discountValue: real,
    minOrderAmount: Option<real>, maxDiscount: Option<real>, usageLimit: Option<int>,
    userUsageLimit: Option<int>, startDate: int, endDate: int, isActive: Option<bool>,
    usageCount: Option<int>, usedBy: seq<Usage>)
    requires WellKeyed(store)
    ensures var r := CreateCoupon(store, code, discountType, discountValue, minOrderAmount, maxDiscount,
                                  usageLimit, userUsageLimit, startDate, endDate, isActive, usageCount, usedBy);
      r.Ok? ==> WellKeyed(r.value)
  {
    NormalizeIdempotent(code);
  }

  // ---------------------------------------------------------------- validation

  /** The caller's `usedBy` entry: the first one naming them. */
  function UserUsage(usedBy: seq<Usage>, user: UserId): (r: Option<nat>)
    ensures r.None? <==> forall i :: 0 <= i < |usedBy| ==> usedBy[i].user != user
    ensures r.Some? ==>
      && r.value < |usedBy| && usedBy[r.value].user == user
      && forall i :: 0 <= i < r.value ==> usedBy[i].user != user
  {
    if |usedBy| == 0 then None
    else if usedBy[0].user == user then Some(0)
    else match UserUsage(usedBy[1..], user)
      case None => None
      case Some(i) => Some(i + 1)
  }

  /** The reasons a coupon is refused, in the order they are checked. */
  datatype Rejection = NotFound | Inactive | Expired | LimitReached | BelowMinimum | UserLimitReached

  function Rank(x: Rejection): nat {
    match x
    case NotFound => 0
    case Inactive => 1
    case Expired => 2
    case LimitReached => 3
    case BelowMinimum => 4
    case UserLimitReached => 5
  }

  /** The HTTP status of each refusal. */
  function StatusOf(x: Rejection): (s: int)
    ensures s == 404 <==> x == NotFound
    ensures s == 400 <==> x != NotFound
  {
    if x == NotFound then 404 else 400
  }

  /** Whether the `usageLimit` condition is truthy: set and non-zero. */
  predicate HasGlobalLimit(c: Coupon) {
    c.usageLimit.Some? && c.usageLimit.value != 0
  }

  /** Whether rejection `x` on its own applies to a coupon that was found. */
  predicate Applies(x: Rejection, c: Coupon, amount: real, user: UserId, now: int) {
    match x
    case NotFound => false
    case Inactive => !c.isActive
    case Expired => now < c.startDate || now > c.endDate
    case LimitReached => HasGlobalLimit(c) && c.usageCount >= c.usageLimit.value
    case BelowMinimum => amount < c.minOrderAmount
    case UserLimitReached =>
      var u := UserUsage(c.usedBy, user);
      u.Some? && c.usedBy[u.value].usageCount >= c.userUsageLimit
  }

  /** The discount of a coupon that passed every check: a percentage of the
      amount, capped only when `maxDiscount` is truthy, or the flat value. */
  function Discount(c: Coupon, amount: real): (d: real)
    ensures c.discountType == Fixed ==> d == c.discountValue
    ensures c.discountType == Percentage ==>
      && d <= amount * c.discountValue / 100.0
      && (c.maxDiscount.Some? && c.maxDiscount.value != 0.0 ==> d <= c.maxDiscount.value)
      && (d == amount * c.discountValue / 100.0 || (c.maxDiscount.Some? && c.maxDiscount.value != 0.0 && d == c.maxDiscount.value))
  {
    match c.discountType
    case Percentage =>
      var d := amount * c.discountValue / 100.0;
      if c.maxDiscount.Some? && c.maxDiscount.value != 0.0 && d > c.maxDiscount.value then c.maxDiscount.value else d
    case Fixed => c.discountValue
  }

  datatype Verdict = Rejected(reason: Rejection) | Accepted(discount: real)

  /** `validateCoupon`: the first refusal that applies, in check order, or
      the discount. `now` stands for the request's clock reading. */
  function ValidateCoupon(store: CouponStore, code: string, amount: real, user: UserId, now: int): (v: Verdict)
    ensures ToUpper(code) !in store ==> v == Rejected(NotFound)
    ensures ToUpper(code) in store ==> var c := store[ToUpper(code)];
      && (v.Accepted? <==> forall x :: !Applies(x, c, amount, user, now))
      && (v.Accepted? ==> v.discount == Discount(c, amount))
      && (v.Rejected? ==> Applies(v.reason, c, amount, user, now))
      && (v.Rejected? ==> forall x :: Rank(x) < Rank(v.reason) ==> !Applies(x, c, amount, user, now))
  {
    var key := ToUpper(code);
    if key !in store then Rejected(NotFound)
    else
      var c := store[key];
      if Applies(Inactive, c, amount, user, now) then Rejected(Inactive)
      else if Applies(Expired, c, amount, user, now) then Rejected(Expired)
      else if Applies(LimitReached, c, amount, user, now) then Rejected(LimitReached)
      else if Applies(BelowMinimum, c, amount, user, now) then Rejected(BelowMinimum)
      else if Applies(UserLimitReached, c, amount, user, now) then Rejected(UserLimitReached)
      else Accepted(Discount(c, amount))
  }

  /** A found coupon is never accepted for an amount below its minimum,
      whatever its discount type. */
  lemma BelowMinimumNeverAccepted(store: CouponStore, code: string, amount: real, user: UserId, now: int)
    requires ToUpper(code) in store && amount < store[ToUpper(code)].minOrderAmount
    ensures ValidateCoupon(store, code, amount, user, now).Rejected?
  {
    assert Applies(BelowMinimum, store[ToUpper(code)], amount, user, now);
  }

  /** A user with no `usedBy` entry never hits the per-user limit, and a
      missing or zero `usageLimit` never hits the global one. */
  lemma LimitsThatCannotApply(c: Coupon, amount: real, user: UserId, now: int)
    ensures UserUsage(c.usedBy, user).None? ==> !Applies(UserLimitReached, c, amount, user, now)
    ensures c.usageLimit.None? || c.usageLimit == Some(0) ==> !Applies(LimitReached, c, amount, user, now)
  {
  }

  /** With a non-negative amount and a percentage of at most 100, a
      percentage discount never exceeds the amount; a fixed discount can. */
  lemma PercentageDiscountWithinAmount(c: Coupon, amount: real)
    requires c.discountType == Percentage && 0.0 <= c.discountValue <= 100.0 && amount >= 0.0
    requires c.maxDiscount.Some? ==> c.maxDiscount.value >= 0.0
    ensures 0.0 <= Discount(c, amount) <= amount
  {
    var full := amount * c.discountValue / 100.0;
    assert amount * c.discountValue <= amount * 100.0;
    assert 0.0 <= full <= amount;
  }

  /** A coupon with no cap and no limits, valid from 0 to 100 and not yet used. */
  function Sample(code: string, kind: DiscountType, value: real, cap: Option<real>): Coupon {
    Coupon(code, kind, value, 0.0, cap, None, 0, 1, [], 0, 100, true)
  }

  /** 20% off a 200 order capped at 15 gives 15; `SAVE20` (20%, no cap) on
      100 gives 20; a fixed 50 off a 30 order gives 50. */
  lemma DiscountExamples()
    ensures ValidateCoupon(map["TEN" := Sample("TEN", Percentage, 20.0, Some(15.0))], "ten", 200.0, "u", 1)
         == Accepted(15.0)
    ensures ValidateCoupon(map["SAVE20" := Sample("SAVE20", Percentage, 20.0, None)], "save20", 100.0, "u", 1)
         == Accepted(20.0)
    ensures ValidateCoupon(map["FLAT" := Sample("FLAT", Fixed, 50.0, None)], "FLAT", 30.0, "u", 1)
         == Accepted(50.0)
  {
    assert ToUpper("ten") == "TEN";
    assert ToUpper("save20") == "SAVE20";
    assert ToUpper("FLAT") == "FLAT";
  }

  // ---------------------------------------------------------------- apply

  /** `applyCoupon`: one more use overall and one more for the caller, whose
      entry is stamped with the time `now` (a new entry with count 1 on their
      first use). No other check is made. */
  function ApplyCoupon(store: CouponStore, code: string, user: UserId, now: int): (r: Result<CouponStore>)
    ensures r.Ok? <==> ToUpper(code) in store
    ensures r.Err? ==> r.failure == Failure(404, "Coupon not found")
    ensures r.Ok? ==> var k := ToUpper(code); var c := store[k];
      && k in r.value && r.value == store[k := r.value[k]]
      && var c' := r.value[k];
      && c' == c.(usageCount := c.usageCount + 1, usedBy := c'.usedBy)
      && match UserUsage(c.usedBy, user)
         case Some(i) =>
           && |c'.usedBy| == |c.usedBy|
           && c'.usedBy[i] == c.usedBy[i].(usageCount := c.usedBy[i].usageCount + 1, lastUsedAt := now)
           && forall j :: 0 <= j < |c.usedBy| && j != i ==> c'.usedBy[j] == c.usedBy[j]
         case None =>
           c'.usedBy == c.usedBy + [Usage(user, 1, now)]
  {
    var k := ToUpper(code);
    if k !in store then Err(Failure(404, "Coupon not found"))
    else
      var c := store[k];
      var usedBy := match UserUsage(c.usedBy, user)
        case Some(i) => c.usedBy[i := c.usedBy[i].(usageCount := c.usedBy[i].usageCount + 1, lastUsedAt := now)]
        case None => c.usedBy + [Usage(user, 1, now)];
      Ok(store[k := c.(usageCount := c.usageCount + 1, usedBy := usedBy)])
  }

  /** The caller's own use count: that of their entry, or 0 without one. */
  function UsesBy(c: Coupon, user: UserId): int {
    match UserUsage(c.usedBy, user)
    case Some(i) => c.usedBy[i].usageCount
    case None => 0
  }

  /** Applying raises the caller's count by exactly one and leaves every
      other user's count as it was. */
  lemma ApplyCountsOneUse(store: CouponStore, code: string, user: UserId, other: UserId, now: int)
    requires ToUpper(code) in store && other != user
    ensures var r := ApplyCoupon(store, code, user, now); var k := ToUpper(code);
      && r.Ok?
      && UsesBy(r.value[k], user) == UsesBy(store[k], user) + 1
      && UsesBy(r.value[k], other) == UsesBy(store[k], other)
  {
    var k := ToUpper(code);
    var c := store[k];
    var c' := ApplyCoupon(store, code, user, now).value[k];
    match UserUsage(c.usedBy, user)
    case Some(i) =>
      assert c'.usedBy == c.usedBy[i := c.usedBy[i].(usageCount := c.usedBy[i].usageCount + 1, lastUsedAt := now)];
      SameUsersSameIndex(c.usedBy, c'.usedBy, user);
      SameUsersSameIndex(c.usedBy, c'.usedBy, other);
    case None =>
      UserUsageAppend(c.usedBy, Usage(user, 1, now), user);
      UserUsageAppend(c.usedBy, Usage(user, 1, now), other);
  }

  /** Two entry lists naming the same users position by position find the
      same entry for everyone. */
  lemma {:induction false} SameUsersSameIndex(a: seq<Usage>, b: seq<Usage>, user: UserId)
    requires |a| == |b| && forall i :: 0 <= i < |a| ==> a[i].user == b[i].user
    ensures UserUsage(a, user) == UserUsage(b, user)
  {
    if |a| > 0 {
      SameUsersSameIndex(a[1..], b[1..], user);
    }
  }

  lemma {:induction false} UserUsageAppend(a: seq<Usage>, e: Usage, user: UserId)
    ensures UserUsage(a + [e], user) ==
      if UserUsage(a, user).Some? then UserUsage(a, user)
      else if e.user == user then Some(|a|) else None
  {
    if |a| > 0 {
      assert (a + [e])[1..] == a[1..] + [e];
      UserUsageAppend(a[1..], e, user);
    }
  }

  /** Applying ignores every limit: a coupon already at its global limit
      is applied again and goes past it. */
  lemma ApplyCanExceedLimit(store: CouponStore, code: string, user: UserId, now: int)
    requires ToUpper(code) in store
    requires store[ToUpper(code)].usageLimit.Some?
    requires store[ToUpper(code)].usageCount == store[ToUpper(code)].usageLimit.value
    ensures var r := ApplyCoupon(store, code, user, now);
      r.Ok? && r.value[ToUpper(code)].usageCount > r.value[ToUpper(code)].usageLimit.value
  {
  }

  /** With the default per-user limit of 1, once a user has applied a coupon
      validating it again for them is refused. The caller's own count must
      not be negative: a `usedBy` supplied at creation may hold any count,
      and from -1 one use leaves the count still below the limit. */
  lemma SecondUseRefusedByDefault(
    store: CouponStore, code: string, amount: real, user: UserId, appliedAt: int, now: int)
    requires ToUpper(code) in store && store[ToUpper(code)].userUsageLimit == 1
    requires UsesBy(store[ToUpper(code)], user) >= 0
    ensures var r := ApplyCoupon(store, code, user, appliedAt);
      r.Ok? && ValidateCoupon(r.value, code, amount, user, now).Rejected?
  {
    var k := ToUpper(code);
    var c' := ApplyCoupon(store, code, user, appliedAt).value[k];
    ApplyCountsOneUse(store, code, user, user + "'", appliedAt);
    assert UserUsage(c'.usedBy, user).Some?;
    assert Applies(UserLimitReached, c', amount, user, now);
  }
}

=== FILE: grouping.dfy ===
/** The aggregation the analytics reports share: group events by a key into
    per-key tallies (the `stats[key] ||= {...}; stats[key].x += ...` loops),
    then order the tallies by a score (`Array.prototype.sort` with a
    comparator) and keep the first few (`slice(0, n)`). */
module Grouping {
  import opened Common

  /** One contribution to a group: its key, a whole number of units, and an amount of money. */
  datatype Event<K> = Event(key: K, units: int, amount: real)

  /** A group's running totals: how many events, and the sums of their units and amounts. */
  datatype Tally<K> = Tally(key: K, count: int, units: int, amount: real)

  // ---------------------------------------------------------------- reference sums

  function CountFor<K(==)>(es: seq<Event<K>>, k: K): int {
    if |es| == 0 then 0 else CountFor(es[..|es| - 1], k) + (if es[|es| - 1].key == k then 1 else 0)
  }

  function UnitsFor<K(==)>(es: seq<Event<K>>, k: K): int {
    if |es| == 0 then 0 else UnitsFor(es[..|es| - 1], k) + (if es[|es| - 1].key == k then es[|es| - 1].units else 0)
  }

  function AmountFor<K(==)>(es: seq<Event<K>>, k: K): real {
    if |es| == 0 then 0.0 else AmountFor(es[..|es| - 1], k) + (if es[|es| - 1].key == k then es[|es| - 1].amount else 0.0)
  }

  /** Some event carries key `k`. */
  predicate Occurs<K(==)>(es: seq<Event<K>>, k: K) {
    exists j :: 0 <= j < |es| && es[j].key == k
  }

  /** Some tally carries key `k`. */
  predicate Listed<K(==)>(ts: seq<Tally<K>>, k: K) {
    exists i :: 0 <= i < |ts| && ts[i].key == k
  }

  predicate DistinctKeys<K(==)>(ts: seq<Tally<K>>) {
    forall i, j :: 0 <= i < j < |ts| ==> ts[i].key != ts[j].key
  }

  /** A tally holds its key's count and sums over `es`. */
  predicate Totals<K(==)>(t: Tally<K>, es: seq<Event<K>>) {
    t.count == CountFor(es, t.key) && t.units == UnitsFor(es, t.key) && t.amount == AmountFor(es, t.key)
  }

  /** At most one tally per key, each for a key that occurs in `es` and
      holding that key's count and sums. */
  predicate Accurate<K(==)>(ts: seq<Tally<K>>, es: seq<Event<K>>) {
    && DistinctKeys(ts)
    && forall i :: 0 <= i < |ts| ==> Occurs(es, ts[i].key) && Totals(ts[i], es)
  }

  /** Exactly one accurate tally per key that occurs in `es`. */
  predicate Summarises<K(==)>(ts: seq<Tally<K>>, es: seq<Event<K>>) {
    && Accurate(ts, es)
    && forall j :: 0 <= j < |es| ==> Listed(ts, es[j].key)
  }

  // ---------------------------------------------------------------- grouping

  /** The position of key `k`'s tally, if it has one. */
  function FindKey<K(==)>(ts: seq<Tally<K>>, k: K): (r: Option<nat>)
    ensures r.None? <==> !Listed(ts, k)
    ensures r.Some? ==> r.value < |ts| && ts[r.value].key == k
  {
    if |ts| == 0 then None
    else if ts[|ts| - 1].key == k then Some(|ts| - 1)
    else
      var r := FindKey(ts[..|ts| - 1], k);
      assert Listed(ts, k) ==> Listed(ts[..|ts| - 1], k) by {
        if Listed(ts, k) {
          var i :| 0 <= i < |ts| && ts[i].key == k;
          assert ts[..|ts| - 1][i].key == k;
        }
      }
      r
  }

  /** One event folded into the tallies: its key's tally grows, or a new
      tally is appended for a key not seen before. */
  function AddEvent<K(==)>(ts: seq<Tally<K>>, e: Event<K>): seq<Tally<K>> {
    match FindKey(ts, e.key)
    case Some(i) => ts[i := Tally(e.key, ts[i].count + 1, ts[i].units + e.units, ts[i].amount + e.amount)]
    case None => ts + [Tally(e.key, 1, e.units, e.amount)]
  }

  /** A key no event carries has count and sums 0. */
  lemma {:induction false} AbsentKeySumsToZero<K>(es: seq<Event<K>>, k: K)
    requires !Occurs(es, k)
    ensures CountFor(es, k) == 0 && UnitsFor(es, k) == 0 && AmountFor(es, k) == 0.0
  {
    if |es| > 0 {
      var init := es[..|es| - 1];
      forall j | 0 <= j < |init| ensures init[j].key != k {
        assert init[j] == es[j];
      }
      AbsentKeySumsToZero(init, k);
    }
  }

  /** The reference sums over one more event. */
  lemma SumsOfAppended<K>(es: seq<Event<K>>, e: Event<K>, k: K)
    ensures CountFor(es + [e], k) == CountFor(es, k) + (if e.key == k then 1 else 0)
    ensures UnitsFor(es + [e], k) == UnitsFor(es, k) + (if e.key == k then e.units else 0)
    ensures AmountFor(es + [e], k) == AmountFor(es, k) + (if e.key == k then e.amount else 0.0)
  {
    assert (es + [e])[..|es|] == es;
  }

  /** Which keys occur once one more event is appended. */
  lemma OccursAppended<K>(es: seq<Event<K>>, e: Event<K>)
    ensures forall k :: Occurs(es, k) ==> Occurs(es + [e], k)
    ensures Occurs(es + [e], e.key)
  {
    forall k | Occurs(es, k) ensures Occurs(es + [e], k) {
      var j :| 0 <= j < |es| && es[j].key == k;
      assert (es + [e])[j].key == k;
    }
    assert (es + [e])[|es|].key == e.key;
  }

  lemma AddEventToListedKey<K>(ts: seq<Tally<K>>, es: seq<Event<K>>, e: Event<K>, i: nat)
    requires Summarises(ts, es)
    requires i < |ts| && ts[i].key == e.key
    ensures Summarises(ts[i := Tally(e.key, ts[i].count + 1, ts[i].units + e.units, ts[i].amount + e.amount)], es + [e])
  {
    var es' := es + [e];
    var r := ts[i := Tally(e.key, ts[i].count + 1, ts[i].units + e.units, ts[i].amount + e.amount)];
    OccursAppended(es, e);
    forall idx | 0 <= idx < |r|
      ensures r[idx].count == CountFor(es', r[idx].key)
      ensures r[idx].units == UnitsFor(es', r[idx].key)
      ensures r[idx].amount == AmountFor(es', r[idx].key)
    {
      SumsOfAppended(es, e, r[idx].key);
    }
    forall j | 0 <= j < |es'|
      ensures Listed(r, es'[j].key)
    {
      if j < |es| {
        assert es'[j] == es[j];
        var idx :| 0 <= idx < |ts| && ts[idx].key == es[j].key;
        assert r[idx].key == es'[j].key;
      } else {
        assert r[i].key == es'[j].key;
      }
    }
    assert forall idx :: 0 <= idx < |r| ==> r[idx].key == ts[idx].key;
  }

  lemma AddEventToNewKey<K>(ts: seq<Tally<K>>, es: seq<Event<K>>, e: Event<K>)
    requires Summarises(ts, es)
    requires !Listed(ts, e.key)
    ensures Summarises(ts + [Tally(e.key, 1, e.units, e.amount)], es + [e])
  {
    var es' := es + [e];
    var r := ts + [Tally(e.key, 1, e.units, e.amount)];
    forall j | 0 <= j < |es| ensures es[j].key != e.key {
      assert Listed(ts, es[j].key);
    }
    AbsentKeySumsToZero(es, e.key);
    OccursAppended(es, e);
    forall idx | 0 <= idx < |r|
      ensures r[idx].count == CountFor(es', r[idx].key)
      ensures r[idx].units == UnitsFor(es', r[idx].key)
      ensures r[idx].amount == AmountFor(es', r[idx].key)
    {
      SumsOfAppended(es, e, r[idx].key);
    }
    forall j | 0 <= j < |es'|
      ensures Listed(r, es'[j].key)
    {
      if j < |es| {
        assert es'[j] == es[j];
        var idx :| 0 <= idx < |ts| && ts[idx].key == es[j].key;
        assert r[idx].key == es'[j].key;
      } else {
        assert r[|ts|].key == es'[j].key;
      }
    }
  }

  lemma AddEventSummarises<K>(ts: seq<Tally<K>>, es: seq<Event<K>>, e: Event<K>)
    requires Summarises(ts, es)
    ensures Summarises(AddEvent(ts, e), es + [e])
  {
    match FindKey(ts, e.key)
    case Some(i) => AddEventToListedKey(ts, es, e, i);
    case None => AddEventToNewKey(ts, es, e);
  }

  /** Events grouped by key, tallies in order of first appearance. */
  function GroupBy<K(==)>(es: seq<Event<K>>): (ts: seq<Tally<K>>)
    ensures Summarises(ts, es)
  {
    if |es| == 0 then []
    else
      var init := es[..|es| - 1];
      var ts := GroupBy(init);
      AddEventSummarises(ts, init, es[|es| - 1]);
      assert init + [es[|es| - 1]] == es;
      AddEvent(ts, es[|es| - 1])
  }

  // ---------------------------------------------------------------- ordering

  /** Non-increasing by `score`. */
  predicate SortedDesc<T>(xs: seq<T>, score: T -> real) {
    forall i, j :: 0 <= i < j < |xs| ==> score(xs[i]) >= score(xs[j])
  }

  /** Places `x` before the first element it does not score below. */
  function Insert<T(==)>(x: T, s: seq<T>, score: T -> real): (r: seq<T>)
    requires SortedDesc(s, score)
    ensures SortedDesc(r, score)
    ensures multiset(r) == multiset(s) + multiset{x}
  {
    if |s| == 0 then [x]
    else if score(x) >= score(s[0]) then [x] + s
    else
      var rest := Insert(x, s[1..], score);
      InsertedBelowHead(x, s, score, rest);
      assert s == [s[0]] + s[1..];
      ConsSorted(s[0], rest, score);
      [s[0]] + rest
  }

  /** What is inserted behind the head of a sorted list scores no higher than the head. */
  lemma InsertedBelowHead<T>(x: T, s: seq<T>, score: T -> real, rest: seq<T>)
    requires |s| > 0 && SortedDesc(s, score) && score(x) < score(s[0])
    requires multiset(rest) == multiset(s[1..]) + multiset{x}
    ensures forall y :: y in rest ==> score(y) <= score(s[0])
  {
    forall y | y in rest ensures score(y) <= score(s[0]) {
      assert y in multiset(rest);
      if y != x {
        assert y in multiset(s[1..]);
        var j :| 0 <= j < |s[1..]| && s[1..][j] == y;
        assert s[j + 1] == y;
      }
    }
  }

  /** A head that scores at least as high as every element of a sorted tail
      keeps the list sorted. */
  lemma ConsSorted<T>(h: T, rest: seq<T>, score: T -> real)
    requires SortedDesc(rest, score)
    requires forall y :: y in rest ==> score(y) <= score(h)
    ensures SortedDesc([h] + rest, score)
  {
    var r := [h] + rest;
    forall i, j | 0 <= i < j < |r| ensures score(r[i]) >= score(r[j]) {
      assert r[j] == rest[j - 1];
      if i > 0 {
        assert r[i] == rest[i - 1];
      } else {
        assert rest[j - 1] in rest;
      }
    }
  }

  /** Insertion sort, non-increasing by `score`: the same elements, reordered. */
  function SortDesc<T(==)>(xs: seq<T>, score: T -> real): (r: seq<T>)
    ensures SortedDesc(r, score)
    ensures multiset(r) == multiset(xs)
    ensures |r| == |xs|
  {
    if |xs| == 0 then []
    else
      assert xs == [xs[0]] + xs[1..];
      var r := Insert(xs[0], SortDesc(xs[1..], score), score);
      assert |r| == |multiset(r)|;
      r
  }

  /** Sorting tallies keeps at most one per key. */
  lemma {:induction false} InsertKeepsDistinctKeys<K>(x: Tally<K>, s: seq<Tally<K>>, score: Tally<K> -> real)
    requires SortedDesc(s, score) && DistinctKeys(s)
    requires forall i :: 0 <= i < |s| ==> s[i].key != x.key
    ensures DistinctKeys(Insert(x, s, score))
  {
    if |s| > 0 && score(x) < score(s[0]) {
      InsertKeepsDistinctKeys(x, s[1..], score);
      var rest := Insert(x, s[1..], score);
      forall j | 0 <= j < |rest| ensures rest[j].key != s[0].key {
        assert rest[j] in multiset(rest);
        if rest[j] != x {
          assert rest[j] in multiset(s[1..]);
          var m :| 0 <= m < |s[1..]| && s[1..][m] == rest[j];
          assert s[m + 1] == rest[j];
        }
      }
      assert Insert(x, s, score) == [s[0]] + rest;
    }
  }

  lemma {:induction false} SortKeepsDistinctKeys<K>(ts: seq<Tally<K>>, score: Tally<K> -> real)
    requires DistinctKeys(ts)
    ensures DistinctKeys(SortDesc(ts, score))
  {
    if |ts| > 0 {
      var rest := SortDesc(ts[1..], score);
      SortKeepsDistinctKeys(ts[1..], score);
      forall i | 0 <= i < |rest| ensures rest[i].key != ts[0].key {
        assert rest[i] in multiset(ts[1..]);
        var m :| 0 <= m < |ts[1..]| && ts[1..][m] == rest[i];
        assert ts[m + 1] == rest[i];
      }
      InsertKeepsDistinctKeys(ts[0], rest, score);
    }
  }

  /** Reordering the tallies keeps them a summary of the same events. */
  lemma SortKeepsSummary<K>(ts: seq<Tally<K>>, es: seq<Event<K>>, score: Tally<K> -> real)
    requires Summarises(ts, es)
    ensures Summarises(SortDesc(ts, score), es)
  {
    var r := SortDesc(ts, score);
    SortKeepsDistinctKeys(ts, score);
    forall i | 0 <= i < |r| ensures Occurs(es, r[i].key) && Totals(r[i], es) {
      assert r[i] in multiset(ts);
    }
    forall j | 0 <= j < |es| ensures Listed(r, es[j].key) {
      var i :| 0 <= i < |ts| && ts[i].key == es[j].key;
      assert ts[i] in multiset(r);
      var m :| 0 <= m < |r| && r[m] == ts[i];
    }
  }

  /** `sort(...).slice(0, n)` over a summary: the `n` highest-scoring
      tallies, best first, each still accurate. */
  function Top<K(==)>(ts: seq<Tally<K>>, es: seq<Event<K>>, n: int, score: Tally<K> -> real): (r: seq<Tally<K>>)
    requires Summarises(ts, es)
    ensures n >= 0 ==> |r| == if n < |ts| then n else |ts|
    ensures SortedDesc(r, score)
    ensures Accurate(r, es)
    ensures n >= |ts| ==> Summarises(r, es)
    ensures forall t, i :: t in ts && t !in r && 0 <= i < |r| ==> score(t) <= score(r[i])
  {
    var s := SortDesc(ts, score);
    SortKeepsSummary(ts, es, score);
    var m := ClampIndex(n, |s|);
    var r := Slice(s, 0, n);
    assert r == s[..m];
    assert n >= |ts| ==> r == s;
    PrefixOfSortedScoresHigher(ts, s, m, score);
    r
  }

  /** In a non-increasing reordering `s` of `ts`, whatever is left out of a
      prefix scores no higher than anything in the prefix. */
  lemma PrefixOfSortedScoresHigher<T>(ts: seq<T>, s: seq<T>, m: int, score: T -> real)
    requires SortedDesc(s, score) && multiset(s) == multiset(ts) && 0 <= m <= |s|
    ensures forall t, i :: t in ts && t !in s[..m] && 0 <= i < |s[..m]| ==> score(t) <= score(s[..m][i])
  {
    forall t, i | t in ts && t !in s[..m] && 0 <= i < |s[..m]| ensures score(t) <= score(s[..m][i]) {
      assert t in multiset(s);
      var j :| 0 <= j < |s| && s[j] == t;
      assert s[..m][i] == s[i];
    }
  }
}

=== FILE: inventory.dfy ===
/** The inventory ledger: one record per product with typed quantity changes,
    a history log, reservations, and the save hook that keeps
    `available = quantity - reserved`. */
module Inventory {
  import opened Common
  import Catalog

  /** The history entry types the schema admits. */
  datatype HistoryType = Purchase | Sale | Return | Adjustment | Damage

  datatype HistoryEntry = HistoryEntry(kind: HistoryType, quantity: int, reason: string, reference: string)

  datatype InventoryRecord = InventoryRecord(
    product: ProductId,
    quantity: int,
    reserved: int,
    available: int,
    reorderLevel: int,
    reorderQuantity: int,
    history: seq<HistoryEntry>,
    /** When a purchase last restocked the product; none before the first. */
    lastRestocked: Option<int>)

  /** Records keyed by product: the unique index on `product` makes the map key the record's product. */
  type InventoryStore = map<ProductId, InventoryRecord>

  /** The pre-save hook. */
  function Save(rec: InventoryRecord): (r: InventoryRecord)
    ensures Saved(r)
    ensures r == rec.(available := r.available)
  {
    rec.(available := rec.quantity - rec.reserved)
  }

  /** What every stored record satisfies: the hook ran at its last save. */
  predicate Saved(rec: InventoryRecord) {
    rec.available == rec.quantity - rec.reserved
  }

  /** Every record is saved and sits under its own product's key. */
  predicate WellFormed(inv: InventoryStore) {
    forall p :: p in inv ==> inv[p].product == p && Saved(inv[p])
  }

  /** `Inventory.create({ product, quantity })` with the schema defaults. */
  function NewRecord(p: ProductId, quantity: int): (r: InventoryRecord)
    ensures r.product == p && r.quantity == quantity && r.reserved == 0 && r.available == quantity
    ensures r.reorderLevel == 10 && r.reorderQuantity == 50 && r.history == [] && r.lastRestocked.None?
  {
    Save(InventoryRecord(p, quantity, 0, 0, 10, 50, [], None))
  }

  /** A record that was never saved carries every schema default. */
  lemma DefaultRecord(p: ProductId)
    ensures var r := NewRecord(p, 0);
      r.quantity == 0 && r.reserved == 0 && r.available == 0 && r.reorderLevel == 10 && r.reorderQuantity == 50
  {
  }

  // ---------------------------------------------------------------- updateInventory

  /** The quantity after one typed change: purchases and returns add;
      sales, adjustments and damage subtract (only a sale is checked, by the caller). */
  function Applied(kind: HistoryType, quantity: int, amount: int): (r: int)
    ensures kind == Purchase || kind == Return ==> r == quantity + amount
    ensures kind == Sale || kind == Adjustment || kind == Damage ==> r == quantity - amount
  {
    match kind
    case Purchase => quantity + amount
    case Return => quantity + amount
    case Sale => quantity - amount
    case Adjustment => quantity - amount
    case Damage => quantity - amount
  }

  /** The record `updateInventory` works on: the stored one, or a new one
      holding the amount when the change is a purchase and 0 otherwise. */
  function Current(inv: InventoryStore, p: ProductId, kind: HistoryType, amount: int): InventoryRecord {
    if p in inv then inv[p] else NewRecord(p, if kind == Purchase then amount else 0)
  }

  /** What `updateInventory` leaves behind. The lazily created record is
      stored even when the change is then refused. */
  datatype UpdateOutcome = UpdateOutcome(inventory: InventoryStore, products: Catalog.ProductStore, failure: Option<Failure>)

  /** `updateInventory`; `now` is the time a purchase stamps as the restock. */
  function UpdateInventory(
    inv: InventoryStore, products: Catalog.ProductStore, p: ProductId,
    amount: int, kind: HistoryType, reason: string, reference: Option<string>, now: int
  ): (r: UpdateOutcome)
    ensures p in r.inventory && r.inventory.Keys == inv.Keys + {p}
    ensures forall q :: q in inv && q != p ==> r.inventory[q] == inv[q]
    ensures var before := Current(inv, p, kind, amount);
      r.failure.Some? <==> kind == Sale && before.quantity < amount
    ensures r.failure.Some? ==>
      && r.failure.value == Failure(400, "Insufficient stock")
      && r.inventory[p] == Current(inv, p, kind, amount)
      && r.products == products
    ensures r.failure.None? ==> var before := Current(inv, p, kind, amount); var after := r.inventory[p];
      && after.quantity == Applied(kind, before.quantity, amount)
      && after.history == before.history + [HistoryEntry(kind, amount, reason, if reference.Some? then reference.value else "")]
      && Saved(after)
      && after.lastRestocked == (if kind == Purchase then Some(now) else before.lastRestocked)
      && after == before.(quantity := after.quantity, available := after.available, history := after.history,
                          lastRestocked := after.lastRestocked)
    ensures r.failure.None? ==>
      && r.products.Keys == products.Keys
      && (p in products ==> r.products == products[p := products[p].(stock := r.inventory[p].quantity)])
      && (p !in products ==> r.products == products)
  {
    var before := Current(inv, p, kind, amount);
    if kind == Sale && before.quantity < amount then
      UpdateOutcome(inv[p := before], products, Some(Failure(400, "Insufficient stock")))
    else
      var entry := HistoryEntry(kind, amount, reason, if reference.Some? then reference.value else "");
      var restocked := if kind == Purchase then Some(now) else before.lastRestocked;
      var after := Save(before.(quantity := Applied(kind, before.quantity, amount), history := before.history + [entry],
                                lastRestocked := restocked));
      var products' := if p in products then products[p := products[p].(stock := after.quantity)] else products;
      UpdateOutcome(inv[p := after], products', None)
  }

  /** A first purchase for a product with no record counts twice: the record
      is created holding the amount, and then the amount is added. */
  lemma FirstPurchaseCountsTwice(
    inv: InventoryStore, products: Catalog.ProductStore, p: ProductId, amount: int, reason: string, reference: Option<string>, now: int)
    requires p !in inv
    ensures var r := UpdateInventory(inv, products, p, amount, Purchase, reason, reference, now);
      r.failure.None? && r.inventory[p].quantity == 2 * amount
  {
  }

  /** A refused first sale still leaves a new, empty record behind. */
  lemma RefusedFirstSaleCreatesRecord(
    inv: InventoryStore, products: Catalog.ProductStore, p: ProductId, amount: int, reason: string, now: int)
    requires p !in inv && amount > 0
    ensures var r := UpdateInventory(inv, products, p, amount, Sale, reason, None, now);
      && r.failure == Some(Failure(400, "Insufficient stock"))
      && p in r.inventory && r.inventory[p] == NewRecord(p, 0)
  {
  }

  // ---------------------------------------------------------------- reservations

  /** `reserveStock`. */
  function ReserveStock(inv: InventoryStore, p: ProductId, amount: int): (r: Result<InventoryStore>)
    ensures p !in inv ==> r == Err(Failure(404, "Inventory not found"))
    ensures p in inv && inv[p].available < amount ==> r == Err(Failure(400, "Insufficient available stock"))
    ensures r.Ok? <==> p in inv && inv[p].available >= amount
    ensures r.Ok? ==> p in r.value && r.value == inv[p := r.value[p]]
    ensures r.Ok? ==> var before := inv[p]; var after := r.value[p];
      && after.reserved == before.reserved + amount
      && Saved(after)
      && after == before.(reserved := after.reserved, available := after.available)
  {
    if p !in inv then Err(Failure(404, "Inventory not found"))
    else if inv[p].available < amount then Err(Failure(400, "Insufficient available stock"))
    else Ok(inv[p := Save(inv[p].(reserved := inv[p].reserved + amount))])
  }

  /** `releaseReservedStock`. */
  function ReleaseReservedStock(inv: InventoryStore, p: ProductId, amount: int): (r: Result<InventoryStore>)
    ensures p !in inv ==> r == Err(Failure(404, "Inventory not found"))
    ensures p in inv && inv[p].reserved < amount ==> r == Err(Failure(400, "Cannot release more than reserved"))
    ensures r.Ok? <==> p in inv && inv[p].reserved >= amount
    ensures r.Ok? ==> p in r.value && r.value == inv[p := r.value[p]]
    ensures r.Ok? ==> var before := inv[p]; var after := r.value[p];
      && after.reserved == before.reserved - amount
      && after.reserved >= 0
      && Saved(after)
      && after == before.(reserved := after.reserved, available := after.available)
  {
    if p !in inv then Err(Failure(404, "Inventory not found"))
    else if inv[p].reserved < amount then Err(Failure(400, "Cannot release more than reserved"))
    else Ok(inv[p := Save(inv[p].(reserved := inv[p].reserved - amount))])
  }

  /** From a saved record whose reservations fit in its quantity, a
      successful reservation keeps them within the quantity: the check on
      `available` is exactly the room left. */
  lemma ReserveKeepsReservedWithinQuantity(inv: InventoryStore, p: ProductId, amount: int)
    requires p in inv && Saved(inv[p]) && inv[p].reserved <= inv[p].quantity
    ensures var r := ReserveStock(inv, p, amount);
      r.Ok? ==> 0 <= r.value[p].available && r.value[p].reserved <= r.value[p].quantity
  {
  }

  /** Every ledger handler keeps each record saved and under its own key. */
  lemma HandlersKeepStoreWellFormed(
    inv: InventoryStore, products: Catalog.ProductStore, p: ProductId, amount: int,
    kind: HistoryType, reason: string, reference: Option<string>, now: int)
    requires WellFormed(inv)
    ensures WellFormed(UpdateInventory(inv, products, p, amount, kind, reason, reference, now).inventory)
    ensures ReserveStock(inv, p, amount).Ok? ==> WellFormed(ReserveStock(inv, p, amount).value)
    ensures ReleaseReservedStock(inv, p, amount).Ok? ==> WellFormed(ReleaseReservedStock(inv, p, amount).value)
  {
  }

  // ---------------------------------------------------------------- reads

  /** The low-stock query: available at or below the reorder level. */
  predicate LowStock(rec: InventoryRecord) {
    rec.available <= rec.reorderLevel
  }

  function LowStockProducts(inv: InventoryStore): (ps: set<ProductId>)
    ensures forall p :: p in ps <==> p in inv && LowStock(inv[p])
  {
    set p | p in inv && LowStock(inv[p])
  }

  /** A saved record is low on stock exactly when quantity minus
      reservations is at or below the reorder level. */
  lemma LowStockOfSaved(rec: InventoryRecord)
    requires Saved(rec)
    ensures LowStock(rec) <==> rec.quantity - rec.reserved <= rec.reorderLevel
  {
  }

  function Reverse<T>(xs: seq<T>): (r: seq<T>)
    ensures |r| == |xs| && forall i :: 0 <= i < |xs| ==> r[i] == xs[|xs| - 1 - i]
  {
    seq(|xs|, i requires 0 <= i < |xs| => xs[|xs| - 1 - i])
  }

  /** `history.slice(-limit).reverse()`. */
  function History(rec: InventoryRecord, limit: int): (r: seq<HistoryEntry>)
    ensures limit > 0 ==> |r| == if limit < |rec.history| then limit else |rec.history|
    ensures limit == 0 ==> |r| == |rec.history|
    ensures |r| <= |rec.history|
    ensures forall i :: 0 <= i < |r| ==> r[i] == rec.history[|rec.history| - 1 - i]
  {
    var h := rec.history;
    SliceFromEnd(h, limit);
    Reverse(Slice(h, -limit, |h|))
  }
}

=== FILE: order_timeline.dfy ===
/** The order-details page's status timeline: the four fulfilment steps,
    each marked completed when the order has reached it. */
module OrderTimeline {

  /** The fulfilment steps, in order. */
  const Statuses: seq<string> := ["pending", "processing", "shipped", "delivered"]

  /** `Array.prototype.indexOf`: the first position holding `s`, or -1. */
  function IndexOf(xs: seq<string>, s: string): (r: int)
    ensures -1 <= r < |xs|
    ensures r == -1 <==> s !in xs
    ensures r >= 0 ==> xs[r] == s && forall j :: 0 <= j < r ==> xs[j] != s
  {
    if |xs| == 0 then -1
    else if xs[0] == s then 0
    else
      var k := IndexOf(xs[1..], s);
      if k == -1 then -1 else k + 1
  }

  datatype Step = Step(status: string, completed: bool)

  /** `getStatusSteps`: every step, completed when its position is at most
      the position of the order's status (-1 for a status not in the list). */
  function GetStatusSteps(orderStatus: string): (steps: seq<Step>)
    ensures |steps| == |Statuses| == 4
    ensures forall i :: 0 <= i < 4 ==> steps[i].status == Statuses[i]
    ensures forall i :: 0 <= i < 4 ==> (steps[i].completed <==> i <= IndexOf(Statuses, orderStatus))
  {
    seq(4, i requires 0 <= i < 4 =>
      Step(Statuses[i], IndexOf(Statuses, Statuses[i]) <= IndexOf(Statuses, orderStatus)))
  }

  /** The completed steps are a prefix: once a step is open, so is every later one. */
  lemma CompletedStepsArePrefix(orderStatus: string, i: int, j: int)
    requires 0 <= i <= j < 4
    ensures GetStatusSteps(orderStatus)[j].completed ==> GetStatusSteps(orderStatus)[i].completed
  {
  }

  /** Exactly the steps up to and including the order's status are completed. */
  lemma CompletedUpToStatus(k: int)
    requires 0 <= k < 4
    ensures forall i :: 0 <= i < 4 ==> (GetStatusSteps(Statuses[k])[i].completed <==> i <= k)
  {
    assert IndexOf(Statuses, Statuses[k]) == k;
  }

  /** "pending" completes only the first step; "delivered" completes all four. */
  lemma PendingAndDelivered()
    ensures var s := GetStatusSteps("pending");
      s[0].completed && !s[1].completed && !s[2].completed && !s[3].completed
    ensures forall i :: 0 <= i < 4 ==> GetStatusSteps("delivered")[i].completed
  {
    CompletedUpToStatus(0);
    CompletedUpToStatus(3);
  }

  /** "cancelled", or any status off the timeline, completes no step. */
  lemma OffTimelineCompletesNothing(orderStatus: string)
    requires orderStatus !in Statuses
    ensures forall i :: 0 <= i < 4 ==> !GetStatusSteps(orderStatus)[i].completed
  {
  }

  lemma CancelledCompletesNothing()
    ensures forall i :: 0 <= i < 4 ==> !GetStatusSteps("cancelled")[i].completed
  {
    OffTimelineCompletesNothing("cancelled");
  }
}

=== FILE: orders.dfy ===
/** Order placement (check every line's stock, copy the cart into an order,
    decrement stock, clear the cart), the status update, the state change of
    a payment, and the admin order list's filter and pagination. */
module Orders {
  import opened Common
  import opened Catalog
  import opened Carts
  import Responses

  /** An order line: product, quantity and the cart's frozen unit price. */
  datatype OrderItem = OrderItem(product: ProductId, quantity: int, price: real, subtotal: real)

  datatype Order = Order(
    id: OrderId,
    user: UserId,
    items: seq<OrderItem>,
    shippingAddress: Address,
    billingAddress: Address,
    paymentMethod: string,
    subtotal: real,
    tax: real,
    total: real,
    orderStatus: string,
    paymentStatus: string,
    transactionId: Option<string>,
    createdAt: int,
    /** The time of the last status update; none until one happens. */
    updatedAt: Option<int>)

  type OrderStore = map<OrderId, Order>

  /** The records order placement reads and writes together. */
  datatype Shop = Shop(products: ProductStore, carts: CartStore, orders: OrderStore)

  /** The status a new order starts with (both order and payment). */
  const InitialStatus: string := "pending"

  /** Whether a line's product still exists and has at least the line's quantity in stock. */
  predicate InStock(products: ProductStore, item: CartItem) {
    item.product in products && products[item.product].stock >= item.quantity
  }

  /** Whether every line is in stock. */
  predicate AllInStock(products: ProductStore, items: seq<CartItem>) {
    forall i :: 0 <= i < |items| ==> InStock(products, items[i])
  }

  /** The reply for a line that is not in stock. */
  function LineFailure(products: ProductStore, item: CartItem): Failure {
    if item.product !in products then Failure(500, "Cannot read properties of null (reading '_id')")
    else Failure(400, "Insufficient stock for " + products[item.product].name)
  }

  /** The stock check loop: the first line that fails decides the reply. A
      line whose product has been deleted makes the handler dereference null
      (500); a line asking for more than the current stock gets 400. */
  function StockProblem(products: ProductStore, items: seq<CartItem>): (r: Option<Failure>)
    ensures r.None? <==> AllInStock(products, items)
    ensures r.Some? ==> exists i ::
      && 0 <= i < |items| && !InStock(products, items[i])
      && (forall j :: 0 <= j < i ==> InStock(products, items[j]))
      && r.value == LineFailure(products, items[i])
  {
    if |items| == 0 then None
    else if !InStock(products, items[0]) then Some(LineFailure(products, items[0]))
    else
      var r := StockProblem(products, items[1..]);
      assert forall i :: 0 < i < |items| ==> items[i] == items[1..][i - 1];
      if r.Some? then
        var i :| 0 <= i < |items[1..]| && !InStock(products, items[1..][i])
          && (forall j :: 0 <= j < i ==> InStock(products, items[1..][j]))
          && r.value == LineFailure(products, items[1..][i]);
        assert !InStock(products, items[i + 1]) && r.value == LineFailure(products, items[i + 1]);
        assert forall j :: 0 <= j < i + 1 ==> InStock(products, items[j]);
        r
      else r
  }

  /** The order line made from a cart line. */
  function OrderLine(item: CartItem): OrderItem {
    OrderItem(item.product, item.quantity, item.price, item.price * (item.quantity as real))
  }

  function OrderLines(items: seq<CartItem>): (r: seq<OrderItem>)
    ensures |r| == |items| && forall i :: 0 <= i < |items| ==> r[i] == OrderLine(items[i])
  {
    seq(|items|, i requires 0 <= i < |items| => OrderLine(items[i]))
  }

  /** The total quantity the lines ask of product `p`. */
  function QuantityFor(items: seq<CartItem>, p: ProductId): int {
    if |items| == 0 then 0
    else QuantityFor(items[..|items| - 1], p) + (if items[|items| - 1].product == p then items[|items| - 1].quantity else 0)
  }

  /** The `$inc: { stock: -quantity }` updates, one per line in order; an
      update for a product that no longer exists changes nothing. */
  function DecrementStock(products: ProductStore, items: seq<CartItem>): (r: ProductStore)
    ensures r.Keys == products.Keys
    ensures forall p :: p in products ==>
      r[p] == products[p].(stock := products[p].stock - QuantityFor(items, p))
  {
    if |items| == 0 then products
    else
      var before := DecrementStock(products, items[..|items| - 1]);
      var last := items[|items| - 1];
      if last.product in before then
        before[last.product := before[last.product].(stock := before[last.product].stock - last.quantity)]
      else before
  }

  /** `createOrder`. */
  function CreateOrder(
    shop: Shop, user: UserId, orderId: OrderId,
    shipping: Address, billing: Address, paymentMethod: string, now: int
  ): (r: Result<Shop>)
    requires orderId !in shop.orders
    ensures user !in shop.carts || |shop.carts[user].items| == 0 ==> r == Err(Failure(400, "Cart is empty"))
    ensures r.Ok? <==>
      user in shop.carts && |shop.carts[user].items| > 0 && AllInStock(shop.products, shop.carts[user].items)
    ensures user in shop.carts && |shop.carts[user].items| > 0 && !AllInStock(shop.products, shop.carts[user].items)
            ==> r == Err(StockProblem(shop.products, shop.carts[user].items).value)
    ensures r.Ok? ==> orderId in r.value.orders && r.value.orders == shop.orders[orderId := r.value.orders[orderId]]
    ensures r.Ok? ==> var cart := shop.carts[user]; var o := r.value.orders[orderId];
      && o.user == user && o.items == OrderLines(cart.items)
      && o.subtotal == cart.subtotal && o.tax == cart.tax && o.total == cart.total
      && o.shippingAddress == shipping && o.billingAddress == billing
      && o.orderStatus == InitialStatus && o.paymentStatus == InitialStatus
      && o.id == orderId && o.paymentMethod == paymentMethod && o.createdAt == now && o.transactionId.None?
      && o.updatedAt.None?
    ensures r.Ok? ==> var cart := shop.carts[user];
      && r.value.products.Keys == shop.products.Keys
      && forall p :: p in shop.products ==>
           r.value.products[p] == shop.products[p].(stock := shop.products[p].stock - QuantityFor(cart.items, p))
    ensures r.Ok? ==>
      && user in r.value.carts && r.value.carts == shop.carts[user := r.value.carts[user]]
      && r.value.carts[user].items == []
      && r.value.carts[user].subtotal == 0.0 && r.value.carts[user].tax == 0.0 && r.value.carts[user].total == 0.0
  {
    if user !in shop.carts || |shop.carts[user].items| == 0 then Err(Failure(400, "Cart is empty"))
    else
      var cart := shop.carts[user];
      match StockProblem(shop.products, cart.items)
      case Some(f) => Err(f)
      case None =>
        var order := Order(orderId, user, OrderLines(cart.items), shipping, billing, paymentMethod,
                           cart.subtotal, cart.tax, cart.total, InitialStatus, InitialStatus, None, now, None);
        Ok(Shop(
          DecrementStock(shop.products, cart.items),
          shop.carts[user := cart.(items := [], subtotal := 0.0, tax := 0.0, total := 0.0)],
          shop.orders[orderId := order]))
  }

  /** With distinct-product lines, a line's product is asked for exactly that
      line's quantity, and a product without a line for nothing. */
  lemma {:induction false} QuantityForDistinct(items: seq<CartItem>, p: ProductId)
    requires DistinctLines(items)
    ensures !HasLine(items, p) ==> QuantityFor(items, p) == 0
    ensures forall i :: 0 <= i < |items| && items[i].product == p ==> QuantityFor(items, p) == items[i].quantity
  {
    if |items| > 0 {
      var init := items[..|items| - 1];
      assert DistinctLines(init);
      QuantityForDistinct(init, p);
      if items[|items| - 1].product == p {
        assert !HasLine(init, p);
      } else {
        assert HasLine(init, p) ==> HasLine(items, p);
      }
    }
  }

  /** Because the stock check precedes the decrement, placing an order whose
      lines name distinct products leaves no product with negative stock that
      did not have it before. */
  lemma CreateOrderNeverOversells(
    shop: Shop, user: UserId, orderId: OrderId,
    shipping: Address, billing: Address, paymentMethod: string, now: int)
    requires orderId !in shop.orders
    requires user in shop.carts && DistinctLines(shop.carts[user].items)
    ensures var r := CreateOrder(shop, user, orderId, shipping, billing, paymentMethod, now);
      r.Ok? ==> forall p :: p in shop.products && shop.products[p].stock >= 0 ==> r.value.products[p].stock >= 0
  {
    var items := shop.carts[user].items;
    forall p | p in shop.products
      ensures QuantityFor(items, p) == 0
        || exists i :: 0 <= i < |items| && items[i].product == p && QuantityFor(items, p) == items[i].quantity
    {
      QuantityForDistinct(items, p);
    }
  }

  /** A cart holding two lines for the same product passes the per-line
      check and drives the stock negative. */
  lemma DuplicateLinesCanOversell()
    ensures
      var p := Product("p", "Lamp", 10.0, None, "Home", 3, 0.0, 0, [], false, true, 0);
      var items := [CartItem("p", 2, 10.0), CartItem("p", 2, 10.0)];
      var shop := Shop(map["p" := p], map["u" := Cart("u", items, 40.0, 4.0, 44.0)], map[]);
      var a := Address("s", "c", "st", "z", "co");
      var r := CreateOrder(shop, "u", "o", a, a, "credit_card", 0);
      r.Ok? && r.value.products["p"].stock == -1
  {
    var items := [CartItem("p", 2, 10.0), CartItem("p", 2, 10.0)];
    assert items[..1] == [CartItem("p", 2, 10.0)];
    assert items[..1][..0] == [];
    assert QuantityFor(items, "p") == 4;
  }

  // ---------------------------------------------------------------- status and payment

  /** `updateOrderStatus`: any status string is stored, stamped with the
      update time `now`; there is no transition check. */
  function UpdateOrderStatus(orders: OrderStore, id: OrderId, status: string, now: int): (r: Result<OrderStore>)
    ensures id !in orders ==> r == Err(Failure(404, "Order not found"))
    ensures r.Ok? <==> id in orders
    ensures r.Ok? ==> id in r.value && r.value == orders[id := r.value[id]]
    ensures r.Ok? ==> r.value[id] == orders[id].(orderStatus := status, updatedAt := Some(now))
  {
    if id !in orders then Err(Failure(404, "Order not found"))
    else Ok(orders[id := orders[id].(orderStatus := status, updatedAt := Some(now))])
  }

  /** Nothing stops an order from going back: a delivered order can be set to pending. */
  lemma StatusCanMoveBackwards(orders: OrderStore, id: OrderId, now: int)
    requires id in orders && orders[id].orderStatus == "delivered"
    ensures var r := UpdateOrderStatus(orders, id, "pending", now);
      r.Ok? && r.value[id].orderStatus == "pending"
  {
  }

  /** There is no transition check at all: from whatever status an existing
      order has, every status can be set, and setting it again changes
      nothing but the update time. */
  lemma AnyStatusCanFollowAny(orders: OrderStore, id: OrderId, status: string, now: int, later: int)
    requires id in orders
    ensures var r := UpdateOrderStatus(orders, id, status, now);
      && r.Ok? && r.value[id].orderStatus == status
      && var r2 := UpdateOrderStatus(r.value, id, status, later);
      && r2.Ok? && r2.value == r.value[id := r.value[id].(updatedAt := Some(later))]
  {
  }

  /** `Math.round(total * 100)`: the amount charged, in cents. */
  function ChargeAmount(total: real): (cents: int)
    ensures -0.5 < (cents as real) - total * 100.0 <= 0.5
  {
    (total * 100.0 + 0.5).Floor
  }

  /** What the payment gateway answers for a charge. */
  datatype Charge = Charged(chargeId: string) | Declined(message: string)

  /** `processPayment`: the gateway is asked for the order's total in cents;
      on success the order is marked paid with the charge id, on failure the
      order is left as it was and the gateway's message comes back with 500. */
  function ProcessPayment(orders: OrderStore, id: OrderId, gateway: int -> Charge): (r: Result<OrderStore>)
    ensures id !in orders ==> r == Err(Failure(404, "Order not found"))
    ensures id in orders && gateway(ChargeAmount(orders[id].total)).Declined? ==>
      r == Err(Failure(500, gateway(ChargeAmount(orders[id].total)).message))
    ensures r.Ok? <==> id in orders && gateway(ChargeAmount(orders[id].total)).Charged?
    ensures r.Ok? ==> id in r.value && r.value == orders[id := r.value[id]]
    ensures r.Ok? ==> r.value[id] == orders[id].(
      paymentStatus := "completed",
      transactionId := Some(gateway(ChargeAmount(orders[id].total)).chargeId))
  {
    if id !in orders then Err(Failure(404, "Order not found"))
    else
      match gateway(ChargeAmount(orders[id].total))
      case Declined(m) => Err(Failure(500, m))
      case Charged(c) =>
        Ok(orders[id := orders[id].(paymentStatus := "completed", transactionId := Some(c))])
  }

  // ---------------------------------------------------------------- admin list

  /** The orders a status filter admits; an absent or empty status admits all. */
  function WithStatus(orders: seq<Order>, status: Option<string>): (r: seq<Order>)
    ensures |r| <= |orders|
    ensures forall o :: o in r <==> o in orders && (status.None? || |status.value| == 0 || o.orderStatus == status.value)
  {
    if |orders| == 0 then []
    else
      var keep := status.None? || |status.value| == 0 || orders[0].orderStatus == status.value;
      var rest := WithStatus(orders[1..], status);
      assert forall o :: o in orders <==> o == orders[0] || o in orders[1..];
      if keep then [orders[0]] + rest else rest
  }

  /** The filter distributes over concatenation, so the admitted orders keep
      their order, each counted once per occurrence. */
  lemma {:induction false} WithStatusAppend(a: seq<Order>, b: seq<Order>, status: Option<string>)
    ensures WithStatus(a + b, status) == WithStatus(a, status) + WithStatus(b, status)
  {
    if |a| == 0 {
      assert a + b == b;
    } else {
      assert (a + b)[0] == a[0];
      assert (a + b)[1..] == a[1..] + b;
      WithStatusAppend(a[1..], b, status);
    }
  }

  /** A single order is kept exactly when the filter admits it. */
  lemma WithStatusOne(o: Order, status: Option<string>)
    ensures WithStatus([o], status) ==
      if status.None? || |status.value| == 0 || o.orderStatus == status.value then [o] else []
  {
    assert [o][1..] == [];
  }

  datatype OrderPage = OrderPage(orders: seq<Order>, total: nat, page: int, limit: int, pages: nat)

  /** `getAllOrders`, given every order newest first: the status filter,
      `skip = (page - 1) * limit`, and `pages = ceil(total / limit)`. A page
      below 1 makes the skip negative; the database refuses the query with
      the message `refusal`, and the catch answers 500. */
  function GetAllOrders(orders: seq<Order>, page: int, limit: int, status: Option<string>, refusal: string)
    : (r: Result<OrderPage>)
    requires limit > 0
    ensures r.Err? <==> page < 1
    ensures r.Err? ==> r.failure == Failure(500, refusal)
    ensures r.Ok? ==> r.value.total == |WithStatus(orders, status)|
    ensures r.Ok? ==> r.value.pages == Responses.PageCount(r.value.total, limit)
    ensures r.Ok? ==> r.value.page == page && r.value.limit == limit
    ensures r.Ok? ==> |r.value.orders| <= limit
    ensures r.Ok? ==> forall o :: o in r.value.orders ==>
      o in orders && (status.None? || |status.value| == 0 || o.orderStatus == status.value)
    ensures r.Ok? ==> forall k :: 0 <= k < |r.value.orders| ==>
      0 <= Responses.Skip(page, limit) + k < r.value.total
      && r.value.orders[k] == WithStatus(orders, status)[Responses.Skip(page, limit) + k]
    ensures r.Ok? && Responses.Skip(page, limit) < r.value.total ==>
      |r.value.orders| == (if r.value.total - Responses.Skip(page, limit) < limit
                           then r.value.total - Responses.Skip(page, limit) else limit)
  {
    var matching := WithStatus(orders, status);
    match Responses.PageOf(matching, page, limit)
    case None => Err(Failure(500, refusal))
    case Some(shown) =>
      assert forall o :: o in shown ==> o in matching;
      Ok(OrderPage(shown, |matching|, page, limit, Responses.PageCount(|matching|, limit)))
  }
}

=== FILE: request_validation.dfy ===
/** `validateRequest`: checks a request body against a schema of per-field
    rules and reports, for every field that breaks one, the first rule it
    breaks, in the fixed order required, type, validator, minLength,
    maxLength, min, max, enum. */
module RequestValidation {
  import opened Common
  import V = Validators

  /** A JSON value as it arrives in a request body. */
  datatype Value = Undefined | Null | Bool(b: bool) | Num(n: real) | Str(s: string)

  /** JavaScript truthiness (`NaN` is not modelled). */
  predicate Truthy(v: Value) {
    match v
    case Undefined => false
    case Null => false
    case Bool(b) => b
    case Num(n) => n != 0.0
    case Str(s) => |s| > 0
  }

  /** `typeof v`. */
  function TypeOf(v: Value): string {
    match v
    case Undefined => "undefined"
    case Null => "object"
    case Bool(_) => "boolean"
    case Num(_) => "number"
    case Str(_) => "string"
  }

  /** A string made only of whitespace: `!value.trim()`. */
  predicate IsBlank(s: string) {
    forall i :: 0 <= i < |s| ==> V.IsSpace(s[i])
  }

  // ---------------------------------------------------------------- text of a value

  /** The character of a decimal digit. */
  function DigitChar(d: int): (c: char)
    requires 0 <= d <= 9
    ensures V.IsDigit(c) && V.DigitValue(c) == d
  {
    (48 + d) as char
  }

  /** `String(k)` for a whole number `k >= 0`: its decimal digits, without leading zeros. */
  function Decimal(k: nat): (s: string)
    ensures |s| > 0 && V.AllDigits(s)
    decreases k
  {
    if k < 10 then [DigitChar(k)] else Decimal(k / 10) + [DigitChar(k % 10)]
  }

  /** The number a string of decimal digits denotes. */
  function DigitsValue(s: string): nat
    requires V.AllDigits(s)
  {
    if |s| == 0 then 0
    else DigitsValue(s[..|s| - 1]) * 10 + V.DigitValue(s[|s| - 1])
  }

  /** Reading the written digits back gives the number. */
  lemma {:induction false} DecimalRoundTrip(k: nat)
    ensures DigitsValue(Decimal(k)) == k
    decreases k
  {
    if k >= 10 {
      DecimalRoundTrip(k / 10);
      var s := Decimal(k);
      assert s[..|s| - 1] == Decimal(k / 10);
    }
  }

  function Pow10(e: nat): (p: nat)
    ensures p >= 1
  {
    if e == 0 then 1 else 10 * Pow10(e - 1)
  }

  lemma {:induction false} Pow10Monotone(a: nat, b: nat)
    requires a <= b
    ensures Pow10(a) <= Pow10(b)
    decreases b
  {
    if a < b {
      Pow10Monotone(a, b - 1);
    }
  }

  /** A number written with `L` digits lies in `[10^(L-1), 10^L)` (0 excepted). */
  lemma {:induction false} DecimalLength(k: nat)
    ensures k < Pow10(|Decimal(k)|)
    ensures |Decimal(k)| > 1 ==> Pow10(|Decimal(k)| - 1) <= k
    decreases k
  {
    if k >= 10 {
      DecimalLength(k / 10);
    }
  }

  /** Whole numbers below this magnitude are written in plain digits. */
  const PlainLimit: real := 1000000000000000000000.0

  predicate IsWhole(n: real) {
    n.Floor as real == n
  }

  /** `a * 10^e`, as `e` multiplications by ten. */
  function Scaled(a: real, e: nat): real
    decreases e
  {
    if e == 0 then a else Scaled(a * 10.0, e - 1)
  }

  /** `x * 10^-e`, as `e` divisions by ten. */
  function Unscaled(x: real, e: nat): real
    decreases e
  {
    if e == 0 then x else Unscaled(x, e - 1) / 10.0
  }

  /** Dividing by ten `e` times undoes multiplying by ten `e` times. */
  lemma {:induction false} UnscaledScaled(a: real, e: nat)
    ensures Unscaled(Scaled(a, e), e) == a
    decreases e
  {
    if e > 0 {
      UnscaledScaled(a * 10.0, e - 1);
      UnscaledDividesLast(Scaled(a * 10.0, e - 1), e - 1);
    }
  }

  lemma {:induction false} UnscaledDividesLast(x: real, e: nat)
    ensures Unscaled(x, e + 1) == Unscaled(x, e) / 10.0
  {
  }

  /** Scaling by `j + n` is scaling by `j`, then by `n`. */
  lemma {:induction false} ScaledSplit(a: real, j: nat, n: nat)
    ensures Scaled(a, j + n) == Scaled(Scaled(a, j), n)
    decreases j
  {
    if j > 0 {
      ScaledSplit(a * 10.0, j - 1, n);
    }
  }

  lemma ScaledSeven(a: real)
    ensures Scaled(a, 7) == a * 10000000.0
  {
    assert Scaled(a * 1000000.0, 1) == a * 10000000.0;
    assert Scaled(a * 10000.0, 3) == Scaled(a * 1000000.0, 1);
    assert Scaled(a * 100.0, 5) == Scaled(a * 10000.0, 3);
    assert Scaled(a, 7) == Scaled(a * 100.0, 5);
  }

  /** Given `m = |n| * 10^k` with `0 < m < 10`: the digit `d` and exponent
      `e >= k` with `|n| * 10^e = d`, when there are such; the search stops
      at 324, the exponent of the smallest positive double. */
  function SmallExponent(m: real, k: nat): (r: Option<(int, nat)>)
    ensures r.Some? ==> 1 <= r.value.0 <= 9 && r.value.1 >= k
    ensures r.Some? ==> Scaled(m, r.value.1 - k) == r.value.0 as real
    decreases 325 - k
  {
    if k > 324 || m >= 10.0 || m <= 0.0 then None
    else if IsWhole(m) && m >= 1.0 then Some((m.Floor, k))
    else SmallExponent(m * 10.0, k + 1)
  }

  /** `String(n)` where the model spells it out: a whole number below 10^21
      in magnitude in plain digits, and a number below 10^-6 in magnitude with
      one significant digit as that digit, `e-` and the exponent. JavaScript
      writes every other number with a decimal point or with `e+`, and never
      with `@`; the model leaves that text unspelt (`None`). */
  function NumberText(n: real): (r: Option<string>)
    ensures n >= 0.0 ==> r == MagnitudeText(n)
    ensures n < 0.0 ==> r.Some? == MagnitudeText(-n).Some?
    ensures n < 0.0 && r.Some? ==> r.value == "-" + MagnitudeText(-n).value
  {
    if n < 0.0 then
      match MagnitudeText(-n)
      case Some(t) => Some("-" + t)
      case None => None
    else MagnitudeText(n)
  }

  /** The text of a number `a >= 0`, without sign. */
  function MagnitudeText(a: real): (r: Option<string>)
    requires a >= 0.0
    ensures IsWhole(a) && a < PlainLimit ==> r == Some(Decimal(a.Floor))
    ensures r.Some? && !(IsWhole(a) && a < PlainLimit) ==>
      0.0 < a < 0.000001 && SmallExponent(a * 10000000.0, 7).Some?
      && var d := SmallExponent(a * 10000000.0, 7).value;
         && r.value == EForm(d.0, d.1)
         && Scaled(a, d.1) == d.0 as real
  {
    if IsWhole(a) && a < PlainLimit then Some(Decimal(a.Floor))
    else if 0.0 < a < 0.000001 then
      var s := SmallExponent(a * 10000000.0, 7);
      if s.Some? then
        ExponentFormValue(a);
        Some(EForm(s.value.0, s.value.1))
      else None
    else None
  }

  /** The exponent form `String` gives a small number: digit, `e-`, exponent. */
  function EForm(d: int, e: nat): (t: string)
    requires 1 <= d <= 9
    ensures |t| >= 4 && t[0] == DigitChar(d) && t[1..3] == "e-" && t[3..] == Decimal(e)
  {
    [DigitChar(d)] + "e-" + Decimal(e)
  }

  /** Reading a number's text back: optional `-`, then plain digits or one
      digit, `e-` and the exponent's digits. */
  function ReadMagnitude(t: string): Option<real> {
    if |t| > 0 && V.AllDigits(t) then Some(DigitsValue(t) as real)
    else if |t| >= 4 && V.IsDigit(t[0]) && t[1..3] == "e-" && V.AllDigits(t[3..]) then
      Some(Unscaled(V.DigitValue(t[0]) as real, DigitsValue(t[3..])))
    else None
  }

  function ReadNumber(t: string): Option<real> {
    if |t| > 0 && t[0] == '-' then
      match ReadMagnitude(t[1..])
      case Some(a) => Some(-a)
      case None => None
    else ReadMagnitude(t)
  }

  /** The digit and exponent of the exponent form denote the number:
      `a * 10^e = d`. */
  lemma ExponentFormValue(a: real)
    requires 0.0 < a < 0.000001 && SmallExponent(a * 10000000.0, 7).Some?
    ensures var d := SmallExponent(a * 10000000.0, 7).value;
      Scaled(a, d.1) == d.0 as real
  {
    var d := SmallExponent(a * 10000000.0, 7).value;
    ScaledSeven(a);
    ScaledSplit(a, 7, d.1 - 7);
  }

  /** An exponent form reads back as the number it denotes. */
  lemma EFormReadsBack(a: real, d: int, e: nat)
    requires 1 <= d <= 9 && Scaled(a, e) == d as real
    ensures ReadMagnitude(EForm(d, e)) == Some(a)
  {
    var t := EForm(d, e);
    assert t[1] == "e-"[0] && !V.AllDigits(t);
    DecimalRoundTrip(e);
    UnscaledScaled(a, e);
  }

  /** The text of a magnitude reads back as that magnitude. */
  lemma MagnitudeTextReadsBack(a: real)
    requires a >= 0.0
    ensures MagnitudeText(a).Some? ==> ReadMagnitude(MagnitudeText(a).value) == Some(a)
  {
    if MagnitudeText(a).Some? {
      if IsWhole(a) && a < PlainLimit {
        DecimalRoundTrip(a.Floor);
      } else {
        ExponentFormValue(a);
        var d := SmallExponent(a * 10000000.0, 7).value;
        EFormReadsBack(a, d.0, d.1);
      }
    }
  }

  /** The text of a magnitude starts with a digit, never with `-`. */
  lemma MagnitudeTextStartsWithDigit(a: real)
    requires a >= 0.0
    ensures MagnitudeText(a).Some? ==> |MagnitudeText(a).value| > 0 && V.IsDigit(MagnitudeText(a).value[0])
  {
  }

  /** A leading `-` negates what the rest reads as. */
  lemma MinusReadsBack(m: string, a: real)
    requires ReadMagnitude(m) == Some(a)
    ensures ReadNumber("-" + m) == Some(-a)
  {
    assert ("-" + m)[1..] == m;
  }

  /** Text that starts with a digit reads as its magnitude. */
  lemma DigitFirstReadsBack(m: string, a: real)
    requires |m| > 0 && V.IsDigit(m[0]) && ReadMagnitude(m) == Some(a)
    ensures ReadNumber(m) == Some(a)
  {
  }

  /** Every number the model spells out reads back as itself. */
  lemma NumberTextReadsBack(n: real)
    ensures NumberText(n).Some? ==> ReadNumber(NumberText(n).value) == Some(n)
  {
    if NumberText(n).Some? {
      if n < 0.0 {
        MagnitudeTextReadsBack(-n);
        MinusReadsBack(MagnitudeText(-n).value, -n);
      } else {
        MagnitudeTextReadsBack(n);
        MagnitudeTextStartsWithDigit(n);
        DigitFirstReadsBack(MagnitudeText(n).value, n);
      }
    }
  }

  /** The string a regular expression's `test` sees for a value, where the
      model spells it out. */
  function Text(v: Value): (t: Option<string>)
    ensures v.Str? ==> t == Some(v.s)
  {
    match v
    case Undefined => Some("undefined")
    case Null => Some("null")
    case Bool(b) => Some(if b then "true" else "false")
    case Num(n) => NumberText(n)
    case Str(s) => Some(s)
  }

  // ---------------------------------------------------------------- validators

  /** The named validators a schema can refer to. */
  datatype ValidatorName =
    | EmailFormat | PhoneFormat | CreditCardFormat | CvvFormat | SlugFormat
    | StringLengthFormat | EnumFormat

  /** The string a validator accepts. `stringLength` runs with its defaults
      1 and 255; `enum` accepts nothing, as it never returns when called with
      the value alone. */
  predicate Accepts(name: ValidatorName, s: string) {
    match name
    case EmailFormat => V.Email(s)
    case PhoneFormat => V.Phone(s)
    case CreditCardFormat => V.IsValidCardNumber(s)
    case CvvFormat => V.Cvv(s)
    case SlugFormat => V.Slug(s)
    case StringLengthFormat => V.StringLength(s, 1, 255)
    case EnumFormat => false
  }

  /** What calling a validator does: answer true, answer false, or throw. */
  datatype Outcome = Passes | Rejects | Throws

  /** Runs a named validator with the value as its only argument. The
      pattern validators test the value's text. `phone` calls `.replace` on
      the value once its pattern matched, and `creditCard` at once: on a value
      that is not a string both throw. `stringLength` reads `.length`, which
      only a string has here, so every other value fails its comparisons.
      `enum` calls `.includes` on its missing second argument and always
      throws. */
  function RunValidator(name: ValidatorName, v: Value): (o: Outcome)
    ensures v.Str? && name != EnumFormat ==> (o == Passes <==> Accepts(name, v.s)) && o != Throws
    ensures o == Throws <==>
      || name == EnumFormat
      || (&& !v.Str?
          && (name == CreditCardFormat || (name == PhoneFormat && Text(v).Some? && V.PhonePattern(Text(v).value))))
    ensures name == StringLengthFormat && !v.Str? ==> o == Rejects
    ensures !v.Str? && (name == EmailFormat || name == CvvFormat || name == SlugFormat) ==>
      (o == Passes <==> Text(v).Some? && Accepts(name, Text(v).value))
    ensures name == PhoneFormat && (Text(v).None? || !V.PhonePattern(Text(v).value)) ==> o == Rejects
    ensures name == PhoneFormat && !v.Str? ==> o != Passes
  {
    var t := Text(v);
    match name
    case EnumFormat => Throws
    case StringLengthFormat =>
      if v.Str? && V.StringLength(v.s, 1, 255) then Passes else Rejects
    case CreditCardFormat =>
      if !v.Str? then Throws else if V.IsValidCardNumber(v.s) then Passes else Rejects
    case PhoneFormat =>
      if t.None? || !V.PhonePattern(t.value) then Rejects
      else if !v.Str? then Throws
      else if |V.DigitsOf(v.s)| >= 10 then Passes else Rejects
    case _ =>
      if t.Some? && Accepts(name, t.value) then Passes else Rejects
  }

  /** A number passes `cvv` exactly when it is a whole number from 100 to 9999. */
  lemma CvvOfNumber(n: real)
    ensures RunValidator(CvvFormat, Num(n)) == Passes <==> IsWhole(n) && 100.0 <= n <= 9999.0
  {
    if n >= 0.0 && IsWhole(n) && n < PlainLimit {
      DecimalCvv(n.Floor);
    } else if n >= 0.0 {
      var m := MagnitudeText(n);
      assert Text(Num(n)) == m;
      if m.Some? {
        assert m.value[1] == 'e';
        assert !Accepts(CvvFormat, m.value);
      }
    } else {
      var t := NumberText(n);
      if t.Some? {
        assert t.value[0] == '-';
        assert !Accepts(CvvFormat, t.value);
      }
    }
  }

  /** The written digits of `k` are a CVV exactly when `k` is from 100 to 9999. */
  lemma DecimalCvv(k: nat)
    ensures V.Cvv(Decimal(k)) <==> 100 <= k <= 9999
  {
    DecimalLength(k);
    var L := |Decimal(k)|;
    if 100 <= k <= 9999 {
      if L >= 5 {
        Pow10Monotone(4, L - 1);
      }
    }
  }

  /** The negation of a whole number is whole. */
  lemma WholeNegated(n: real)
    requires IsWhole(n)
    ensures IsWhole(-n) && (-n).Floor == -n.Floor
  {
  }

  /** The text of a non-zero whole number below 10^21 in magnitude: its
      digits, after `-` when it is negative. */
  lemma WholeNumberText(n: real)
    requires IsWhole(n) && n != 0.0 && -PlainLimit < n < PlainLimit
    ensures n > 0.0 ==> NumberText(n) == Some(Decimal(n.Floor))
    ensures n < 0.0 ==> NumberText(n) == Some("-" + Decimal((-n).Floor))
  {
    if n < 0.0 {
      WholeNegated(n);
    }
  }

  /** A positive whole number below 10^21 passes `slug`, a negative one does not. */
  lemma SlugOfNumber(n: real)
    requires IsWhole(n) && n != 0.0 && -PlainLimit < n < PlainLimit
    ensures RunValidator(SlugFormat, Num(n)) == Passes <==> n > 0.0
  {
    WholeNumberText(n);
    if n > 0.0 {
      DigitsAreSlug(Decimal(n.Floor));
    } else {
      var t := NumberText(n).value;
      assert t[0] == '-';
    }
  }

  lemma DigitsAreSlug(d: string)
    requires |d| > 0 && V.AllDigits(d)
    ensures V.Slug(d)
  {
  }

  /** `true` is a slug, and so is a tiny number JavaScript writes as `1e-7`. */
  lemma SlugOfOtherValues()
    ensures RunValidator(SlugFormat, Bool(true)) == Passes
    ensures RunValidator(SlugFormat, Num(0.0000001)) == Passes
  {
    var a := 0.0000001;
    assert a * 10000000.0 == 1.0;
    assert a.Floor == 0;
    assert !IsWhole(a);
    assert SmallExponent(1.0, 7) == Some((1, 7));
    assert Decimal(7) == "7";
    var t := "1e-7";
    assert EForm(1, 7) == t;
    assert MagnitudeText(a) == Some(t);
    assert V.Slug(t);
  }

  /** A non-zero whole number below 10^21 in magnitude matches the phone
      pattern, so `phone` goes on to call `.replace` on it and throws. */
  lemma PhoneOfNumberThrows(n: real)
    requires IsWhole(n) && n != 0.0 && -PlainLimit < n < PlainLimit
    ensures RunValidator(PhoneFormat, Num(n)) == Throws
  {
    WholeNumberText(n);
    var t := NumberText(n).value;
    assert V.PhonePattern(t);
  }


  /** The value `<` and `>` compare with a numeric bound: numbers as they
      are, `true` as 1. A string's numeric conversion is not modelled. */
  function NumberOf(v: Value): Option<real> {
    match v
    case Num(n) => Some(n)
    case Bool(b) => Some(if b then 1.0 else 0.0)
    case _ => None
  }

  /** One field's rules. Rules that are absent or falsy in the source are
      `None`, an empty type name, or a length bound of 0: all are skipped. */
  datatype Rules = Rules(
    required: bool,
    typeName: Option<string>,
    validator: Option<ValidatorName>,
    minLength: int,
    maxLength: int,
    min: Option<real>,
    max: Option<real>,
    allowed: Option<seq<Value>>)

  /** The eight checks, in the order the source applies them. */
  datatype Check = Required | Type | Validator | MinLength | MaxLength | Min | Max | Enum

  function Rank(c: Check): nat {
    match c
    case Required => 0
    case Type => 1
    case Validator => 2
    case MinLength => 3
    case MaxLength => 4
    case Min => 5
    case Max => 6
    case Enum => 7
  }

  /** Whether check `c` on its own rejects `v`. Every check after `Required`
      applies only to a truthy value (`if (!value) continue`). */
  predicate Fails(c: Check, r: Rules, v: Value) {
    match c
    case Required => r.required && (!Truthy(v) || (v.Str? && IsBlank(v.s)))
    case Type => Truthy(v) && r.typeName.Some? && |r.typeName.value| > 0 && TypeOf(v) != r.typeName.value
    case Validator => Truthy(v) && r.validator.Some? && RunValidator(r.validator.value, v) == Rejects
    case MinLength => Truthy(v) && r.minLength != 0 && v.Str? && V.Utf16Length(v.s) < r.minLength
    case MaxLength => Truthy(v) && r.maxLength != 0 && v.Str? && V.Utf16Length(v.s) > r.maxLength
    case Min => Truthy(v) && r.min.Some? && NumberOf(v).Some? && NumberOf(v).value < r.min.value
    case Max => Truthy(v) && r.max.Some? && NumberOf(v).Some? && NumberOf(v).value > r.max.value
    case Enum => Truthy(v) && r.allowed.Some? && v !in r.allowed.value
  }

  /** The one error recorded for a field: the first check, in source order,
      that rejects its value; none when every check passes. (A validator
      that throws rejects nothing here: the whole call throws instead.) */
  function FieldError(r: Rules, v: Value): (e: Option<Check>)
    ensures e.None? <==> forall c :: !Fails(c, r, v)
    ensures e.Some? ==> Fails(e.value, r, v)
    ensures e.Some? ==> forall c :: Rank(c) < Rank(e.value) ==> !Fails(c, r, v)
  {
    if Fails(Required, r, v) then Some(Required)
    else if !Truthy(v) then None
    else if Fails(Type, r, v) then Some(Type)
    else if Fails(Validator, r, v) then Some(Validator)
    else if Fails(MinLength, r, v) then Some(MinLength)
    else if Fails(MaxLength, r, v) then Some(MaxLength)
    else if Fails(Min, r, v) then Some(Min)
    else if Fails(Max, r, v) then Some(Max)
    else if Fails(Enum, r, v) then Some(Enum)
    else None
  }

  /** The field's checks reach its validator, and the validator throws. */
  predicate ValidatorThrows(r: Rules, v: Value) {
    && !Fails(Required, r, v) && Truthy(v) && !Fails(Type, r, v)
    && r.validator.Some? && RunValidator(r.validator.value, v) == Throws
  }

  /** `req.body[field]`. */
  function ValueOf(body: map<string, Value>, field: string): Value {
    if field in body then body[field] else Undefined
  }

  /** What `validateRequest` does: return `null`, return the errors, or throw
      a `TypeError` out of a validator. */
  datatype Verdict = Valid | Invalid(errors: map<string, Check>) | Threw

  /** `validateRequest(req, schema)`: it throws when the checks of some field
      reach a validator that throws; otherwise `null` when no field breaks a
      rule, and else each failing field mapped to its first failing check. */
  function ValidateRequest(schema: map<string, Rules>, body: map<string, Value>): (r: Verdict)
    ensures r.Threw? <==> exists f :: f in schema && ValidatorThrows(schema[f], ValueOf(body, f))
    ensures r.Valid? <==>
      && (forall f :: f in schema ==> !ValidatorThrows(schema[f], ValueOf(body, f)))
      && (forall f, c :: f in schema ==> !Fails(c, schema[f], ValueOf(body, f)))
    ensures r.Invalid? ==> forall f :: f in r.errors <==> f in schema && exists c :: Fails(c, schema[f], ValueOf(body, f))
    ensures r.Invalid? ==> forall f :: f in r.errors ==>
      && Fails(r.errors[f], schema[f], ValueOf(body, f))
      && forall c :: Rank(c) < Rank(r.errors[f]) ==> !Fails(c, schema[f], ValueOf(body, f))
  {
    if exists f :: f in schema && ValidatorThrows(schema[f], ValueOf(body, f)) then Threw
    else
      var errors := map f | f in schema && FieldError(schema[f], ValueOf(body, f)).Some?
                          :: FieldError(schema[f], ValueOf(body, f)).value;
      if errors == map[] then
        assert forall f :: f in schema ==> FieldError(schema[f], ValueOf(body, f)).None? by {
          forall f | f in schema ensures FieldError(schema[f], ValueOf(body, f)).None? {
            assert f !in errors;
          }
        }
        Valid
      else Invalid(errors)
  }

  /** A field that is not required and is absent (or otherwise falsy) never
      produces an error. */
  lemma AbsentOptionalFieldIgnored(schema: map<string, Rules>, body: map<string, Value>, f: string)
    requires f in schema && !schema[f].required && !Truthy(ValueOf(body, f))
    ensures var r := ValidateRequest(schema, body); r.Invalid? ==> f !in r.errors
  {
  }

  /** A required field that is missing, or a string of only whitespace, is
      reported as `Required`, whatever its other rules say, unless another
      field's validator throws first. */
  lemma MissingRequiredFieldReported(schema: map<string, Rules>, body: map<string, Value>, f: string)
    requires f in schema && schema[f].required
    requires !Truthy(ValueOf(body, f)) || (ValueOf(body, f).Str? && IsBlank(ValueOf(body, f).s))
    ensures var r := ValidateRequest(schema, body); !r.Threw? ==> r.Invalid? && f in r.errors && r.errors[f] == Required
  {
    assert Fails(Required, schema[f], ValueOf(body, f));
  }

  /** A schema that names `enum` as a field's validator makes the call
      throw whenever that field holds a value that passes the required and
      type checks and is truthy. */
  lemma EnumValidatorThrows(schema: map<string, Rules>, body: map<string, Value>, f: string)
    requires f in schema && schema[f].validator == Some(EnumFormat)
    requires Truthy(ValueOf(body, f))
    requires !Fails(Required, schema[f], ValueOf(body, f)) && !Fails(Type, schema[f], ValueOf(body, f))
    ensures ValidateRequest(schema, body) == Threw
  {
    assert ValidatorThrows(schema[f], ValueOf(body, f));
  }

  /** A card number that is not a string makes the whole call throw, once
      no type rule stops it first. */
  lemma NonStringCardNumberThrows(schema: map<string, Rules>, body: map<string, Value>, f: string)
    requires f in schema && schema[f].validator == Some(CreditCardFormat) && schema[f].typeName.None?
    requires Truthy(ValueOf(body, f)) && !ValueOf(body, f).Str?
    ensures ValidateRequest(schema, body) == Threw
  {
    assert ValidatorThrows(schema[f], ValueOf(body, f));
  }
}

=== FILE: responses.dfy ===
/** The standard response envelope: the status code and `success` flag each
    helper produces, and the pagination arithmetic shared by the list
    endpoints. Timestamps and the `data` payload are not modelled. */
module Responses {
  import opened Common

  datatype Pagination = Pagination(
    total: nat,
    pages: nat,
    currentPage: int,
    perPage: int,
    hasNextPage: bool,
    hasPrevPage: bool)

  datatype Response = Response(
    status: int,
    success: bool,
    message: string,
    pagination: Option<Pagination>)

  function Success(message: string, status: int): (r: Response)
    ensures r.success && r.status == status && r.message == message
  {
    Response(status, true, message, None)
  }

  /** `success` called with its defaults. */
  function DefaultSuccess(): (r: Response)
    ensures r.success && r.status == 200 && r.message == "Success"
  {
    Success("Success", 200)
  }

  function Error(message: string, status: int): (r: Response)
    ensures !r.success && r.status == status && r.message == message
  {
    Response(status, false, message, None)
  }

  /** `error` called with its defaults. */
  function DefaultError(): (r: Response)
    ensures !r.success && r.status == 500 && r.message == "Error"
  {
    Error("Error", 500)
  }

  /** The named helpers: each answers with its own status and the message
      it is given, or its own default message when called without one. The
      three success helpers share `success`'s envelope and the six error
      helpers `error`'s. */
  function Created(message: string := "Resource created successfully"): (r: Response)
    ensures r.success && r.status == 201 && r.message == message
  {
    Success(message, 201)
  }

  function Updated(message: string := "Resource updated successfully"): (r: Response)
    ensures r.success && r.status == 200 && r.message == message
  {
    Success(message, 200)
  }

  function Deleted(message: string := "Resource deleted successfully"): (r: Response)
    ensures r.success && r.status == 200 && r.message == message
  {
    Success(message, 200)
  }

  function BadRequest(message: string := "Bad Request"): (r: Response)
    ensures !r.success && r.status == 400 && r.message == message
  {
    Error(message, 400)
  }

  function Unauthorized(message: string := "Unauthorized"): (r: Response)
    ensures !r.success && r.status == 401 && r.message == message
  {
    Error(message, 401)
  }

  function Forbidden(message: string := "Forbidden"): (r: Response)
    ensures !r.success && r.status == 403 && r.message == message
  {
    Error(message, 403)
  }

  function NotFound(message: string := "Resource not found"): (r: Response)
    ensures !r.success && r.status == 404 && r.message == message
  {
    Error(message, 404)
  }

  function Conflict(message: string := "Conflict"): (r: Response)
    ensures !r.success && r.status == 409 && r.message == message
  {
    Error(message, 409)
  }

  function ServerError(message: string := "Internal Server Error"): (r: Response)
    ensures !r.success && r.status == 500 && r.message == message
  {
    Error(message, 500)
  }

  /** The default messages of the named helpers. */
  lemma HelperDefaults()
    ensures Created().message == "Resource created successfully" && Created().status == 201
    ensures Updated().message == "Resource updated successfully" && Updated().status == 200
    ensures Deleted().message == "Resource deleted successfully" && Deleted().status == 200
    ensures BadRequest().message == "Bad Request" && Unauthorized().message == "Unauthorized"
    ensures Forbidden().message == "Forbidden" && NotFound().message == "Resource not found"
    ensures Conflict().message == "Conflict" && ServerError().message == "Internal Server Error"
  {
  }

  /** The client-error helpers answer with a 4xx status and the server-error
      helper with a 5xx one; all of them report `success: false`. */
  lemma ErrorHelpersClassify(message: string)
    ensures forall r :: r in [BadRequest(message), Unauthorized(message), Forbidden(message),
                              NotFound(message), Conflict(message)]
                    ==> !r.success && 400 <= r.status < 500
    ensures !ServerError(message).success && 500 <= ServerError(message).status < 600
  {
  }

  /** `Math.ceil(total / limit)` for a positive page size. */
  function PageCount(total: nat, limit: int): (pages: nat)
    requires limit > 0
    ensures pages * limit >= total
    ensures pages > 0 ==> (pages - 1) * limit < total
    ensures total == 0 <==> pages == 0
  {
    var q := total / limit;
    if total % limit == 0 then q else q + 1
  }

  /** How many records the query skips: `(page - 1) * limit`. */
  function Skip(page: int, limit: int): int {
    (page - 1) * limit
  }

  function Paginated(message: string, total: nat, page: int, limit: int): (r: Response)
    requires limit > 0
    ensures r.success && r.status == 200 && r.pagination.Some?
    ensures var p := r.pagination.value;
      && p.pages == PageCount(total, limit)
      && p.total == total && p.currentPage == page && p.perPage == limit
      && (p.hasNextPage <==> page < p.pages)
      && (p.hasPrevPage <==> page > 1)
  {
    var pages := PageCount(total, limit);
    Response(200, true, message,
      Some(Pagination(total, pages, page, limit, page < pages, page > 1)))
  }

  /** The records one page shows, given every matching record in query
      order: the `.skip(...).limit(...)` of the list endpoints. The database
      refuses a negative skip, which a page below 1 gives: `None`. */
  function PageOf<T>(xs: seq<T>, page: int, limit: int): (r: Option<seq<T>>)
    requires limit > 0
    ensures r.None? <==> Skip(page, limit) < 0
    ensures r.None? <==> page < 1
    ensures r.Some? ==> |r.value| <= limit
    ensures r.Some? ==> forall k :: 0 <= k < |r.value| ==>
      0 <= Skip(page, limit) + k < |xs| && r.value[k] == xs[Skip(page, limit) + k]
    ensures r.Some? && Skip(page, limit) < |xs| ==>
      |r.value| == (if |xs| - Skip(page, limit) < limit then |xs| - Skip(page, limit) else limit)
    ensures r.Some? && Skip(page, limit) >= |xs| ==> r.value == []
  {
    var s := Skip(page, limit);
    if s < 0 then
      None
    else
      var start := if s > |xs| then |xs| else s;
      var end := if start + limit > |xs| then |xs| else start + limit;
      Some(xs[start..end])
  }

  /** Every record of a result set of `total` records is shown on exactly the
      page `i / limit + 1`, which lies between 1 and the page count. */
  lemma {:induction false} EveryRecordHasAPage(total: nat, limit: int, i: nat)
    requires limit > 0 && i < total
    ensures var p := i / limit + 1;
      && 1 <= p <= PageCount(total, limit)
      && Skip(p, limit) <= i < Skip(p, limit) + limit
  {
    var q := i / limit;
    var pages := PageCount(total, limit);
    assert q * limit <= i < q * limit + limit;
    assert q * limit < pages * limit;
    CancelPositiveFactor(q, pages, limit);
    assert Skip(q + 1, limit) == q * limit;
  }

  lemma CancelPositiveFactor(a: int, b: int, c: int)
    requires c > 0 && a * c < b * c
    ensures a < b
  {
    assert (b - a) * c == b * c - a * c;
  }
}

=== FILE: reviews.dfy ===
/** Stand-alone reviews (one per user and product) and the product rating
    they drive: every create, update and delete recomputes the product's
    rating as the plain mean of its reviews' ratings. */
module Reviews {
  import opened Common
  import Catalog

  datatype Review = Review(
    id: ReviewId,
    product: ProductId,
    user: UserId,
    rating: real,
    title: string,
    comment: string,
    /** Set on every review a signed-in user writes. */
    verified: bool,
    helpful: int,
    unhelpful: int,
    /** The time of the author's last edit; none until one happens. */
    updatedAt: Option<int>)

  /** The products and the review collection, in collection order. */
  datatype ReviewState = ReviewState(products: Catalog.ProductStore, reviews: seq<Review>)

  /** The ratings of product `p`'s reviews, in collection order. */
  function RatingsFor(rs: seq<Review>, p: ProductId): (xs: seq<real>)
    ensures |xs| <= |rs|
  {
    if |rs| == 0 then []
    else RatingsFor(rs[..|rs| - 1], p) + (if rs[|rs| - 1].product == p then [rs[|rs| - 1].rating] else [])
  }

  /** What a product's rating fields should be given the reviews: the mean
      and the count, or 0 and 0 when it has none. */
  predicate RatedFrom(prod: Catalog.Product, xs: seq<real>) {
    prod.numReviews == |xs| && prod.rating == (if |xs| == 0 then 0.0 else Mean(xs))
  }

  /** Every product's rating fields agree with its stand-alone reviews. */
  predicate Consistent(st: ReviewState) {
    forall p :: p in st.products ==> RatedFrom(st.products[p], RatingsFor(st.reviews, p))
  }

  /** The review with the given id: the first one carrying it. */
  function IndexOf(rs: seq<Review>, id: ReviewId): (r: Option<nat>)
    ensures r.None? <==> forall i :: 0 <= i < |rs| ==> rs[i].id != id
    ensures r.Some? ==> r.value < |rs| && rs[r.value].id == id
  {
    if |rs| == 0 then None
    else if rs[0].id == id then Some(0)
    else match IndexOf(rs[1..], id)
      case None => None
      case Some(i) => Some(i + 1)
  }

  /** Whether `user` has already reviewed `p`. */
  predicate HasReviewed(rs: seq<Review>, p: ProductId, user: UserId) {
    exists i :: 0 <= i < |rs| && rs[i].product == p && rs[i].user == user
  }

  // ---------------------------------------------------------------- facts about RatingsFor

  lemma {:induction false} RatingsForAppend(a: seq<Review>, b: seq<Review>, p: ProductId)
    ensures RatingsFor(a + b, p) == RatingsFor(a, p) + RatingsFor(b, p)
    decreases |b|
  {
    if |b| == 0 {
      assert a + b == a;
    } else {
      assert (a + b)[..|a + b| - 1] == a + b[..|b| - 1];
      RatingsForAppend(a, b[..|b| - 1], p);
    }
  }

  lemma RatingsForOne(r: Review, p: ProductId)
    ensures RatingsFor([r], p) == if r.product == p then [r.rating] else []
  {
    assert [r][..0] == [];
  }

  /** Splitting the collection around position `i`. */
  lemma RatingsForAround(rs: seq<Review>, i: nat, p: ProductId)
    requires i < |rs|
    ensures RatingsFor(rs, p) == RatingsFor(rs[..i], p) + RatingsFor([rs[i]], p) + RatingsFor(rs[i + 1..], p)
  {
    assert rs == rs[..i] + [rs[i]] + rs[i + 1..];
    RatingsForAppend(rs[..i] + [rs[i]], rs[i + 1..], p);
    RatingsForAppend(rs[..i], [rs[i]], p);
  }

  /** Ratings of the reviews all lying in a range are all in the range. */
  lemma {:induction false} RatingsForWithin(rs: seq<Review>, p: ProductId, lo: real, hi: real)
    requires forall i :: 0 <= i < |rs| ==> lo <= rs[i].rating <= hi
    ensures forall k :: 0 <= k < |RatingsFor(rs, p)| ==> lo <= RatingsFor(rs, p)[k] <= hi
  {
    if |rs| > 0 {
      RatingsForWithin(rs[..|rs| - 1], p, lo, hi);
    }
  }

  /** Removing a review of another product leaves `p`'s ratings as they were. */
  lemma RatingsForWithout(rs: seq<Review>, i: nat, p: ProductId)
    requires i < |rs| && rs[i].product != p
    ensures RatingsFor(rs[..i] + rs[i + 1..], p) == RatingsFor(rs, p)
  {
    RatingsForAround(rs, i, p);
    RatingsForAppend(rs[..i], rs[i + 1..], p);
    RatingsForOne(rs[i], p);
    assert RatingsFor(rs[..i], p) + RatingsFor([rs[i]], p) == RatingsFor(rs[..i], p);
  }

  /** Replacing a review by one for the same product keeps every product's
      number of ratings, changes no other product's ratings, and changes none
      at all when the rating is kept. */
  lemma RatingsForReplace(rs: seq<Review>, i: nat, x: Review, p: ProductId)
    requires i < |rs| && x.product == rs[i].product
    ensures |RatingsFor(rs[i := x], p)| == |RatingsFor(rs, p)|
    ensures x.product != p || x.rating == rs[i].rating ==> RatingsFor(rs[i := x], p) == RatingsFor(rs, p)
    ensures x.product == p ==> |RatingsFor(rs[i := x], p)| > 0
  {
    var rs' := rs[i := x];
    RatingsForAround(rs, i, p);
    RatingsForAround(rs', i, p);
    assert rs'[..i] == rs[..i] && rs'[i + 1..] == rs[i + 1..];
    RatingsForOne(rs[i], p);
    RatingsForOne(x, p);
  }

  // ---------------------------------------------------------------- handlers

  /** `createReview`; `id` is the fresh id the store assigns. The review is
      stored as written and marked verified. */
  function CreateReview(
    st: ReviewState, id: ReviewId, p: ProductId, user: UserId, rating: real, title: string, comment: string)
    : (r: Result<ReviewState>)
    ensures p !in st.products ==> r == Err(Failure(404, "Product not found"))
    ensures p in st.products && HasReviewed(st.reviews, p, user) ==>
      r == Err(Failure(400, "You have already reviewed this product"))
    ensures r.Ok? <==> p in st.products && !HasReviewed(st.reviews, p, user)
    ensures r.Ok? ==>
      && r.value.reviews == st.reviews + [Review(id, p, user, rating, title, comment, true, 0, 0, None)]
      && r.value.products.Keys == st.products.Keys
      && r.value.products == st.products[p := r.value.products[p]]
      && var xs := RatingsFor(r.value.reviews, p);
      && |xs| > 0
      && r.value.products[p] == st.products[p].(rating := Mean(xs), numReviews := |xs|)
  {
    if p !in st.products then Err(Failure(404, "Product not found"))
    else if HasReviewed(st.reviews, p, user) then Err(Failure(400, "You have already reviewed this product"))
    else
      var reviews := st.reviews + [Review(id, p, user, rating, title, comment, true, 0, 0, None)];
      var xs := RatingsFor(reviews, p);
      assert |xs| > 0 by {
        assert reviews[..|reviews| - 1] == st.reviews;
      }
      Ok(ReviewState(st.products[p := st.products[p].(rating := Mean(xs), numReviews := |xs|)], reviews))
  }

  /** `updateReview`: only the author may change a review, which takes the
      new rating, title and comment and is stamped with the time `now`; the
      product's rating becomes the new mean, its review count is not touched. */
  function UpdateReview(
    st: ReviewState, id: ReviewId, user: UserId, rating: real, title: string, comment: string, now: int)
    : (r: Result<ReviewState>)
    ensures IndexOf(st.reviews, id).None? ==> r == Err(Failure(404, "Review not found"))
    ensures IndexOf(st.reviews, id).Some? && st.reviews[IndexOf(st.reviews, id).value].user != user ==>
      r == Err(Failure(403, "Not authorized to update this review"))
    ensures r.Ok? <==> IndexOf(st.reviews, id).Some? && st.reviews[IndexOf(st.reviews, id).value].user == user
    ensures r.Ok? ==> var i := IndexOf(st.reviews, id).value; var p := st.reviews[i].product;
      && r.value.reviews == st.reviews[i := st.reviews[i].(rating := rating, title := title, comment := comment, updatedAt := Some(now))]
      && r.value.products.Keys == st.products.Keys
      && (p !in st.products ==> r.value.products == st.products)
      && (p in st.products ==>
            && |RatingsFor(r.value.reviews, p)| > 0
            && r.value.products == st.products[p := st.products[p].(rating := Mean(RatingsFor(r.value.reviews, p)))])
  {
    match IndexOf(st.reviews, id)
    case None => Err(Failure(404, "Review not found"))
    case Some(i) =>
      if st.reviews[i].user != user then Err(Failure(403, "Not authorized to update this review"))
      else
        var reviews := st.reviews[i := st.reviews[i].(rating := rating, title := title, comment := comment, updatedAt := Some(now))];
        var p := st.reviews[i].product;
        if p !in st.products then Ok(ReviewState(st.products, reviews))
        else
          var xs := RatingsFor(reviews, p);
          assert |xs| > 0 by {
            RatingsForReplace(st.reviews, i, reviews[i], p);
          }
          Ok(ReviewState(st.products[p := st.products[p].(rating := Mean(xs))], reviews))
  }

  /** `deleteReview`: the author or an admin may delete; the product's
      rating and count become those of the remaining reviews, or 0 and 0. */
  function DeleteReview(st: ReviewState, id: ReviewId, user: UserId, role: string): (r: Result<ReviewState>)
    ensures IndexOf(st.reviews, id).None? ==> r == Err(Failure(404, "Review not found"))
    ensures r.Ok? <==>
      IndexOf(st.reviews, id).Some? && (st.reviews[IndexOf(st.reviews, id).value].user == user || role == "admin")
    ensures IndexOf(st.reviews, id).Some? && !r.Ok? ==> r == Err(Failure(403, "Not authorized to delete this review"))
    ensures r.Ok? ==> var i := IndexOf(st.reviews, id).value; var p := st.reviews[i].product;
      && r.value.reviews == st.reviews[..i] + st.reviews[i + 1..]
      && r.value.products.Keys == st.products.Keys
      && (p !in st.products ==> r.value.products == st.products)
      && (p in st.products ==>
            && r.value.products == st.products[p := r.value.products[p]]
            && RatedFrom(r.value.products[p], RatingsFor(r.value.reviews, p))
            && r.value.products[p] == st.products[p].(rating := r.value.products[p].rating,
                                                      numReviews := r.value.products[p].numReviews))
  {
    match IndexOf(st.reviews, id)
    case None => Err(Failure(404, "Review not found"))
    case Some(i) =>
      if st.reviews[i].user != user && role != "admin" then Err(Failure(403, "Not authorized to delete this review"))
      else
        var reviews := st.reviews[..i] + st.reviews[i + 1..];
        var p := st.reviews[i].product;
        if p !in st.products then Ok(ReviewState(st.products, reviews))
        else
          var xs := RatingsFor(reviews, p);
          var prod := if |xs| > 0 then st.products[p].(rating := Mean(xs), numReviews := |xs|)
                      else st.products[p].(rating := 0.0, numReviews := 0);
          Ok(ReviewState(st.products[p := prod], reviews))
  }

  /** `markHelpful`. */
  function MarkHelpful(rs: seq<Review>, id: ReviewId): (r: Result<seq<Review>>)
    ensures r.Ok? <==> IndexOf(rs, id).Some?
    ensures r.Err? ==> r.failure == Failure(404, "Review not found")
    ensures r.Ok? ==> var i := IndexOf(rs, id).value;
      r.value == rs[i := rs[i].(helpful := rs[i].helpful + 1)]
  {
    match IndexOf(rs, id)
    case None => Err(Failure(404, "Review not found"))
    case Some(i) => Ok(rs[i := rs[i].(helpful := rs[i].helpful + 1)])
  }

  /** `markUnhelpful`. */
  function MarkUnhelpful(rs: seq<Review>, id: ReviewId): (r: Result<seq<Review>>)
    ensures r.Ok? <==> IndexOf(rs, id).Some?
    ensures r.Err? ==> r.failure == Failure(404, "Review not found")
    ensures r.Ok? ==> var i := IndexOf(rs, id).value;
      r.value == rs[i := rs[i].(unhelpful := rs[i].unhelpful + 1)]
  {
    match IndexOf(rs, id)
    case None => Err(Failure(404, "Review not found"))
    case Some(i) => Ok(rs[i := rs[i].(unhelpful := rs[i].unhelpful + 1)])
  }

  // ---------------------------------------------------------------- the rating invariant

  /** Creating a review keeps every product's rating fields consistent. */
  lemma CreateKeepsConsistent(
    st: ReviewState, id: ReviewId, p: ProductId, user: UserId, rating: real, title: string, comment: string)
    requires Consistent(st)
    ensures var r := CreateReview(st, id, p, user, rating, title, comment); r.Ok? ==> Consistent(r.value)
  {
    var r := CreateReview(st, id, p, user, rating, title, comment);
    if r.Ok? {
      var nr := Review(id, p, user, rating, title, comment, true, 0, 0, None);
      forall q | q in r.value.products && q != p
        ensures RatedFrom(r.value.products[q], RatingsFor(r.value.reviews, q))
      {
        RatingsForAppend(st.reviews, [nr], q);
        RatingsForOne(nr, q);
        assert RatingsFor(r.value.reviews, q) == RatingsFor(st.reviews, q);
      }
    }
  }

  /** Updating a review keeps every product's rating fields consistent: the
      count is untouched because the number of reviews is unchanged. */
  lemma UpdateKeepsConsistent(
    st: ReviewState, id: ReviewId, user: UserId, rating: real, title: string, comment: string, now: int)
    requires Consistent(st)
    ensures var r := UpdateReview(st, id, user, rating, title, comment, now); r.Ok? ==> Consistent(r.value)
  {
    var r := UpdateReview(st, id, user, rating, title, comment, now);
    if r.Ok? {
      var i := IndexOf(st.reviews, id).value;
      var rs := r.value.reviews;
      forall q | q in r.value.products
        ensures RatedFrom(r.value.products[q], RatingsFor(rs, q))
      {
        RatingsForReplace(st.reviews, i, rs[i], q);
      }
    }
  }

  /** Deleting a review keeps every product's rating fields consistent. */
  lemma DeleteKeepsConsistent(st: ReviewState, id: ReviewId, user: UserId, role: string)
    requires Consistent(st)
    ensures var r := DeleteReview(st, id, user, role); r.Ok? ==> Consistent(r.value)
  {
    var r := DeleteReview(st, id, user, role);
    if r.Ok? {
      var i := IndexOf(st.reviews, id).value;
      var p := st.reviews[i].product;
      forall q | q in r.value.products && q != p
        ensures RatedFrom(r.value.products[q], RatingsFor(r.value.reviews, q))
      {
        RatingsForWithout(st.reviews, i, q);
      }
    }
  }

  /** Marking a review helpful or unhelpful changes no rating. */
  lemma MarksKeepConsistent(st: ReviewState, id: ReviewId)
    requires Consistent(st)
    ensures MarkHelpful(st.reviews, id).Ok? ==> Consistent(ReviewState(st.products, MarkHelpful(st.reviews, id).value))
    ensures MarkUnhelpful(st.reviews, id).Ok? ==> Consistent(ReviewState(st.products, MarkUnhelpful(st.reviews, id).value))
  {
    match IndexOf(st.reviews, id)
    case None =>
    case Some(i) =>
      var h := MarkHelpful(st.reviews, id).value;
      var u := MarkUnhelpful(st.reviews, id).value;
      forall q | q in st.products
        ensures RatingsFor(h, q) == RatingsFor(st.reviews, q) && RatingsFor(u, q) == RatingsFor(st.reviews, q)
      {
        RatingsForReplace(st.reviews, i, h[i], q);
        RatingsForReplace(st.reviews, i, u[i], q);
      }
  }

  /** When every review rates 1 to 5, a consistent state gives every
      reviewed product a rating from 1 to 5 and every other product 0. */
  lemma ConsistentRatingsInScale(st: ReviewState, p: ProductId)
    requires Consistent(st) && p in st.products
    requires forall i :: 0 <= i < |st.reviews| ==> 1.0 <= st.reviews[i].rating <= 5.0
    ensures st.products[p].numReviews > 0 ==> 1.0 <= st.products[p].rating <= 5.0
    ensures st.products[p].numReviews == 0 ==> st.products[p].rating == 0.0
  {
    var xs := RatingsFor(st.reviews, p);
    if |xs| > 0 {
      RatingsForWithin(st.reviews, p, 1.0, 5.0);
      MeanBounds(xs, 1.0, 5.0);
    }
  }

  /** Deleting a product's only review resets its rating and count to 0. */
  lemma DeletingLastReviewResets(st: ReviewState, id: ReviewId, user: UserId, role: string)
    requires IndexOf(st.reviews, id).Some?
    requires var i := IndexOf(st.reviews, id).value;
      && st.reviews[i].user == user && st.reviews[i].product in st.products
      && |RatingsFor(st.reviews, st.reviews[i].product)| == 1
    ensures var r := DeleteReview(st, id, user, role); var p := st.reviews[IndexOf(st.reviews, id).value].product;
      r.Ok? && r.value.products[p].rating == 0.0 && r.value.products[p].numReviews == 0
  {
    var i := IndexOf(st.reviews, id).value;
    var p := st.reviews[i].product;
    RatingsForAround(st.reviews, i, p);
    RatingsForAppend(st.reviews[..i], st.reviews[i + 1..], p);
    RatingsForOne(st.reviews[i], p);
  }
}

=== FILE: validators.dfy ===
/** The field-format predicates of the server's validation utilities:
    credit card (Luhn), phone, CVV, e-mail, slug, string length and enum
    membership. Each pattern-based validator is stated as the language its
    regular expression accepts. */
module Validators {

  predicate IsDigit(c: char) {
    '0' <= c <= '9'
  }

  /** The characters JavaScript's `\s` class matches and `String.prototype.trim`
      strips: the ECMAScript WhiteSpace and LineTerminator code points. */
  predicate IsSpace(c: char) {
    var n := c as int;
    || (0x09 <= n <= 0x0D) || n == 0x20 || n == 0xA0 || n == 0x1680
    || (0x2000 <= n <= 0x200A) || n == 0x2028 || n == 0x2029
    || n == 0x202F || n == 0x205F || n == 0x3000 || n == 0xFEFF
  }

  predicate AllDigits(s: string) {
    forall i :: 0 <= i < |s| ==> IsDigit(s[i])
  }

  function DigitValue(c: char): (d: int)
    requires IsDigit(c)
    ensures 0 <= d <= 9
  {
    c as int - '0' as int
  }

  /** `s.replace(/\D/g, '')`: the digits of `s`, in their order. */
  function DigitsOf(s: string): (r: string)
    ensures |r| <= |s|
    ensures AllDigits(r)
    ensures forall c :: c in r <==> c in s && IsDigit(c)
  {
    if |s| == 0 then []
    else DigitsOf(s[..|s| - 1]) + (if IsDigit(s[|s| - 1]) then [s[|s| - 1]] else [])
  }

  /** Stripping distributes over concatenation, so the digits keep their order. */
  lemma {:induction false} DigitsOfAppend(a: string, b: string)
    ensures DigitsOf(a + b) == DigitsOf(a) + DigitsOf(b)
  {
    if |b| == 0 {
      assert a + b == a;
    } else {
      assert (a + b)[..|a + b| - 1] == a + b[..|b| - 1];
      DigitsOfAppend(a, b[..|b| - 1]);
    }
  }

  /** A single character is kept iff it is a digit. */
  lemma DigitsOfOne(c: char)
    ensures DigitsOf([c]) == if IsDigit(c) then [c] else []
  {
    assert [c][..0] == [];
  }

  /** Stripping non-digits from a string of digits gives the string back. */
  lemma {:induction false} DigitsOfDigits(s: string)
    requires AllDigits(s)
    ensures DigitsOf(s) == s
  {
    if |s| > 0 {
      DigitsOfDigits(s[..|s| - 1]);
      assert s[..|s| - 1] + [s[|s| - 1]] == s;
    }
  }

  // ---------------------------------------------------------------- credit card

  /** One digit's contribution to the Luhn sum: a doubled digit above 9 loses 9. */
  function LuhnTerm(d: int, doubled: bool): int {
    if !doubled then d else if d * 2 > 9 then d * 2 - 9 else d * 2
  }

  /** Position `i` of an `n`-digit number is doubled when it is an odd
      distance from the last digit: every second digit from the right. */
  predicate DoubledAt(n: int, i: int) {
    (n - 1 - i) % 2 == 1
  }

  /** The Luhn sum of the digits at positions `i` and beyond. */
  function LuhnSumFrom(ds: string, i: nat): int
    requires AllDigits(ds) && i <= |ds|
    decreases |ds| - i
  {
    if i == |ds| then 0
    else LuhnTerm(DigitValue(ds[i]), DoubledAt(|ds|, i)) + LuhnSumFrom(ds, i + 1)
  }

  /** A card number is valid when it has 13 to 19 digits once the
      non-digits are dropped and its Luhn sum is a multiple of 10. */
  predicate IsValidCardNumber(s: string) {
    var ds := DigitsOf(s);
    13 <= |ds| <= 19 && LuhnSumFrom(ds, 0) % 10 == 0
  }

  /** `validators.creditCard`: walks the digits from the right, doubling every
      second one. */
  method CreditCard(cardNumber: string) returns (ok: bool)
    ensures ok <==> IsValidCardNumber(cardNumber)
  {
    var digits := DigitsOf(cardNumber);
    if |digits| < 13 || |digits| > 19 {
      return false;
    }
    var sum := 0;
    var isEven := false;
    var i := |digits| - 1;
    while i >= 0
      invariant -1 <= i < |digits|
      invariant sum == LuhnSumFrom(digits, i + 1)
      invariant isEven <==> DoubledAt(|digits|, i)
    {
      var digit := DigitValue(digits[i]);
      if isEven {
        digit := digit * 2;
        if digit > 9 {
          digit := digit - 9;
        }
      }
      sum := sum + digit;
      isEven := !isEven;
      i := i - 1;
    }
    ok := sum % 10 == 0;
  }

  // ---------------------------------------------------------------- phone

  predicate IsPhoneChar(c: char) {
    IsDigit(c) || IsSpace(c) || c == '-' || c == '+' || c == '(' || c == ')'
  }

  /** `/^[\d\s\-\+\(\)]+$/`. */
  predicate PhonePattern(s: string) {
    |s| > 0 && forall i :: 0 <= i < |s| ==> IsPhoneChar(s[i])
  }

  /** The pattern, and at least ten digits. */
  predicate Phone(s: string) {
    PhonePattern(s) && |DigitsOf(s)| >= 10
  }

  /** `validators.phone` as one left-to-right scan that counts digits. */
  method CheckPhone(s: string) returns (ok: bool)
    ensures ok <==> Phone(s)
  {
    var digits := 0;
    var i := 0;
    while i < |s|
      invariant 0 <= i <= |s|
      invariant digits == |DigitsOf(s[..i])|
      invariant forall k :: 0 <= k < i ==> IsPhoneChar(s[k])
    {
      if !IsPhoneChar(s[i]) {
        return false;
      }
      assert s[..i + 1][..i] == s[..i];
      if IsDigit(s[i]) {
        digits := digits + 1;
      }
      i := i + 1;
    }
    assert s[..i] == s;
    ok := |s| > 0 && digits >= 10;
  }

  // ---------------------------------------------------------------- cvv

  /** `/^\d{3,4}$/`. */
  predicate Cvv(s: string) {
    (|s| == 3 || |s| == 4) && AllDigits(s)
  }

  /** An accepted CVV is its own digit string, of three or four digits. */
  lemma CvvIsDigitString(s: string)
    requires Cvv(s)
    ensures DigitsOf(s) == s && 3 <= |DigitsOf(s)| <= 4
  {
    DigitsOfDigits(s);
  }

  // ---------------------------------------------------------------- email

  /** A run of `[^\s@]`. */
  predicate NoSpaceOrAt(t: string) {
    forall i :: 0 <= i < |t| ==> !IsSpace(t[i]) && t[i] != '@'
  }

  /** `/^[^\s@]+@[^\s@]+\.[^\s@]+$/`: a non-empty run of characters other than
      whitespace and `@`, then `@`, then such a run, a `.`, and such a run. */
  predicate Email(s: string) {
    exists a, d ::
      && 0 < a < |s| && a + 1 < d < |s| - 1
      && s[a] == '@' && s[d] == '.'
      && NoSpaceOrAt(s[..a]) && NoSpaceOrAt(s[a + 1..d]) && NoSpaceOrAt(s[d + 1..])
  }

  /** The same language without the pattern: no whitespace anywhere, exactly
      one `@`, not in first place, and a `.` after it with at least one
      character between them and at least one after the `.`. */
  predicate EmailShape(s: string) {
    && (forall i :: 0 <= i < |s| ==> !IsSpace(s[i]))
    && exists a ::
      && 0 < a < |s| && s[a] == '@'
      && (forall i :: 0 <= i < |s| && s[i] == '@' ==> i == a)
      && exists d :: a + 1 < d < |s| - 1 && s[d] == '.'
  }

  lemma EmailIffShape(s: string)
    ensures Email(s) <==> EmailShape(s)
  {
    if Email(s) {
      EmailHasShape(s);
    }
    if EmailShape(s) {
      ShapeIsEmail(s);
    }
  }

  lemma EmailHasShape(s: string)
    requires Email(s)
    ensures EmailShape(s)
  {
    var a, d :| && 0 < a < |s| && a + 1 < d < |s| - 1
                && s[a] == '@' && s[d] == '.'
                && NoSpaceOrAt(s[..a]) && NoSpaceOrAt(s[a + 1..d]) && NoSpaceOrAt(s[d + 1..]);
    forall i | 0 <= i < |s|
      ensures !IsSpace(s[i]) && (s[i] == '@' ==> i == a)
    {
      if i < a {
        assert s[..a][i] == s[i];
      } else if a < i < d {
        assert s[a + 1..d][i - a - 1] == s[i];
      } else if d < i {
        assert s[d + 1..][i - d - 1] == s[i];
      }
    }
  }

  lemma ShapeIsEmail(s: string)
    requires EmailShape(s)
    ensures Email(s)
  {
    var a :| && 0 < a < |s| && s[a] == '@'
             && (forall i :: 0 <= i < |s| && s[i] == '@' ==> i == a)
             && exists d :: a + 1 < d < |s| - 1 && s[d] == '.';
    var d :| a + 1 < d < |s| - 1 && s[d] == '.';
    assert NoSpaceOrAt(s[..a]);
    assert NoSpaceOrAt(s[a + 1..d]);
    assert NoSpaceOrAt(s[d + 1..]);
  }

  // ---------------------------------------------------------------- slug

  predicate IsSlugChar(c: char) {
    'a' <= c <= 'z' || '0' <= c <= '9'
  }

  /** `[a-z0-9]+`. */
  predicate IsSegment(t: string) {
    |t| > 0 && forall i :: 0 <= i < |t| ==> IsSlugChar(t[i])
  }

  /** `/^[a-z0-9]+(?:-[a-z0-9]+)*$/`, read character by character: lower-case
      letters, digits and hyphens, no hyphen first or last, no two in a row. */
  predicate Slug(s: string) {
    && |s| > 0 && s[0] != '-' && s[|s| - 1] != '-'
    && (forall i :: 0 <= i < |s| ==> IsSlugChar(s[i]) || s[i] == '-')
    && (forall i :: 0 <= i < |s| - 1 && s[i] == '-' ==> s[i + 1] != '-')
  }

  /** Segments joined by single hyphens. */
  function JoinSegments(segs: seq<string>): string
    requires |segs| > 0
  {
    if |segs| == 1 then segs[0] else segs[0] + "-" + JoinSegments(segs[1..])
  }

  /** The index of the first hyphen of `s`, or `|s|` when there is none. */
  function FirstHyphen(s: string): (k: nat)
    ensures k <= |s|
    ensures k < |s| ==> s[k] == '-'
    ensures forall i :: 0 <= i < k ==> s[i] != '-'
  {
    if |s| == 0 then 0
    else if s[0] == '-' then 0
    else 1 + FirstHyphen(s[1..])
  }

  /** `s.split('-')`. */
  function SplitOnHyphen(s: string): (segs: seq<string>)
    ensures |segs| > 0
    decreases |s|
  {
    var k := FirstHyphen(s);
    if k == |s| then [s] else [s[..k]] + SplitOnHyphen(s[k + 1..])
  }

  predicate AllSegments(segs: seq<string>) {
    forall i :: 0 <= i < |segs| ==> IsSegment(segs[i])
  }

  /** Joining valid segments always yields a slug. */
  lemma {:induction false} JoinedSegmentsAreSlug(segs: seq<string>)
    requires |segs| > 0 && AllSegments(segs)
    ensures Slug(JoinSegments(segs))
  {
    if |segs| > 1 {
      var head := segs[0];
      var rest := JoinSegments(segs[1..]);
      JoinedSegmentsAreSlug(segs[1..]);
      var s := head + "-" + rest;
      assert s == JoinSegments(segs);
      assert forall i :: 0 <= i < |head| ==> s[i] == head[i];
      assert s[|head|] == '-';
      assert forall i :: |head| < i < |s| ==> s[i] == rest[i - |head| - 1];
      assert s[|s| - 1] == rest[|rest| - 1];
      forall i | 0 <= i < |s| - 1 && s[i] == '-'
        ensures s[i + 1] != '-'
      {
        if i == |head| {
          assert s[i + 1] == rest[0];
        } else {
          assert s[i + 1] == rest[i - |head|];
        }
      }
    }
  }

  /** Every slug is the hyphen-join of its (valid) hyphen-separated segments. */
  lemma {:induction false} SlugSplitsIntoSegments(s: string)
    requires Slug(s)
    ensures AllSegments(SplitOnHyphen(s)) && JoinSegments(SplitOnHyphen(s)) == s
  {
    var k := FirstHyphen(s);
    if k < |s| {
      var head := s[..k];
      var rest := s[k + 1..];
      assert k > 0;
      assert k < |s| - 1;
      assert rest[0] == s[k + 1];
      assert forall i :: 0 <= i < |rest| ==> rest[i] == s[k + 1 + i];
      assert Slug(rest);
      SlugSplitsIntoSegments(rest);
      var segs := SplitOnHyphen(s);
      assert segs == [head] + SplitOnHyphen(rest);
      assert segs[1..] == SplitOnHyphen(rest);
      assert IsSegment(head);
      assert s == head + "-" + rest;
    }
  }

  /** The character-level reading of the slug pattern agrees with its
      grammar: one or more `[a-z0-9]+` segments joined by single hyphens. */
  lemma SlugIffSegments(s: string)
    ensures Slug(s) <==> exists segs :: |segs| > 0 && AllSegments(segs) && JoinSegments(segs) == s
  {
    if Slug(s) {
      SlugSplitsIntoSegments(s);
      var segs := SplitOnHyphen(s);
      assert |segs| > 0 && AllSegments(segs) && JoinSegments(segs) == s;
    }
    if exists segs :: |segs| > 0 && AllSegments(segs) && JoinSegments(segs) == s {
      var segs :| |segs| > 0 && AllSegments(segs) && JoinSegments(segs) == s;
      JoinedSegmentsAreSlug(segs);
    }
  }

  // ---------------------------------------------------------------- length, enum

  /** `s.length`: the number of UTF-16 code units, in which a character
      beyond U+FFFF takes two. */
  function Utf16Length(s: string): (n: nat)
    ensures |s| <= n <= 2 * |s|
    ensures n == 0 <==> |s| == 0
  {
    if |s| == 0 then 0
    else Utf16Length(s[..|s| - 1]) + (if s[|s| - 1] as int >= 0x10000 then 2 else 1)
  }

  /** The length of a concatenation is the sum of the lengths. */
  lemma {:induction false} Utf16LengthAppend(a: string, b: string)
    ensures Utf16Length(a + b) == Utf16Length(a) + Utf16Length(b)
  {
    if |b| == 0 {
      assert a + b == a;
    } else {
      assert (a + b)[..|a + b| - 1] == a + b[..|b| - 1];
      Utf16LengthAppend(a, b[..|b| - 1]);
    }
  }

  /** Without characters beyond U+FFFF, the length is the number of characters. */
  lemma {:induction false} Utf16LengthOfBasicPlane(s: string)
    requires forall i :: 0 <= i < |s| ==> s[i] as int < 0x10000
    ensures Utf16Length(s) == |s|
  {
    if |s| > 0 {
      Utf16LengthOfBasicPlane(s[..|s| - 1]);
    }
  }

  /** `validators.stringLength(str, min, max)`; an empty string is falsy and is
      rejected whatever `min` is. */
  predicate StringLength(s: string, min: int, max: int) {
    |s| > 0 && min <= Utf16Length(s) <= max
  }

  /** With the defaults `min = 1`, `max = 255`; the empty string is rejected
      even when `min` allows length 0; and a character beyond U+FFFF counts twice. */
  lemma StringLengthBounds(s: string, max: int)
    ensures StringLength(s, 1, 255) <==> 1 <= Utf16Length(s) <= 255
    ensures !StringLength("", 0, max)
    ensures !StringLength("\U{1F600}", 1, 1) && StringLength("\U{1F600}", 2, 2)
  {
    assert "\U{1F600}"[..0] == "";
  }

  /** `validators.enum(value, allowedValues)`. */
  predicate Enum<T(==)>(value: T, allowed: seq<T>): (b: bool)
    ensures b <==> exists i :: 0 <= i < |allowed| && allowed[i] == value
  {
    value in allowed
  }

  /** Nothing is allowed by an empty list; a list of one allows exactly its
      element; and a joined list allows what either part allows. */
  lemma EnumLists<T>(value: T, x: T, a: seq<T>, b: seq<T>)
    ensures !Enum(value, [])
    ensures Enum(value, [x]) <==> value == x
    ensures Enum(value, a + b) <==> Enum(value, a) || Enum(value, b)
  {
  }
}

=== FILE: wishlists.dfy ===
/** Wishlists: one list of saved products per user, created on first use,
    that never holds a product twice. */
module Wishlists {
  import opened Common
  import Catalog

  /** Each user's saved products, in the order they were added. */
  type WishlistStore = map<UserId, seq<ProductId>>

  /** A product appears at most once. */
  predicate NoDuplicates(items: seq<ProductId>) {
    forall i, j :: 0 <= i < j < |items| ==> items[i] != items[j]
  }

  predicate AllDistinct(store: WishlistStore) {
    forall u :: u in store ==> NoDuplicates(store[u])
  }

  /** The user's list, or the empty list a lazy create would store. */
  function ItemsOf(store: WishlistStore, user: UserId): seq<ProductId> {
    if user in store then store[user] else []
  }

  /** `getWishlist`: the user's list, created empty when they have none. */
  function GetWishlist(store: WishlistStore, user: UserId): (r: (WishlistStore, seq<ProductId>))
    ensures user in r.0 && r.0[user] == r.1
    ensures user in store ==> r.0 == store && r.1 == store[user]
    ensures user !in store ==> r.0 == store[user := []] && r.1 == []
  {
    (store[user := ItemsOf(store, user)], ItemsOf(store, user))
  }

  /** `addToWishlist`: an unknown product is refused; a product already
      saved changes nothing; otherwise it goes at the end. */
  function AddToWishlist(products: Catalog.ProductStore, store: WishlistStore, user: UserId, p: ProductId)
    : (r: Result<WishlistStore>)
    ensures r.Ok? <==> p in products
    ensures r.Err? ==> r.failure == Failure(404, "Product not found")
    ensures r.Ok? ==> user in r.value && r.value == store[user := r.value[user]]
    ensures r.Ok? ==> p in ItemsOf(store, user) ==> r.value[user] == ItemsOf(store, user)
    ensures r.Ok? ==> p !in ItemsOf(store, user) ==> r.value[user] == ItemsOf(store, user) + [p]
  {
    if p !in products then Err(Failure(404, "Product not found"))
    else
      var items := ItemsOf(store, user);
      if p in items then Ok(store[user := items]) else Ok(store[user := items + [p]])
  }

  /** The list without any entry for `p`, others in their order. */
  function Without(items: seq<ProductId>, p: ProductId): (r: seq<ProductId>)
    ensures forall q :: q in r <==> q in items && q != p
    ensures |r| <= |items|
    ensures p !in items ==> r == items
  {
    if |items| == 0 then []
    else (if items[0] == p then [] else [items[0]]) + Without(items[1..], p)
  }

  /** Removing distributes over concatenation, so the kept entries stay in order. */
  lemma {:induction false} WithoutAppend(a: seq<ProductId>, b: seq<ProductId>, p: ProductId)
    ensures Without(a + b, p) == Without(a, p) + Without(b, p)
  {
    if |a| == 0 {
      assert a + b == b;
    } else {
      var c := a + b;
      assert c[0] == a[0] && c[1..] == a[1..] + b;
      WithoutAppend(a[1..], b, p);
    }
  }

  /** Removing keeps a list free of duplicates. */
  lemma {:induction false} WithoutKeepsNoDuplicates(items: seq<ProductId>, p: ProductId)
    requires NoDuplicates(items)
    ensures NoDuplicates(Without(items, p))
  {
    if |items| > 0 {
      WithoutKeepsNoDuplicates(items[1..], p);
      assert items[0] !in items[1..];
    }
  }

  /** `removeFromWishlist`. */
  function RemoveFromWishlist(store: WishlistStore, user: UserId, p: ProductId): (r: Result<WishlistStore>)
    ensures r.Ok? <==> user in store
    ensures r.Err? ==> r.failure == Failure(404, "Wishlist not found")
    ensures r.Ok? ==> user in r.value && r.value == store[user := Without(store[user], p)]
  {
    if user !in store then Err(Failure(404, "Wishlist not found"))
    else Ok(store[user := Without(store[user], p)])
  }

  /** `clearWishlist`. */
  function ClearWishlist(store: WishlistStore, user: UserId): (r: Result<WishlistStore>)
    ensures r.Ok? <==> user in store
    ensures r.Err? ==> r.failure == Failure(404, "Wishlist not found")
    ensures r.Ok? ==> user in r.value && r.value == store[user := []]
  {
    if user !in store then Err(Failure(404, "Wishlist not found"))
    else Ok(store[user := []])
  }

  /** `isInWishlist`. */
  function IsInWishlist(store: WishlistStore, user: UserId, p: ProductId): (b: bool)
    ensures b <==> user in store && exists i :: 0 <= i < |store[user]| && store[user][i] == p
    ensures user !in store ==> !b
  {
    user in store && p in store[user]
  }

  /** Every handler keeps every list free of duplicates. */
  lemma HandlersKeepNoDuplicates(products: Catalog.ProductStore, store: WishlistStore, user: UserId, p: ProductId)
    requires AllDistinct(store)
    ensures AllDistinct(GetWishlist(store, user).0)
    ensures AddToWishlist(products, store, user, p).Ok? ==> AllDistinct(AddToWishlist(products, store, user, p).value)
    ensures RemoveFromWishlist(store, user, p).Ok? ==> AllDistinct(RemoveFromWishlist(store, user, p).value)
    ensures ClearWishlist(store, user).Ok? ==> AllDistinct(ClearWishlist(store, user).value)
  {
    if user in store {
      WithoutKeepsNoDuplicates(store[user], p);
    }
  }

  /** A product is in the list right after it is added, and not in it right
      after it is removed. */
  lemma AddThenRemove(products: Catalog.ProductStore, store: WishlistStore, user: UserId, p: ProductId)
    requires p in products
    ensures var a := AddToWishlist(products, store, user, p);
      && a.Ok? && IsInWishlist(a.value, user, p)
      && var b := RemoveFromWishlist(a.value, user, p);
      && b.Ok? && !IsInWishlist(b.value, user, p)
  {
  }

  /** Adding the same product twice is adding it once. */
  lemma AddIdempotent(products: Catalog.ProductStore, store: WishlistStore, user: UserId, p: ProductId)
    requires p in products
    ensures var a := AddToWishlist(products, store, user, p);
      a.Ok? && AddToWishlist(products, a.value, user, p) == a
  {
    var a := AddToWishlist(products, store, user, p).value;
    assert p in ItemsOf(a, user);
    assert a[user := ItemsOf(a, user)] == a;
  }
}
